=== FILE: README.md ===
# Adaptive model router and agent logic of escrita-sincerta-llm-starter-pro, in Dafny

This project is a functional model of the decision logic in the escrita-sincerta
LLM starter backend, with proofs about it. It covers six pieces:

- **The adaptive router** (`advanced_router.py`):
  - the lexical classifiers for task complexity and task type;
  - model scoring against the static catalogue and the recorded metrics;
  - optimal selection, the capability-overlap fallback and `route_request` with its decision cache;
  - the metrics update and the routing statistics.

  The router's state (decision cache plus the metrics dictionary in insertion order) is an immutable `RouterState` threaded through pure functions. Whatever the router learns from the network (the `/api/tags` listing, the availability probe, an exception) comes in through an explicit `World` value, together with the environment and the clock.
- **The static table** `pick_model` (`router.py`).
- **The RAG text chunker** `chunk_text` (`tools/rag.py`). It is a `while` loop with invariants, checked against a recursive reference definition.
- **The agent layer** (`agents/`):
  - the registry and `BaseAgent.process`;
  - the first-match keyword dispatch of four agents;
  - the editor's quote parser and its read/modify/write sequence;
  - the builder's and the orchestrator's `{…}` block extraction, code-fence stripping and plan handling.
- **The project store** (`tools/project_writer.py`):
  - lexical path containment;
  - the nested file tree;
  - deletion.
- **Python's semantics, written out** wherever the code depends on them:
  - dictionary insertion order;
  - `max` choosing the first maximal element;
  - substring `in`, `find` and `rfind`;
  - slices with negative or out-of-range bounds;
  - `split` and `join`;
  - `strip` with the full `str.isspace` table;
  - single-pass `str.replace`;
  - truthiness.

Modules: `Common`, `Text`, `Dict` and `Selection` are shared primitives. `Catalog`, `Classifier`, `Scoring`, `Metrics` and `Routing` make up the adaptive router. The remaining modules are `SimpleRouter`, `Chunker`, `Agents`, `Dispatch`, `Editor`, `Plans` and `ProjectWriter`.

Where the documented intent and the code disagree, the model follows the code:

- An all-zero tie classifies as SIMPLE / IDEATION. That is the first-declared member; MEDIUM / CODING is never chosen this way, because the `or` defaults never fire.
- A text over 1000 characters gets the COMPLEX bonus only. The `elif len > 1000` branch is unreachable.
- The availability list can be empty when the server lists none of the configured models. Selection then answers GENERAL_MODEL with "fallback_default".
- `get_fallback_model` consults a second listing. It can return a model that the first listing did not offer.
- DevFullstackAgent is registered under "devfullstack". Its instances still report the name "dev_fullstack", and that is the name the classifier's agent bonus recognises.
- In the reflective agent, "ou" and "vs" match as substrings. Ordinary words such as "você" therefore select decision support.
- The editor also accepts a request with exactly three quotes, provided the quoted path occurs earlier in the message.
- Only the `ollama_chat` calls of a chat record metrics. A known agent calls the model through its own `call_ollama`, which records nothing, so `total_routes` does not count the chats that agents answer. A known agent that raised falls back to one `ollama_chat`. An agent outside the map is answered by `ollama_chat` inside the same `try`; when that call fails, the fallback catches its exception and calls `ollama_chat` again, so a failed chat is counted twice.
- The orchestrator plans with its default model. It ignores the routed model that `process` puts into its context, while the other agents use it.

## Model

| member | source | states |
|---|---|---|
| Catalog.ComplexityIndex | escrita-sincerta-llm-starter-pro/api/advanced_router.py:12-16 | Each complexity sits at its position in declaration order, which is also the order `max` scans and (plus one) the tier of `complexity_values`. |
| Catalog.TaskTypeIndex | escrita-sincerta-llm-starter-pro/api/advanced_router.py:18-26 | Each task type sits at its position in declaration order. |
| Catalog.LookupIn | escrita-sincerta-llm-starter-pro/api/advanced_router.py:53-86 | The configuration found for a catalogue name is that name's entry. |
| Catalog.GeneralistAndCoderEntries | escrita-sincerta-llm-starter-pro/api/advanced_router.py:70-85 | Both the creative generalist and the code specialist are configured, with capability lists [general, creative, analytical] and [coding, technical]. |
| Classifier.CountHits | escrita-sincerta-llm-starter-pro/api/advanced_router.py:174-177 | A keyword count never exceeds the list length, and it is 0 exactly when no entry occurs. |
| Classifier.CountHitsAppend | escrita-sincerta-llm-starter-pro/api/advanced_router.py:174-177 | Counting over two concatenated lists is the sum of the two counts, so an entry listed twice counts twice. |
| Classifier.RepeatedKeywordsCountTwice | escrita-sincerta-llm-starter-pro/api/advanced_router.py:106-141 | "normal" counts at least twice for MEDIUM, "expert" and "enterprise" at least twice for EXPERT, and "bug" at least twice for DEBUGGING, because the tables list them twice. |
| Classifier.LengthBonus | escrita-sincerta-llm-starter-pro/api/advanced_router.py:187-191 | EXPERT never gets a length bonus. COMPLEX gets 1 exactly when the text is longer than 500 characters. |
| Classifier.FirstMaxIndex | escrita-sincerta-llm-starter-pro/api/advanced_router.py:202-203 | `max(d, key=d.get)` returns the index holding the highest score, and every earlier index scores strictly less. |
| Classifier.FirstMaxUnique | escrita-sincerta-llm-starter-pro/api/advanced_router.py:202-203 | At most one index has that property, so the classifier's answer is determined by the scores. |
| Classifier.FirstMaxAvoidsZero | escrita-sincerta-llm-starter-pro/api/advanced_router.py:202-203 | An index scoring 0 never wins while an earlier index exists. |
| Classifier.AnalyzeComplexity | escrita-sincerta-llm-starter-pro/api/advanced_router.py:167-203 | The result is total and is the first-declared complexity with the highest score. The trailing `or MEDIUM` never applies. |
| Classifier.AnalyzeType | escrita-sincerta-llm-starter-pro/api/advanced_router.py:205-232 | The result is total and is the first-declared task type with the highest score. The trailing `or CODING` never applies. |
| Classifier.QuietTierScore | escrita-sincerta-llm-starter-pro/api/advanced_router.py:174-200 | Without context, a tier with no keyword hit (and, for EXPERT, no technical indicator) scores only its length bonus. |
| Classifier.OnlySimpleTriggersGiveSimple | escrita-sincerta-llm-starter-pro/api/advanced_router.py:167-203 | Without context, a text of at most 500 characters whose only triggers are SIMPLE ones (or none at all) is SIMPLE. An all-zero tie goes to SIMPLE. |
| Classifier.LongTextWithoutTriggersIsComplex | escrita-sincerta-llm-starter-pro/api/advanced_router.py:187-191 | Without context, a text longer than 500 characters and without any trigger is COMPLEX, never EXPERT: the `> 1000` branch is unreachable. |
| Classifier.ProjectSizeEffect | escrita-sincerta-llm-starter-pro/api/advanced_router.py:180-185 | A non-empty context adds 2 to EXPERT for "enterprise"/"large", and 1 to COMPLEX for "startup"/"medium" or a missing size. Any other size, and an empty context, add nothing. |
| Classifier.SizeBonusCases | escrita-sincerta-llm-starter-pro/api/advanced_router.py:180-185 | The project-size bonus, case by case over the size value. |
| Classifier.UnrecognisedAgentIsIgnored | escrita-sincerta-llm-starter-pro/api/advanced_router.py:218-229 | An agent name other than the five recognised ones (e.g. "builder_web") classifies exactly as if there were no context. |
| Classifier.UnrecognisedAgentBonus | escrita-sincerta-llm-starter-pro/api/advanced_router.py:218-229 | Such a name adds 0 to every task type. |
| Classifier.TypeIsNeverTestingOrDeployment | escrita-sincerta-llm-starter-pro/api/advanced_router.py:210-232 | The task type is never TESTING or DEPLOYMENT. |
| Classifier.NoSignalGivesIdeation | escrita-sincerta-llm-starter-pro/api/advanced_router.py:210-232 | With no type keyword and no agent bonus the task type is IDEATION. |
| Scoring.ModelScore | escrita-sincerta-llm-starter-pro/api/advanced_router.py:234-285 | The score is never negative, and it is 0 for an unconfigured model. For a configured model it equals the unclamped sum when that sum is positive, and it is exactly 0 otherwise. |
| Scoring.CapabilityBonusBounded | escrita-sincerta-llm-starter-pro/api/advanced_router.py:245-248 | At most two required capabilities match, so the capability bonus lies in [0, 5]. |
| Scoring.TierGap | escrita-sincerta-llm-starter-pro/api/advanced_router.py:250-264 | A task within the model's ceiling scores 3 + 2·gap more than one `gap` tiers above the ceiling. |
| Scoring.TierFlatWithinCeiling | escrita-sincerta-llm-starter-pro/api/advanced_router.py:258-262 | Any two task tiers within the ceiling score the same. |
| Scoring.HistoryIgnoredWithoutRequests | escrita-sincerta-llm-starter-pro/api/advanced_router.py:266-276 | A model with 0 recorded requests gets no history term, and it scores exactly as with the fresh entry (1.0, 0.0, 0), whatever rate and mean its entry holds. |
| Scoring.HistoryTermBounded | escrita-sincerta-llm-starter-pro/api/advanced_router.py:266-276 | With a success rate in [0, 1], the history term lies in [-9, 3]. |
| Scoring.PreferFastEffect | escrita-sincerta-llm-starter-pro/api/advanced_router.py:278-283 | A truthy `prefer_fast` adds 2 for low usage, subtracts 1 for high usage and leaves medium usage alone. An empty context never sets it. |
| Scoring.FalsyPreferFastIgnored | escrita-sincerta-llm-starter-pro/api/advanced_router.py:278-283 | A missing or falsy `prefer_fast` (False, 0, 0.0, "", an empty list or dictionary, None) leaves the score as without any context. |
| Scoring.GeneralistAndCoderCapabilities | escrita-sincerta-llm-starter-pro/api/advanced_router.py:70-85 | The generalist's and the coder's capability sets are disjoint. |
| Selection.ArgMax | escrita-sincerta-llm-starter-pro/api/advanced_router.py:310 | Python's `max(..., key=...)` returns an element with the highest key, and every earlier element has a strictly lower key. |
| Selection.ScanPositive | escrita-sincerta-llm-starter-pro/api/advanced_router.py:391-407 | The fallback scan returns a non-skipped element of the list with a positive key. That key is at least every other non-skipped key, and the element comes no later than any other element with the same key. |
| Selection.ScanPositiveBest | escrita-sincerta-llm-starter-pro/api/advanced_router.py:391-407 | The scan finds nothing exactly when every other element has key 0. Otherwise it finds the first element with the largest positive key. |
| Routing.AvailableModels | escrita-sincerta-llm-starter-pro/api/advanced_router.py:152-165 | A failed request yields the whole catalogue. Otherwise the result holds exactly the configured models that the server lists. |
| Routing.AvailableInCatalogueOrder | escrita-sincerta-llm-starter-pro/api/advanced_router.py:159-165 | Any two available models appear in the same order as in the catalogue, which is the order in which `max` meets them. |
| Routing.Listed | escrita-sincerta-llm-starter-pro/api/advanced_router.py:159-161 | The filter keeps exactly the configured names that are listed and never adds any. Any two kept names appear in the same order as in the catalogue. |
| Routing.Choose | escrita-sincerta-llm-starter-pro/api/advanced_router.py:303-327 | The chosen model is available and has the highest score. It is the first with that score in availability order. The routing record carries the type, tier, score, all scores, the availability list, the timestamp and "optimal_selection". |
| Routing.FirstMaxComesFirst | escrita-sincerta-llm-starter-pro/api/advanced_router.py:310 | The first maximal element occurs no later than any element with the same key. |
| Routing.SelectOptimal | escrita-sincerta-llm-starter-pro/api/advanced_router.py:287-327 | An empty availability list gives GENERAL_MODEL with reason "fallback_default". Otherwise the result is the optimal choice for the classified type and tier. |
| Routing.Fallback | escrita-sincerta-llm-starter-pro/api/advanced_router.py:382-407 | Nothing is returned for an unconfigured model. Anything returned is an available model other than the unavailable one. |
| Routing.FallbackNone | escrita-sincerta-llm-starter-pro/api/advanced_router.py:382-407 | The fallback is None exactly when the model is unconfigured or no other available model shares a capability with it. |
| Routing.FallbackBest | escrita-sincerta-llm-starter-pro/api/advanced_router.py:391-407 | Otherwise the fallback is the first available model with the largest positive capability overlap. |
| Routing.GeneralistAndCoderDisjoint | escrita-sincerta-llm-starter-pro/api/advanced_router.py:396-405 | `llama3.1:8b-instruct` and `codegemma:7b` share no capability, so neither can be the other's fallback. |
| Routing.Settle | escrita-sincerta-llm-starter-pro/api/advanced_router.py:342-353 | A successful probe keeps the selection. On failure the result is the capability fallback with "fallback_used" when there is one, else GENERAL_MODEL with "fallback_default". Only the reason of the record changes. |
| Routing.RouteRequest | escrita-sincerta-llm-starter-pro/api/advanced_router.py:329-364 | A cache hit returns the stored pair and changes nothing. An exception gives GENERAL_MODEL with "error_fallback" and an unchanged cache. Any other miss stores the settled decision under its key. The metrics are never touched. |
| Routing.ReasonExplainsModel | escrita-sincerta-llm-starter-pro/api/advanced_router.py:339-364 | For a fresh decision the reason explains the model. "optimal_selection" means a probed, available model. "fallback_used" means a different model sharing a capability with the selected one. "fallback_default" and "error_fallback" mean GENERAL_MODEL. |
| Routing.SettleExplains | escrita-sincerta-llm-starter-pro/api/advanced_router.py:342-353 | The same explanation holds for the probe step applied to any optimal or default selection. |
| Routing.SelectionReason | escrita-sincerta-llm-starter-pro/api/advanced_router.py:297-327 | A selection is either optimal among the available models or the GENERAL_MODEL default. |
| Routing.RepeatIsCached | escrita-sincerta-llm-starter-pro/api/advanced_router.py:333-337 | A second request with the same message and the same context items (in any order; None and {} alike; lists and dictionaries compared element by element) returns the first answer verbatim, timestamp included. It does this whatever the world answers and changes nothing. |
| Routing.DifferentItemsMiss | escrita-sincerta-llm-starter-pro/api/advanced_router.py:333-337 | A second request whose context items differ anywhere, down to one element of a list, misses the cache: it routes afresh and its answer is stored under its own key, next to the first. |
| Routing.FilesListsMiss | escrita-sincerta-llm-starter-pro/api/advanced_router.py:333-337 | A request with context {"files": [1]} does not answer a later one with {"files": [2]}: the second gets its own cache entry. |
| Routing.ErrorIsNotCached | escrita-sincerta-llm-starter-pro/api/advanced_router.py:360-364 | An exception leaves the router state unchanged, and the reason is "error_fallback". |
| Routing.CacheOnlyGrows | escrita-sincerta-llm-starter-pro/api/advanced_router.py:333-356 | The cache never forgets or rewrites an entry and grows by at most one per call. |
| Routing.GetRoutingStats | escrita-sincerta-llm-starter-pro/api/advanced_router.py:432-439 | The stats report the metrics table, the cache size, the catalogue names, and `total_routes` as the sum of all recorded request counts. |
| Routing.ChatDispatches | escrita-sincerta-llm-starter-pro/api/app.py:57-83 | The metric updates of one chat, one per `ollama_chat` call with its own outcome: none when a known agent answers; one when it raised; for an agent outside the map the first call's, followed by the retry's exactly when the first call failed. |
| Routing.Serve | escrita-sincerta-llm-starter-pro/api/app.py:44-83 | A chat is routed with the agent name as context, and the metrics then take the chat's `ollama_chat` updates in order. A chat that a known agent answers leaves the metrics unchanged. |
| Routing.ServeCountsChatCalls | escrita-sincerta-llm-starter-pro/api/app.py:44-83 | `total_routes` grows by nothing for a chat a known agent answers, by one when that agent raised, and for an agent outside the map by one, or by two when the first `ollama_chat` failed. |
| Metrics.SeedTable | escrita-sincerta-llm-starter-pro/api/advanced_router.py:102-103 | The initial table lists every configured model once, in catalogue order, with (1.0, 0, 0). |
| Metrics.Step | escrita-sincerta-llm-starter-pro/api/advanced_router.py:414-428 | The count rises by one. The rate stays in [0, 1], rising on success and falling on failure. The new mean times the new count is the old total time plus the sample. |
| Metrics.Record | escrita-sincerta-llm-starter-pro/api/advanced_router.py:409-428 | An unseen model is seeded first and appended. A known model keeps its position, and its new entry is one `Step` of its old entry: the success rate moves a tenth of the way towards 1 or 0, the mean absorbs the sample, and the count grows by one. No other entry changes. |
| Metrics.RecordAddsOneRoute | escrita-sincerta-llm-starter-pro/api/advanced_router.py:409-438 | Recording a dispatch adds exactly one to `total_routes`, whether or not the model was known. |
| Metrics.RecordKeepsKeysDistinct | escrita-sincerta-llm-starter-pro/api/advanced_router.py:411-412 | Recording never duplicates a key. |
| Metrics.InitialHasNoRoutes | escrita-sincerta-llm-starter-pro/api/advanced_router.py:102-103 | A fresh table reports 0 total routes. |
| Metrics.TotalRoutesCountsDispatches | escrita-sincerta-llm-starter-pro/api/advanced_router.py:436-438 | After n recorded dispatches the total has grown by exactly n. |
| Metrics.TotalRoutesFromStart | escrita-sincerta-llm-starter-pro/api/advanced_router.py:432-439 | From start-up, `total_routes` equals the number of dispatches. |
| Metrics.MeanTimeIsMean | escrita-sincerta-llm-starter-pro/api/advanced_router.py:421-425 | The stored response time is the arithmetic mean of all samples. |
| Metrics.FailuresDecayRate | escrita-sincerta-llm-starter-pro/api/advanced_router.py:416-419 | After k consecutive failures the success rate is 0.9^k times its old value. |
| Metrics.SuccessesRestoreRate | escrita-sincerta-llm-starter-pro/api/advanced_router.py:416-419 | After k consecutive successes the distance to 1 has shrunk by 0.9^k. |
| Metrics.RateStaysInUnitInterval | escrita-sincerta-llm-starter-pro/api/advanced_router.py:416-419 | A rate starting in [0, 1] stays there through any sequence of outcomes. |
| Metrics.FirstFailure | escrita-sincerta-llm-starter-pro/api/advanced_router.py:411-428 | A fresh model that fails once has rate 0.9, mean time equal to the sample, and count 1. |
| Dict.Find | escrita-sincerta-llm-starter-pro/api/agents/base.py:132 | `dict.get` finds a value exactly when the key is present, and the pair is one of the items. |
| Dict.Put | escrita-sincerta-llm-starter-pro/api/agents/base.py:127 | Assignment keeps a present key's position and appends a new key. The key now maps to the value and every other key is unaffected. |
| Dict.PutKeepsWellFormed | escrita-sincerta-llm-starter-pro/api/agents/base.py:127 | Assignment keeps the keys distinct. |
| SimpleRouter.PickModel | escrita-sincerta-llm-starter-pro/api/router.py:4-29 | A non-empty MODEL_OVERRIDE wins. Otherwise "tiny"/"low"/"leve" pick the small model, "hard"/"heavy"/"alta"/"alta-complexidade" the heavy one, and anything else the general one, all compared lower-cased. |
| SimpleRouter.TaskTypeIrrelevant | escrita-sincerta-llm-starter-pro/api/router.py:24-29 | The task type never changes the answer. |
| SimpleRouter.DefaultComplexityIsGeneral | escrita-sincerta-llm-starter-pro/api/router.py:10-11 | A missing or empty complexity reads as "normal" and gives the general model. |
| SimpleRouter.ComplexityIsCaseInsensitive | escrita-sincerta-llm-starter-pro/api/router.py:11-22 | "LEVE" gives the small model and "Alta" the heavy one. |
| SimpleRouter.ComplexityByLowerCase | escrita-sincerta-llm-starter-pro/api/router.py:11-22 | Without an override, any casing of a small word gives the small model, of a heavy word the heavy model, and any other non-empty word the general model. |
| SimpleRouter.SameLowerSameModel | escrita-sincerta-llm-starter-pro/api/router.py:11-22 | Two complexity words that agree after lower-casing pick the same model. |
| SimpleRouter.AnswerIsConfigured | escrita-sincerta-llm-starter-pro/api/router.py:6-29 | The answer is always the override or one of the three configured models. |
| Text.ContainsIff | escrita-sincerta-llm-starter-pro/api/advanced_router.py:176 | Python's `k in s` holds exactly when `k` occurs at some position of `s`. |
| Text.IndexOf | escrita-sincerta-llm-starter-pro/api/agents/builder_web.py:75 | `find` returns the first occurrence, or nothing when there is none, as in the `response.find('{')` of the builder and of the orchestrator (orchestrator.py line 101). |
| Text.RFind | escrita-sincerta-llm-starter-pro/api/tools/rag.py:122 | `rfind(c, lo, hi)` returns the last position in [lo, hi) holding `c`, or -1 when there is none. |
| Text.Strip | escrita-sincerta-llm-starter-pro/api/tools/rag.py:126 | `strip()` is the slice after the leading whitespace that has no whitespace at either end. It is empty exactly when the text is all whitespace. |
| Text.Split | escrita-sincerta-llm-starter-pro/api/agents/editor.py:52 | Splitting gives at least one part, and no part contains the separator. |
| Text.SplitLength | escrita-sincerta-llm-starter-pro/api/agents/editor.py:52-54 | The split has one more part than the text has separators. |
| Text.JoinSplit | escrita-sincerta-llm-starter-pro/api/agents/builder_web.py:117 | Joining the split on the same separator restores the text. |
| Chunker.WindowEnd | escrita-sincerta-llm-starter-pro/api/tools/rag.py:117-124 | A window is non-empty and at most `size` long. It is pulled back by at most 99 characters when it ends before the text does, and runs its full size otherwise. |
| Chunker.SentenceBreak | escrita-sincerta-llm-starter-pro/api/tools/rag.py:120-124 | With a '.' after `start` in the window's last hundred characters, the window ends just after the last such '.'. Without one, it runs its full size. |
| Chunker.NextStart | escrita-sincerta-llm-starter-pro/api/tools/rag.py:130 | The next window starts strictly later and never past the end of the text. |
| Chunker.ChunksStep | escrita-sincerta-llm-starter-pro/api/tools/rag.py:116-130 | One loop round emits the window's stripped text when it is non-blank, then continues from the next start. |
| Chunker.ChunkText | escrita-sincerta-llm-starter-pro/api/tools/rag.py:108-132 | A text of at most `size` characters yields exactly [text], unstripped. Any longer text yields the chunks of the reference recursion, each well shaped. |
| Chunker.ChunksWellShaped | escrita-sincerta-llm-starter-pro/api/tools/rag.py:126-128 | Every chunk is non-empty, at most `size` long, has no whitespace at either end, and occurs in the text. |
| Chunker.PieceWellShaped | escrita-sincerta-llm-starter-pro/api/tools/rag.py:126 | A non-blank stripped window is well shaped. |
| Chunker.StrippedSliceWellShaped | escrita-sincerta-llm-starter-pro/api/tools/rag.py:126 | The stripped text of any slice no longer than `size` is well shaped unless blank. |
| Chunker.WindowsCover | escrita-sincerta-llm-starter-pro/api/tools/rag.py:116-130 | Every position of the text lies in some window. |
| Chunker.WindowsChain | escrita-sincerta-llm-starter-pro/api/tools/rag.py:117-130 | Each window is non-empty and at most `size` long. The next window starts `overlap` before the previous one ends. The first window starts at the given start and the last one reaches the end of the text. |
| Chunker.ChunksAreWindowPieces | escrita-sincerta-llm-starter-pro/api/tools/rag.py:116-130 | Every window lies in the text, and the chunks are exactly the non-blank stripped windows, in window order. |
| Chunker.DefaultsAdvance | escrita-sincerta-llm-starter-pro/api/tools/rag.py:34-35 | The default 1000/200 parameters satisfy the advancing condition. |
| Agents.RemoveAll | escrita-sincerta-llm-starter-pro/api/agents/base.py:125 | A single left-to-right `replace(pattern, "")` pass never lengthens the text. |
| Agents.RemoveAbsent | escrita-sincerta-llm-starter-pro/api/agents/base.py:125 | Removing a pattern that does not occur changes nothing. |
| Agents.RemoveAppendedAgent | escrita-sincerta-llm-starter-pro/api/agents/base.py:125 | Appending "agent" to a text free of it and removing "agent" gives the text back. |
| Agents.Register | escrita-sincerta-llm-starter-pro/api/agents/base.py:122-128 | The class comes back unchanged and is stored under the given name, or under the default name when none or "" is given. Other names are unaffected and the listing order is kept. |
| Agents.GetAgent | escrita-sincerta-llm-starter-pro/api/agents/base.py:130-135 | A class is found exactly for a registered name, and it is that name's class. |
| Agents.ListAgents | escrita-sincerta-llm-starter-pro/api/agents/base.py:137-139 | The listing has one name per registration entry, and a name is listed exactly when it can be looked up. |
| Agents.Process | escrita-sincerta-llm-starter-pro/api/agents/base.py:29-83 | A falsy model becomes the default model. The handler sees the caller's context plus agent and model. The fallback messages are the system prompt followed by `messages[1:]`. A handler exception escapes, and a truthy handler answer is returned as-is. Otherwise the model is called directly, and its answer or exception is the result. |
| Agents.CallerContextAfter | escrita-sincerta-llm-starter-pro/api/agents/base.py:75-76 | A non-empty caller context is updated in place: "agent" becomes the agent's name, "model" the resolved model, and every other key keeps its value. An absent or empty one is left alone. |
| Agents.CallerSharesHandlerContext | escrita-sincerta-llm-starter-pro/api/agents/base.py:75-77 | A caller that passed a non-empty context afterwards holds exactly the dictionary the handler was given. |
| Agents.RunAgent | escrita-sincerta-llm-starter-pro/api/agents/base.py:142-156 | An unknown name gives the error object. A known one runs `process` with no model and no context. |
| Agents.RegisterThenGet | escrita-sincerta-llm-starter-pro/api/agents/base.py:122-139 | After registering under a name, the name is listed and looks up the class, and other names are unaffected. |
| Agents.ReRegisterOverwrites | escrita-sincerta-llm-starter-pro/api/agents/base.py:122-139 | Re-registering a name replaces the class and keeps the listing. |
| Agents.StemName | escrita-sincerta-llm-starter-pro/api/agents/base.py:124-125 | A class named stem + "Agent", whose stem holds no "agent", registers under the lower-cased stem. |
| Agents.ShippedClassNames | escrita-sincerta-llm-starter-pro/api/agents/dev_fullstack.py:8-9 | IdeatorAgent registers as "ideator", BuilderAgent as "builder" and DevFullstackAgent as "devfullstack", which differs from the "dev_fullstack" its instances call themselves. |
| Agents.RemoveInsertedAgent | escrita-sincerta-llm-starter-pro/api/agents/base.py:125 | One "agent" inserted anywhere into a text free of it is exactly what the removal takes out. |
| Agents.SinglePass | escrita-sincerta-llm-starter-pro/api/agents/base.py:125 | Removal is one pass: "agagentent" becomes "agent". |
| Dispatch.AnyOf | escrita-sincerta-llm-starter-pro/api/agents/dev_fullstack.py:79 | `any(k in text for k in keywords)` holds exactly when some keyword occurs. |
| Dispatch.Route | escrita-sincerta-llm-starter-pro/api/agents/dev_fullstack.py:76-95 | No handler is picked exactly when no group has a hit. Otherwise the picked handler belongs to the first group with a hit. |
| Dispatch.FirstHitWins | escrita-sincerta-llm-starter-pro/api/agents/dev_fullstack.py:79-92 | The first group with a hit always decides, whatever later groups contain. |
| Dispatch.HandlerModel | escrita-sincerta-llm-starter-pro/api/agents/dev_fullstack.py:117 | Handlers call `context["model"]` when present, else the default model. |
| Dispatch.HandlersUseResolvedModel | escrita-sincerta-llm-starter-pro/api/agents/base.py:75-77 | Reached through `process`, handlers call exactly the model `process` resolved. |
| Dispatch.PlannerIgnoresRoutedModel | escrita-sincerta-llm-starter-pro/api/agents/orchestrator.py:97 | Given a routed model other than its default, the orchestrator's context names the routed model, yet its plan is the one the default model's answer gives, the same as with an empty context. |
| Dispatch.DevFullstackTask | escrita-sincerta-llm-starter-pro/api/agents/dev_fullstack.py:72-95 | The dev agent hands back (None) exactly when no keyword of its four groups occurs in the lower-cased message. |
| Dispatch.DebuggingFirst | escrita-sincerta-llm-starter-pro/api/agents/dev_fullstack.py:79-84 | Any debugging word selects debugging, even next to a code-generation word. |
| Dispatch.ReflexivoTask | escrita-sincerta-llm-starter-pro/api/agents/reflexivo.py:81-103 | The reflective agent hands back exactly when none of its keywords occurs. |
| Dispatch.OuSelectsDecision | escrita-sincerta-llm-starter-pro/api/agents/reflexivo.py:95-96 | Any "ou" or "vs" substring selects decision support once the problem and planning groups have no hit. |
| Dispatch.IdeatorTask | escrita-sincerta-llm-starter-pro/api/agents/ideator_saas.py:148-174 | The ideator never hands back. It picks general ideation exactly when no keyword occurs. |
| Dispatch.PlatformBeatsApp | escrita-sincerta-llm-starter-pro/api/agents/ideator_saas.py:154-159 | "sistema" or "plataforma" selects the SaaS handler even when "app" also occurs. |
| Dispatch.ArchitectTaskOf | escrita-sincerta-llm-starter-pro/api/agents/architect_fullstack.py:159-181 | The architect never hands back. It picks general architecture exactly when no keyword occurs. |
| Dispatch.DesignOutranksApi | escrita-sincerta-llm-starter-pro/api/agents/architect_fullstack.py:169-178 | Without a stack word, "design" selects architecture design even when "api" occurs. |
| Editor.SecondPiece | escrita-sincerta-llm-starter-pro/api/agents/editor.py:55 | `split(sep)[1]` raises exactly when the separator does not occur. |
| Editor.QuoteLayout | escrita-sincerta-llm-starter-pro/api/agents/editor.py:52-54 | A message with at least four quote-separated parts is the parts joined by quotes. |
| Editor.FewQuotesRejected | escrita-sincerta-llm-starter-pro/api/agents/editor.py:52-57 | Fewer than three quotes fail to parse. |
| Editor.SplitLayout | escrita-sincerta-llm-starter-pro/api/agents/editor.py:52-54 | The parsed project lies between the first two quotes and the path after the third quote, with no quote inside either. |
| Editor.FourQuotesParse | escrita-sincerta-llm-starter-pro/api/agents/editor.py:52-55 | Four or more quotes always parse, and the path is followed by a quote. |
| Editor.QuotedPathOccurs | escrita-sincerta-llm-starter-pro/api/agents/editor.py:55 | With five or more parts, the quoted path occurs in the message. |
| Editor.ParsesWhenQuotedPathOccurs | escrita-sincerta-llm-starter-pro/api/agents/editor.py:52-55 | When the quoted path occurs, the request parses into the second and fourth parts. |
| Editor.ParsedPieces | escrita-sincerta-llm-starter-pro/api/agents/editor.py:52-54 | Every request that parses has the layout a'project'b'path followed by nothing or by a quote. |
| Editor.Edit | escrita-sincerta-llm-starter-pro/api/agents/editor.py:42-100 | A parse failure gives the format reply with no read and no write. A missing file or failed read gives its error reply and no write. After a successful read, an exception of the model call escapes with nothing written. Otherwise one write of the model's new content follows, and the reply is the success reply exactly when that write succeeds. |
| Editor.WriteErrorIsNotSuccess | escrita-sincerta-llm-starter-pro/api/agents/editor.py:94-100 | The save-error reply can never equal the success reply. |
| Editor.MalformedTouchesNothing | escrita-sincerta-llm-starter-pro/api/agents/editor.py:50-67 | Fewer than three quotes give the format reply with no read and no write. |
| Plans.Clamp | escrita-sincerta-llm-starter-pro/api/agents/builder_web.py:75 | A slice bound is clamped to [0, n], and a negative bound counts from the end. |
| Plans.ExtractBlockCases | escrita-sincerta-llm-starter-pro/api/agents/builder_web.py:75 | The block is empty without a '}'. When the first '{' precedes the last '}', it runs from that '{' through that '}'. It is empty when the '{' comes later. Without a '{' it is "}" for a reply ending in '}' and empty otherwise. |
| Plans.SliceCases | escrita-sincerta-llm-starter-pro/api/agents/builder_web.py:75 | The same four shapes for any `find`/`rfind` results. |
| Plans.BlockIsBraced | escrita-sincerta-llm-starter-pro/api/agents/builder_web.py:75 | A non-empty block starting at a '{' begins with '{', ends with '}', and no '}' follows it in the reply. |
| Plans.StripFences | escrita-sincerta-llm-starter-pro/api/agents/builder_web.py:116-117 | Content that does not both start and end with ``` is unchanged. |
| Plans.FencedBodyRecovered | escrita-sincerta-llm-starter-pro/api/agents/builder_web.py:116-117 | "```lang\n<body>\n```" becomes exactly <body>. |
| Plans.WriteAll | escrita-sincerta-llm-starter-pro/api/agents/builder_web.py:78-119 | Files are generated and written one each, in plan order. The first model exception or failed write stops the loop with that exception. The writes made are the planned writes of the first files. No exception happens exactly when every file was written. |
| Plans.BuildProject | escrita-sincerta-llm-starter-pro/api/agents/builder_web.py:121-146 | An exception of the planning call escapes with no write, except a `JSONDecodeError` or `TypeError`, which the `except` clause turns into the apology. A decode error of the plan gives the apology and no write. A success reply comes from a plan with a name and files, every planned file written once in order, and the reply made of "BUILD_SUCCESS", the name and the path, separated by vertical bars. A crash after some writes leaves a proper prefix of the planned writes. |
| Plans.ExecuteSuccess | escrita-sincerta-llm-starter-pro/api/agents/builder_web.py:128-146 | The same success guarantee for the decoded plan. |
| Plans.NonObjectFilesCrash | escrita-sincerta-llm-starter-pro/api/agents/builder_web.py:82-84 | A truthy "files" that is not an object fails before any model call and writes nothing: `TypeError` for a number or `true` (at `len`), `AttributeError` for a string or list (at `.items()`). |
| Plans.ExecuteCrash | escrita-sincerta-llm-starter-pro/api/agents/builder_web.py:84-141 | A crash after some writes happened part-way through a plan with a name and files: the writes made are the planned writes of a proper prefix of its files. |
| Plans.NoFilesWritesNothing | escrita-sincerta-llm-starter-pro/api/agents/builder_web.py:137-138 | A plan with missing or falsy "files" gets the "Não consegui…" reply and writes nothing. |
| Plans.DefaultNameBuild | escrita-sincerta-llm-starter-pro/api/agents/builder_web.py:131-146 | A plan without "project_name" builds "novo-projeto-gerado". When every model call answers and every write succeeds, each planned file is written once, in order, and the success reply names the default project. |
| Plans.ExecuteDefaultName | escrita-sincerta-llm-starter-pro/api/agents/builder_web.py:131-146 | The same for the decoded plan. |
| Plans.WriteAllSucceeds | escrita-sincerta-llm-starter-pro/api/agents/builder_web.py:84-119 | When every model call answers and every write succeeds, nothing stops the loop and the writes are exactly the planned files in order. |
| Plans.ModelFailureStopsLoop | escrita-sincerta-llm-starter-pro/api/agents/builder_web.py:84-119 | A model exception on file k, after every earlier file was generated and written, stops the loop there with that exception and exactly k writes. |
| Plans.NoBraceApologises | escrita-sincerta-llm-starter-pro/api/agents/builder_web.py:128-135 | A reply without '}' yields the apology and no write. |
| Plans.ErrorObject | escrita-sincerta-llm-starter-pro/api/agents/orchestrator.py:112 | The error object has exactly the keys "error" and "details", and the details carry the message. |
| Plans.Orchestrate | escrita-sincerta-llm-starter-pro/api/agents/orchestrator.py:100-112 | The plan is accepted exactly when the block decodes to an object whose "plan" member is a list, and then it is returned whole. A decode error is rejected with its message, and any other object with the "no plan list" message. |
| Plans.NoBraceNoPlan | escrita-sincerta-llm-starter-pro/api/agents/orchestrator.py:101-112 | A reply without '}' always ends in the error object. |
| ProjectWriter.Walk | escrita-sincerta-llm-starter-pro/api/tools/project_writer.py:17 | Lexical resolution always yields a normal path. |
| ProjectWriter.Resolve | escrita-sincerta-llm-starter-pro/api/tools/project_writer.py:17-24 | Joining and resolving yields a normal path. |
| ProjectWriter.SafePath | escrita-sincerta-llm-starter-pro/api/tools/project_writer.py:10-30 | An accepted path lies strictly below the base. With a file, it lies strictly below the project. Without a file (None or "") it is the project path itself. Refusal happens exactly on a containment violation, with the matching message. |
| ProjectWriter.PlainNameAccepted | escrita-sincerta-llm-starter-pro/api/tools/project_writer.py:17-21 | A plain single-component name is the directory directly below the base. |
| ProjectWriter.BaseAndAboveRefused | escrita-sincerta-llm-starter-pro/api/tools/project_writer.py:17-21 | "", "." and ".." as project names are refused. |
| ProjectWriter.DotFileRefused | escrita-sincerta-llm-starter-pro/api/tools/project_writer.py:23-28 | The file path "." is refused. |
| ProjectWriter.ParentFileRefused | escrita-sincerta-llm-starter-pro/api/tools/project_writer.py:23-28 | A file path "../x" is refused. |
| ProjectWriter.InsertUpdatesOnePath | escrita-sincerta-llm-starter-pro/api/tools/project_writer.py:104-108 | With its parents present, inserting a path changes the tree only at that path, and only when it was absent. |
| ProjectWriter.TreeHoldsListing | escrita-sincerta-llm-starter-pro/api/tools/project_writer.py:100-108 | For a sorted directory walk, the tree holds every listed path with its kind (a file maps to None) and nothing else. |
| ProjectWriter.WithBase | escrita-sincerta-llm-starter-pro/api/tools/project_writer.py:32-34 | Creating the base directory with its parents keeps every existing directory and adds only the base and directories above it. When it succeeds, the base exists afterwards. |
| ProjectWriter.ProjectFiles | escrita-sincerta-llm-starter-pro/api/tools/project_writer.py:93-117 | A failed creation of the base directory gives its message when it is a `PermissionError`, and the internal error otherwise. Once the base exists, a containment violation gives its error message. A missing project gives "Projeto não encontrado.". A tree result is the tree built from the listing. |
| ProjectWriter.ExistingProjectListed | escrita-sincerta-llm-starter-pro/api/tools/project_writer.py:100-117 | An existing project's walk always yields its tree, never the internal error. |
| ProjectWriter.Delete | escrita-sincerta-llm-starter-pro/api/tools/project_writer.py:120-141 | A failed creation of the base directory gives False, keeping the directories it did create. Once the base exists, it stays. A containment violation gives False with nothing removed. A missing project gives True with nothing removed. Otherwise the result is whether rmtree succeeded. On success exactly the project and everything below it are gone. On failure nothing outside the project is removed, the project directory itself stays, and so does every directory rmtree had not yet reached. |
| ProjectWriter.FailedRmtreeKeepsAncestors | escrita-sincerta-llm-starter-pro/api/tools/project_writer.py:133 | After a failed rmtree every directory holding a surviving directory survives too, because rmtree empties a directory before removing it. |
| ProjectWriter.DeleteIdempotent | escrita-sincerta-llm-starter-pro/api/tools/project_writer.py:128-131 | Deleting again answers True and changes nothing; on that second call the base directory already exists. |

## Left out

- Network and time:
  - `get_available_models` and `is_model_available` perform HTTP requests with timeouts. Their answers are inputs (`World.listing`, `World.probeOk`, `World.fallbackListing`), and so is the clock reading stored as the timestamp.
  - Of the HTTP layer of `app.py` only `execute_agent_task` is modelled (`Routing.Serve`): its routing call, and the `finally` of each `ollama_chat` call that records metrics. Whether the agent raised is an input, and so are the success and the time each `ollama_chat` call observed. The replies and the exception a failed fallback lets escape are not modelled. The `/routing/analyze` and `/routing/test` endpoints route without recording; each is a plain `Routing.RouteRequest` call.
- Exceptions in `route_request` are modelled as an optional exception message on the cache-miss path. Computing the cache key over string-keyed dictionaries cannot raise.
- Routing.RouteRequest: the cache key is the message together with the context's items, compared by value. Collisions of Python's `hash`, and of the concatenated string itself (a message ending in text that looks like a context's items), are not modelled.
- Numbers:
  - Scores, rates and times are `real`. Floating-point rounding is not modelled.
  - Metrics.Step: the average-time property is stated as `mean × count = previous total + sample` rather than as a division.
- Scoring.ModelScore: a model missing from the metrics table gets no history term here, where `self.model_metrics[model]` raises `KeyError` and `route_request` answers "error_fallback". This cannot happen from start-up, because the table is seeded with every configured model, `update_model_metrics` only adds entries, and only configured models are scored.
- Routing.Fallback:
  - A model name outside the catalogue would raise `KeyError` in the overlap loop. This cannot happen, because every available model is configured. The model counts such a name as sharing nothing.
- Context values: a list or dictionary carries its elements, a dictionary its entries in insertion order. Any other object is `Other` with a tag standing for its `repr`; an `Other` whose tag spells the same text as another value's `repr` is still a different value here.
- `str.lower` is modelled for ASCII and Latin-1 letters only. The Unicode case tables are not modelled.
- Chunker.ChunkText requires the advancing condition (`100 <= size` and `0 <= overlap < size - 99`) whenever the text is longer than `size`. Outside it the source may loop forever (an overlap as large as the step), skip text between chunks (a negative overlap), or, for a size under 100, start `rfind` at a negative index, which Python counts from the end of the text. Some parameters outside it, such as size 50 with overlap 0, still terminate. The defaults 1000/200 satisfy it.
- Parsing and the language model:
  - `json.loads` is a parameter returning a parsed `Json` value or a decode error. The only fact assumed about it, where a lemma needs one, is that it rejects the empty document.
  - Duplicate JSON object keys are not modelled.
  - The language model's replies (`call_ollama`) are parameters that answer or raise. `process` lets the exceptions of the handler and of the direct call escape; `execute_agent_task` then answers through `ollama_chat`.
  - The prompt texts, `load_prompt_file` and the agents' system prompts are opaque strings.
- Plans.BuildProject: uncaught exceptions are reported as the `Crashed` outcome with the exception's class name, and the planning call's exceptions are known only by that name. A planning call that raises `JSONDecodeError` (a reply that is not JSON) or `TypeError` is caught and gets the apology. A decoded plan that is not an object raises `AttributeError` at `plan.get`. A truthy "files" that is a number or `true` raises `TypeError` at `len(files)`; a string or list raises `AttributeError` at `files.items()`. A project name that is not a string raises `TypeError` in the first `create_project_file`. A failed write is reported as `OSError` whatever its exact class.
- Plans.Orchestrate: a list or string plan that mentions "plan" makes `plan["plan"]` raise an uncaught `TypeError`, reported as `PlanCrashed`.
- Files:
  - Filesystem effects are parameters or inputs: reads, writes, `rmtree`, the directory test and the sorted `rglob` walk. Creating the base directory is modelled by its outcome (`ProjectWriter.BaseMkdir`): it succeeds, or raises after creating some of the missing directories above the base.
  - Path resolution is lexical: symbolic links are not followed.
  - `get_generated_projects`, `create_project_file` and `read_project_file` are plain I/O wrappers and are represented only by the oracles above.
- Other modules:
  - `history.py`, `web_search.py` and `researcher.py` are storage and external search with no decision logic.
  - `rag.py` outside `chunk_text` does embeddings, database and file extraction.
- Concurrency: requests are modelled one at a time, and every lemma describes requests served in sequence. `route_request` awaits between its cache lookup and its cache write, and metrics updates of concurrent requests can interleave at await points; those interleavings are not modelled.

=== FILE: agents.dfy ===
/** The agent layer's shared machinery: the registry that maps names to agent
    classes, and `BaseAgent.process`, which lets an agent's own handler
    answer and otherwise asks the model directly. */
module Agents {
  import opened Common
  import opened Text
  import opened Dict

  /** `str.replace(pattern, "")`: one left-to-right pass removing
      non-overlapping occurrences. */
  function RemoveAll(s: string, pattern: string): (r: string)
    requires pattern != ""
    ensures |r| <= |s|
    decreases |s|
  {
    if |s| < |pattern| then s
    else if IsPrefix(pattern, s) then RemoveAll(s[|pattern|..], pattern)
    else [s[0]] + RemoveAll(s[1..], pattern)
  }

  /** Removing a pattern that does not occur changes nothing. */
  lemma {:induction false} RemoveAbsent(s: string, pattern: string)
    requires pattern != "" && !Contains(s, pattern)
    ensures RemoveAll(s, pattern) == s
    decreases |s|
  {
    if |s| >= |pattern| {
      assert !IsPrefix(pattern, s);
      assert !Contains(s[1..], pattern);
      RemoveAbsent(s[1..], pattern);
    }
  }

  /** "agent" has no proper border (no proper prefix that is also a
      suffix), so appending it to a text free of it creates no occurrence
      that straddles the join, and the single pass removes exactly the
      appended copy. */
  lemma {:induction false} RemoveAppendedAgent(s: string)
    requires !Contains(s, "agent")
    ensures RemoveAll(s + "agent", "agent") == s
    decreases |s|
  {
    var t := s + "agent";
    if s == [] {
      assert t == "agent";
      assert t[5..] == [];
    } else {
      assert !IsPrefix("agent", t) by {
        if |s| >= 5 {
          assert t[..5] == s[..5];
        } else {
          assert t[|s|] == 'a';
        }
      }
      assert t[1..] == s[1..] + "agent";
      RemoveAppendedAgent(s[1..]);
    }
  }

  /** More generally, one copy of "agent" inserted anywhere into a text
      free of it is the only thing the pass removes: no occurrence can start
      before the inserted copy and run into it, because "agent" has no
      proper border. */
  lemma {:induction false} RemoveInsertedAgent(a: string, b: string)
    requires !Contains(a + b, "agent")
    ensures RemoveAll(a + "agent" + b, "agent") == a + b
    decreases |a|
  {
    var t := a + "agent" + b;
    if a == [] {
      assert t[5..] == b;
      assert a + b == b;
      RemoveAbsent(b, "agent");
    } else {
      assert !IsPrefix("agent", t) by {
        if |a| >= 5 {
          assert t[..5] == (a + b)[..5];
        } else {
          assert t[|a|] == 'a';
        }
      }
      assert (a + b)[1..] == a[1..] + b;
      assert t[1..] == a[1..] + "agent" + b;
      RemoveInsertedAgent(a[1..], b);
      assert a + b == [a[0]] + (a[1..] + b);
    }
  }

  /** The default registry name: the class name lower-cased with every
      "agent" removed. */
  function DefaultName(className: string): string {
    RemoveAll(Lower(className), "agent")
  }

  /** An agent class: its class name, the `name` its instances carry, its
      default model and its system prompt. */
  datatype AgentClass = AgentClass(className: string, name: string, defaultModel: string, systemPrompt: string)

  type Registry = Items<AgentClass>

  /** `register_agent(agent_class, name)`: returns the class unchanged and
      records it under the given name, or the default name when none or ""
      is given. */
  function Register(reg: Registry, cls: AgentClass, name: Option<string>): (r: (AgentClass, Registry))
    ensures r.0 == cls
    ensures var key := if name.Some? && name.value != "" then name.value else DefaultName(cls.className);
      && Find(r.1, key) == Some(cls)
      && (forall other :: other != key ==> Find(r.1, other) == Find(reg, other))
      && Keys(r.1) == if key in Keys(reg) then Keys(reg) else Keys(reg) + [key]
  {
    var key := if name.Some? && name.value != "" then name.value else DefaultName(cls.className);
    (cls, Put(reg, key, cls))
  }

  /** `get_agent(name)`: a fresh instance of the registered class. */
  function GetAgent(reg: Registry, name: string): (r: Option<AgentClass>)
    ensures r.Some? <==> name in Keys(reg)
    ensures r.Some? ==> (name, r.value) in reg
  {
    Find(reg, name)
  }

  /** `list_agents()`: the registered names in registration order. */
  function ListAgents(reg: Registry): (r: seq<string>)
    ensures |r| == |reg|
    ensures forall n :: n in r <==> GetAgent(reg, n).Some?
  {
    Keys(reg)
  }

  /** A chat message. */
  datatype Message = Message(role: string, content: string)

  /** What one `process` call did: the model it resolved, the context the
      handler saw, the messages prepared for a direct call, and the reply or
      the exception that escaped; `direct` tells whether the model was
      called. */
  datatype Processed = Processed(
    model: string,
    handlerContext: Context,
    fullMessages: seq<Message>,
    direct: bool,
    reply: Result<string>)

  /** A handler answer of `None` or "" is falsy and hands over to the model. */
  predicate Falsy(answer: Option<string>) {
    answer.None? || answer.value == ""
  }

  /** `agent.process(message, messages, model, context)` with the agent's
      own handler (`process_message`) and the model call (`call_ollama`) as
      parameters. Both may raise, and `process` catches neither. */
  function Process(agent: AgentClass, message: string, messages: seq<Message>,
                   model: Option<string>, ctx: Option<Context>,
                   handler: (string, Context) -> Result<Option<string>>,
                   llm: (string, seq<Message>) -> Result<string>): (r: Processed)
    ensures r.model == if model.Some? && model.value != "" then model.value else agent.defaultModel
    ensures r.handlerContext.Keys == OrEmpty(ctx).Keys + {"agent", "model"}
    ensures r.handlerContext["agent"] == Str(agent.name) && r.handlerContext["model"] == Str(r.model)
    ensures forall k :: k in OrEmpty(ctx) && k != "agent" && k != "model" ==> r.handlerContext[k] == OrEmpty(ctx)[k]
    ensures |r.fullMessages| == if messages == [] then 1 else |messages|
    ensures r.fullMessages[0] == Message("system", agent.systemPrompt)
    ensures r.fullMessages[1..] == if messages == [] then [] else messages[1..]
    ensures var answer := handler(message, r.handlerContext);
      && (answer.Raised? ==> !r.direct && r.reply == Raised(answer.error))
      && (answer.Ok? && !Falsy(answer.value) ==> !r.direct && r.reply == Ok(answer.value.value))
      && (answer.Ok? && Falsy(answer.value) ==> r.direct && r.reply == llm(r.model, r.fullMessages))
  {
    var resolved := if model.Some? && model.value != "" then model.value else agent.defaultModel;
    var full := [Message("system", agent.systemPrompt)] + (if messages == [] then [] else messages[1..]);
    var agentCtx := OrEmpty(ctx)["agent" := Str(agent.name)]["model" := Str(resolved)];
    match handler(message, agentCtx)
    case Raised(err) => Processed(resolved, agentCtx, full, false, Raised(err))
    case Ok(answer) =>
      if !Falsy(answer) then Processed(resolved, agentCtx, full, false, Ok(answer.value))
      else Processed(resolved, agentCtx, full, true, llm(resolved, full))
  }

  /** The caller's dictionary after `process`: a non-empty context is the
      very object the handler received, so it now carries the agent name and
      model too; an absent or empty one is left alone. */
  function CallerContextAfter(agent: AgentClass, model: Option<string>, ctx: Option<Context>): (r: Option<Context>)
    ensures ctx.Some? && ctx.value != map[] ==>
      && r.Some? && r.value.Keys == ctx.value.Keys + {"agent", "model"}
      && r.value["agent"] == Str(agent.name)
      && r.value["model"] == Str(if model.Some? && model.value != "" then model.value else agent.defaultModel)
      && (forall k :: k in ctx.value && k != "agent" && k != "model" ==> r.value[k] == ctx.value[k])
    ensures ctx.None? || ctx.value == map[] ==> r == ctx
  {
    if ctx.Some? && ctx.value != map[] then
      var resolved := if model.Some? && model.value != "" then model.value else agent.defaultModel;
      Some(ctx.value["agent" := Str(agent.name)]["model" := Str(resolved)])
    else ctx
  }

  /** A caller that passed a non-empty context afterwards holds exactly the
      dictionary its agent's handler was given. */
  lemma CallerSharesHandlerContext(agent: AgentClass, message: string, messages: seq<Message>,
                                   model: Option<string>, ctx: Option<Context>,
                                   handler: (string, Context) -> Result<Option<string>>,
                                   llm: (string, seq<Message>) -> Result<string>)
    requires ctx.Some? && ctx.value != map[]
    ensures CallerContextAfter(agent, model, ctx) == Some(Process(agent, message, messages, model, ctx, handler, llm).handlerContext)
  {
  }

  /** What `run_agent` yields: an error object or a processed request. */
  datatype RunResult = NotFound(error: string) | Ran(result: Processed)

  /** `run_agent(name, message, history)`: no model and no context are
      passed on. */
  function RunAgent(reg: Registry, name: string, message: string, history: seq<Message>,
                    handler: (string, Context) -> Result<Option<string>>,
                    llm: (string, seq<Message>) -> Result<string>): (r: RunResult)
    ensures GetAgent(reg, name).None? ==> r == NotFound("agente '" + name + "' não encontrado")
    ensures GetAgent(reg, name).Some? ==>
      r.Ran? && r.result.model == GetAgent(reg, name).value.defaultModel
      && r.result.handlerContext == map["agent" := Str(GetAgent(reg, name).value.name), "model" := Str(r.result.model)]
  {
    match GetAgent(reg, name)
    case None => NotFound("agente '" + name + "' não encontrado")
    case Some(cls) => Ran(Process(cls, message, history, None, None, handler, llm))
  }

  /** Registering under a name and then looking it up gives back the class,
      and the name is listed; other names are unaffected. */
  lemma RegisterThenGet(reg: Registry, cls: AgentClass, name: string, other: string)
    requires name != "" && other != name
    ensures var reg2 := Register(reg, cls, Some(name)).1;
      && GetAgent(reg2, name) == Some(cls)
      && name in ListAgents(reg2)
      && GetAgent(reg2, other) == GetAgent(reg, other)
  {
  }

  /** Re-registering a name replaces the class and keeps the listing. */
  lemma ReRegisterOverwrites(reg: Registry, a: AgentClass, b: AgentClass, name: string)
    requires name != ""
    ensures var reg1 := Register(reg, a, Some(name)).1;
      var reg2 := Register(reg1, b, Some(name)).1;
      && GetAgent(reg2, name) == Some(b)
      && ListAgents(reg2) == ListAgents(reg1)
  {
  }

  /** A class name ending in "Agent" whose stem contains no "agent" (in any
      case) registers under its lower-cased stem. */
  lemma StemName(stem: string)
    requires !Contains(Lower(stem), "agent")
    ensures DefaultName(stem + "Agent") == Lower(stem)
  {
    LowerAppend(stem, "Agent");
    assert Lower("Agent") == "agent";
    RemoveAppendedAgent(Lower(stem));
  }

  /** The registry keys of the shipped classes: IdeatorAgent registers as
      "ideator", BuilderAgent as "builder", and DevFullstackAgent as
      "devfullstack", which is not the "dev_fullstack" its instances call
      themselves. */
  lemma ShippedClassNames()
    ensures DefaultName("Ideator" + "Agent") == "ideator"
    ensures DefaultName("Builder" + "Agent") == "builder"
    ensures DefaultName("DevFullstack" + "Agent") == "devfullstack" != "dev_fullstack"
  {
    KnownStem("Ideator", "ideator");
    KnownStem("Builder", "builder");
    KnownStem("DevFullstack", "devfullstack");
  }

  lemma KnownStem(stem: string, lower: string)
    requires Lower(stem) == lower
    requires forall i :: 0 <= i && i + 5 <= |lower| ==> lower[i] != 'a'
    ensures DefaultName(stem + "Agent") == lower
  {
    NoRoomForAgent(lower);
    StemName(stem);
  }

  /** A text with no 'a' that has four characters after it has no "agent". */
  lemma NoRoomForAgent(s: string)
    requires forall i :: 0 <= i && i + 5 <= |s| ==> s[i] != 'a'
    ensures !Contains(s, "agent")
  {
    ContainsIff(s, "agent");
    forall i ensures !OccursAt(s, "agent", i) {
      if 0 <= i && i + 5 <= |s| {
        assert s[i..i + 5][0] == s[i];
      }
    }
  }

  /** The removal is a single pass: pieces that meet after a removal are
      not removed again. */
  lemma SinglePass(s: string)
    requires s == "agagentent"
    ensures RemoveAll(s, "agent") == "agent"
  {
    assert s[..5][3] != "agent"[3];
    assert s[1..][..5][0] != "agent"[0];
    assert s[1..][1..] == s[2..];
    assert s[2..][..5] == "agent";
    assert s[2..][5..] == "ent";
    assert RemoveAll("ent", "agent") == "ent";
    assert RemoveAll(s[2..], "agent") == "ent";
    assert RemoveAll(s[1..], "agent") == "gent";
  }
}

=== FILE: catalog.dfy ===
/** The static part of the adaptive router: its enumerations, the model
    catalogue and the keyword tables, in declaration order. */
module Catalog {
  import opened Dict

  datatype Complexity = Simple | Medium | Complex | Expert

  datatype TaskType =
    | Ideation | Architecture | Coding | Debugging
    | Analysis | Documentation | Testing | Deployment

  datatype Capability = General | Coding | Reasoning | Creative | Analytical | Technical

  datatype Usage = Low | Medium | High

  /** Enumeration members in declaration order (Python iterates enums this way). */
  const Complexities: seq<Complexity> := [Simple, Complexity.Medium, Complex, Expert]
  const TaskTypes: seq<TaskType> :=
    [Ideation, Architecture, TaskType.Coding, Debugging, Analysis, Documentation, Testing, Deployment]

  /** Position of a member in its declaration order. */
  function ComplexityIndex(c: Complexity): (i: nat)
    ensures i < |Complexities| && Complexities[i] == c
  {
    match c
    case Simple => 0
    case Medium => 1
    case Complex => 2
    case Expert => 3
  }

  function TaskTypeIndex(t: TaskType): (i: nat)
    ensures i < |TaskTypes| && TaskTypes[i] == t
  {
    match t
    case Ideation => 0
    case Architecture => 1
    case Coding => 2
    case Debugging => 3
    case Analysis => 4
    case Documentation => 5
    case Testing => 6
    case Deployment => 7
  }

  /** The numeric tier used by the scoring rule: simple 1 up to expert 4. */
  function Tier(c: Complexity): int {
    ComplexityIndex(c) + 1
  }

  /** The positions invert the declaration orders. */
  lemma IndexOfPosition(i: nat)
    ensures i < |Complexities| ==> ComplexityIndex(Complexities[i]) == i
    ensures i < |TaskTypes| ==> TaskTypeIndex(TaskTypes[i]) == i
  {
  }

  /** A backend profile. Strengths and weaknesses are descriptive only and
      are not read by any decision. */
  datatype ModelConfig = ModelConfig(
    capabilities: seq<Capability>,
    maxComplexity: Complexity,
    performance: real,
    usage: Usage)

  /** The catalogue, in insertion order. */
  const Models: seq<(string, ModelConfig)> := [
    ("phi3:3.8b", ModelConfig([General, Capability.Coding], Complexity.Medium, 7.5, Low)),
    ("qwen2.5:7b", ModelConfig([General, Reasoning, Technical], Complex, 8.5, Usage.Medium)),
    ("llama3.1:8b-instruct", ModelConfig([General, Creative, Analytical], Expert, 9.0, High)),
    ("codegemma:7b", ModelConfig([Capability.Coding, Technical], Expert, 9.2, Usage.Medium))
  ]

  /** The configuration recorded under a listed name. */
  function LookupIn(entries: seq<(string, ModelConfig)>, model: string): (r: ModelConfig)
    requires model in Keys(entries)
    ensures (model, r) in entries
  {
    if entries[0].0 == model then entries[0].1 else LookupIn(entries[1..], model)
  }

  /** `model_configs.keys()` in insertion order. */
  const ModelNames: seq<string> := Keys(Models)

  predicate Configured(model: string) {
    model in ModelNames
  }

  function ConfigOf(model: string): ModelConfig
    requires Configured(model)
  {
    LookupIn(Models, model)
  }

  /** `task_capability_mapping` */
  function RequiredCapabilities(t: TaskType): seq<Capability> {
    match t
    case Ideation => [Creative, General]
    case Architecture => [Technical, Reasoning]
    case Coding => [Capability.Coding, Technical]
    case Debugging => [Capability.Coding, Analytical]
    case Analysis => [Analytical, Reasoning]
    case Documentation => [General, Technical]
    case Testing => [Capability.Coding, Analytical]
    case Deployment => [Technical, General]
  }

  /** `complexity_keywords`; repeated entries are kept, each counts on its own. */
  function ComplexityKeywords(c: Complexity): seq<string> {
    match c
    case Simple => [
      "simples", "básico", "rápido", "pequeno", "fácil", "direto",
      "simple", "basic", "quick", "small", "easy", "straightforward"]
    case Medium => [
      "médio", "moderado", "padrão", "normal", "típico",
      "medium", "moderate", "standard", "normal", "typical", "regular"]
    case Complex => [
      "complexo", "avançado", "detalhado", "completo", "robusto",
      "complex", "advanced", "detailed", "complete", "robust", "comprehensive"]
    case Expert => [
      "expert", "especialista", "enterprise", "profissional", "produção",
      "expert", "specialist", "enterprise", "professional", "production", "scalable"]
  }

  /** `task_type_keywords`; testing and deployment have no entry. */
  function TaskTypeKeywords(t: TaskType): seq<string> {
    match t
    case Ideation => [
      "ideia", "brainstorm", "criativo", "inovação", "conceito",
      "idea", "brainstorm", "creative", "innovation", "concept", "generate"]
    case Architecture => [
      "arquitetura", "design", "estrutura", "sistema", "padrão",
      "architecture", "design", "structure", "system", "pattern", "blueprint"]
    case Coding => [
      "código", "programar", "implementar", "desenvolver", "build",
      "code", "program", "implement", "develop", "build", "create"]
    case Debugging => [
      "debug", "erro", "bug", "consertar", "corrigir", "problema",
      "debug", "error", "bug", "fix", "correct", "problem", "issue"]
    case Analysis => [
      "análise", "analisar", "revisar", "examinar", "avaliar",
      "analysis", "analyze", "review", "examine", "evaluate", "assess"]
    case Documentation => [
      "documentação", "documenta", "readme", "docs", "manual",
      "documentation", "document", "readme", "docs", "manual", "guide"]
    case Testing => []
    case Deployment => []
  }

  const TechnicalIndicators: seq<string> := [
    "microservices", "kubernetes", "docker", "ci/cd", "terraform",
    "scalability", "performance", "security", "enterprise", "production"]

  /** The model used when nothing better is known (`GENERAL_MODEL`). */
  const DefaultGeneralModel: string := "qwen2.5:7b"

  /** The catalogue entries of the creative generalist and of the code
      specialist. */
  lemma GeneralistAndCoderEntries()
    ensures Configured("llama3.1:8b-instruct") && Configured("codegemma:7b")
    ensures ConfigOf("llama3.1:8b-instruct").capabilities == [General, Creative, Analytical]
    ensures ConfigOf("codegemma:7b").capabilities == [Capability.Coding, Technical]
  {
    assert ModelNames[2] == "llama3.1:8b-instruct" && ModelNames[3] == "codegemma:7b";
    assert Models[1..][1..] == Models[2..];
  }
}

=== FILE: chunker.dfy ===
/** `DocumentProcessor.chunk_text`: cut a text into windows of at most
    `size` characters that overlap by `overlap`, ending a window just after
    the last full stop of its final hundred characters when there is one,
    and keep the non-blank stripped windows. */
module Chunker {
  import opened Text

  const DefaultSize: int := 1000
  const DefaultOverlap: int := 200

  /** The parameters under which the loop advances on every round. */
  predicate Advancing(size: int, overlap: int) {
    100 <= size && 0 <= overlap < size - 99
  }

  /** Position `k` holds a full stop strictly after `start` and within the
      last hundred characters of the window of `size` from `start`. */
  predicate BreakAt(text: string, size: int, start: int, k: int) {
    0 <= start < k && start + size - 100 <= k < start + size && k < |text| && text[k] == '.'
  }

  /** Where the window starting at `start` ends (exclusive): `start + size`,
      pulled back to just after the last '.' lying strictly after `start`
      within the window's final hundred characters, unless the window
      already reaches the end of the text. */
  function WindowEnd(text: string, size: int, start: int): (e: int)
    requires Advancing(size, 0) && 0 <= start < |text|
    ensures start < e <= start + size
    ensures e < |text| ==> start + size - 99 <= e
    ensures start + size >= |text| ==> e == start + size
  {
    var e := start + size;
    if e < |text| then
      var dot := RFind(text, '.', start + size - 100, e);
      if dot != -1 && dot > start then dot + 1 else e
    else e
  }

  /** A window that does not reach the end of the text ends just after its
      last full stop lying after `start` in its final hundred characters,
      and runs its full size when there is none. */
  lemma SentenceBreak(text: string, size: int, start: int)
    requires Advancing(size, 0) && 0 <= start < |text| && start + size < |text|
    ensures (exists k :: BreakAt(text, size, start, k)) ==>
      var e := WindowEnd(text, size, start);
      BreakAt(text, size, start, e - 1) && forall k :: BreakAt(text, size, start, k) ==> k < e
    ensures (forall k :: !BreakAt(text, size, start, k)) ==> WindowEnd(text, size, start) == start + size
  {
    var e := WindowEnd(text, size, start);
    var dot := RFind(text, '.', start + size - 100, start + size);
    assert e == if dot != -1 && dot > start then dot + 1 else start + size;
    if dot != -1 && dot > start {
      assert BreakAt(text, size, start, dot);
    } else {
      assert forall k :: !BreakAt(text, size, start, k);
    }
  }

  /** Where the next window starts. */
  function NextStart(text: string, size: int, overlap: int, start: int): (n: int)
    requires Advancing(size, overlap) && 0 <= start < |text|
    ensures start < n <= |text|
  {
    var e := WindowEnd(text, size, start);
    if e < |text| then e - overlap else |text|
  }

  /** The stripped text of the window starting at `start`. */
  function Piece(text: string, size: int, start: int): string
    requires Advancing(size, 0) && 0 <= start < |text|
  {
    var e := WindowEnd(text, size, start);
    Strip(text[start..if e < |text| then e else |text|])
  }

  /** The chunks produced from `start` on: the reference the loop follows. */
  function ChunksFrom(text: string, size: int, overlap: int, start: int): seq<string>
    requires Advancing(size, overlap) && 0 <= start <= |text|
    decreases |text| - start
  {
    if start == |text| then []
    else
      var p := Piece(text, size, start);
      (if p != "" then [p] else []) + ChunksFrom(text, size, overlap, NextStart(text, size, overlap, start))
  }

  /** One round of the loop: the window's piece, if any, then the rest. */
  lemma ChunksStep(text: string, size: int, overlap: int, start: int)
    requires Advancing(size, overlap) && 0 <= start < |text|
    ensures ChunksFrom(text, size, overlap, start)
      == (if Piece(text, size, start) != "" then [Piece(text, size, start)] else [])
         + ChunksFrom(text, size, overlap, NextStart(text, size, overlap, start))
  {
  }

  /** `chunk_text(text, chunk_size, overlap)` */
  method ChunkText(text: string, size: int, overlap: int) returns (chunks: seq<string>)
    requires |text| <= size || Advancing(size, overlap)
    ensures |text| <= size ==> chunks == [text]
    ensures |text| > size ==> chunks == ChunksFrom(text, size, overlap, 0)
    ensures |text| > size ==> forall i :: 0 <= i < |chunks| ==> WellShaped(text, size, chunks[i])
  {
    if |text| <= size {
      return [text];
    }
    chunks := [];
    var start := 0;
    while start < |text|
      invariant 0 <= start <= |text|
      invariant ChunksFrom(text, size, overlap, 0) == chunks + ChunksFrom(text, size, overlap, start)
      decreases |text| - start
    {
      var end := start + size;
      if end < |text| {
        var sentenceEnd := RFind(text, '.', start + size - 100, end);
        if sentenceEnd != -1 && sentenceEnd > start {
          end := sentenceEnd + 1;
        }
      }
      assert end == WindowEnd(text, size, start);
      var chunk := Strip(text[start..if end < |text| then end else |text|]);
      assert chunk == Piece(text, size, start);
      var next := if end < |text| then end - overlap else |text|;
      assert next == NextStart(text, size, overlap, start);
      ChunksStep(text, size, overlap, start);
      var rest := ChunksFrom(text, size, overlap, next);
      if chunk != "" {
        AppendOne(chunks, chunk, rest);
        chunks := chunks + [chunk];
      } else {
        assert [] + rest == rest;
      }
      start := next;
    }
    ChunksWellShaped(text, size, overlap, 0);
  }

  lemma AppendOne(chunks: seq<string>, c: string, rest: seq<string>)
    ensures chunks + ([c] + rest) == (chunks + [c]) + rest
  {
  }

  /** Every chunk is a non-empty stripped piece of one window, so it is no
      longer than `size`, begins and ends with a non-space, and occurs in
      the text. */
  lemma {:induction false} ChunksWellShaped(text: string, size: int, overlap: int, start: int)
    requires Advancing(size, overlap) && 0 <= start <= |text|
    ensures forall i :: 0 <= i < |ChunksFrom(text, size, overlap, start)| ==>
      WellShaped(text, size, ChunksFrom(text, size, overlap, start)[i])
    decreases |text| - start
  {
    if start < |text| {
      var next := NextStart(text, size, overlap, start);
      PieceWellShaped(text, size, start);
      ChunksWellShaped(text, size, overlap, next);
      var cs := ChunksFrom(text, size, overlap, start);
      var p := Piece(text, size, start);
      var rest := ChunksFrom(text, size, overlap, next);
      if p != "" {
        assert cs == [p] + rest;
        forall i | 0 <= i < |cs| ensures WellShaped(text, size, cs[i]) {
          if i > 0 {
            assert cs[i] == rest[i - 1];
          }
        }
      } else {
        assert cs == rest;
      }
    }
  }

  /** A chunk as the loop emits it. */
  predicate WellShaped(text: string, size: int, c: string) {
    && c != "" && |c| <= size
    && !IsSpace(c[0]) && !IsSpace(c[|c| - 1])
    && Contains(text, c)
  }

  lemma PieceWellShaped(text: string, size: int, start: int)
    requires Advancing(size, 0) && 0 <= start < |text|
    ensures Piece(text, size, start) != "" ==> WellShaped(text, size, Piece(text, size, start))
  {
    var e := WindowEnd(text, size, start);
    var hi := if e < |text| then e else |text|;
    StrippedSliceWellShaped(text, size, start, hi);
  }

  /** The stripped text of any slice no longer than `size` is well shaped
      unless blank. */
  lemma StrippedSliceWellShaped(text: string, size: int, lo: int, hi: int)
    requires 0 <= lo <= hi <= |text| && hi - lo <= size
    ensures Strip(text[lo..hi]) != "" ==> WellShaped(text, size, Strip(text[lo..hi]))
  {
    var p := Strip(text[lo..hi]);
    if p != "" {
      StripInText(text, lo, hi);
      var a := lo + LeadingSpaces(text[lo..hi]);
      WellShapedIntro(text, size, p, a, a + |p|);
    }
  }

  /** Where the stripped slice sits in the text. */
  lemma StripInText(text: string, lo: int, hi: int)
    requires 0 <= lo <= hi <= |text|
    ensures var w := text[lo..hi];
      var a := lo + LeadingSpaces(w);
      a + |Strip(w)| <= hi && text[a..a + |Strip(w)|] == Strip(w)
  {
    var w := text[lo..hi];
    SliceWithin(text, lo, hi, Strip(w), LeadingSpaces(w));
  }

  /** A piece found at offset `a` of a slice is found at `lo + a` in the text. */
  lemma SliceWithin(text: string, lo: int, hi: int, x: string, a: nat)
    requires 0 <= lo <= hi <= |text| && a + |x| <= hi - lo
    requires x == text[lo..hi][a..a + |x|]
    ensures text[lo + a..lo + a + |x|] == x
  {
    SliceOfSlice(text, lo, hi, a, a + |x|);
  }

  lemma WellShapedIntro(text: string, size: int, c: string, a: int, b: int)
    requires c != "" && |c| <= size && !IsSpace(c[0]) && !IsSpace(c[|c| - 1])
    requires 0 <= a <= b <= |text| && text[a..b] == c
    ensures WellShaped(text, size, c)
  {
    assert OccursAt(text, c, a);
    ContainsIff(text, c);
  }

  lemma SliceOfSlice(s: string, i: nat, j: nat, a: nat, b: nat)
    requires i <= j <= |s| && a <= b <= j - i
    ensures s[i..j][a..b] == s[i + a..i + b]
  {
    var x, y := s[i..j][a..b], s[i + a..i + b];
    assert |x| == |y|;
    forall k | 0 <= k < |x| ensures x[k] == y[k] {
      assert x[k] == s[i..j][a + k];
    }
  }

  /** The windows of the loop, as (start, end) pairs with `end` clamped to
      the text. */
  function Windows(text: string, size: int, overlap: int, start: int): seq<(int, int)>
    requires Advancing(size, overlap) && 0 <= start <= |text|
    decreases |text| - start
  {
    if start == |text| then []
    else
      var e := WindowEnd(text, size, start);
      [(start, if e < |text| then e else |text|)] + Windows(text, size, overlap, NextStart(text, size, overlap, start))
  }

  /** The windows cover every position of the text: with a non-negative
      overlap the next window starts no later than the current one ends,
      and the last window reaches the end of the text. */
  lemma {:induction false} WindowsCover(text: string, size: int, overlap: int, start: int, k: int)
    requires Advancing(size, overlap) && 0 <= start <= k < |text|
    ensures exists i :: (0 <= i < |Windows(text, size, overlap, start)| &&
      Windows(text, size, overlap, start)[i].0 <= k < Windows(text, size, overlap, start)[i].1)
    decreases |text| - start
  {
    var ws := Windows(text, size, overlap, start);
    var e := WindowEnd(text, size, start);
    if k < e {
      assert ws[0].0 <= k < ws[0].1;
    } else {
      var next := NextStart(text, size, overlap, start);
      WindowsCover(text, size, overlap, next, k);
      var rest := Windows(text, size, overlap, next);
      var i :| 0 <= i < |rest| && rest[i].0 <= k < rest[i].1;
      assert ws[i + 1] == rest[i];
    }
  }

  /** Consecutive windows overlap by exactly `overlap` characters unless the
      first already reaches the end, and no window is longer than `size`. */
  lemma {:induction false} WindowsChain(text: string, size: int, overlap: int, start: int)
    requires Advancing(size, overlap) && 0 <= start <= |text|
    ensures var ws := Windows(text, size, overlap, start);
      && (forall i :: 0 <= i < |ws| ==> ws[i].0 < ws[i].1 <= ws[i].0 + size)
      && (forall i :: 0 <= i < |ws| - 1 ==> ws[i + 1].0 == ws[i].1 - overlap)
      && (ws != [] ==> ws[0].0 == start && ws[|ws| - 1].1 == |text|)
    decreases |text| - start
  {
    if start < |text| {
      var next := NextStart(text, size, overlap, start);
      WindowsChain(text, size, overlap, next);
      var ws := Windows(text, size, overlap, start);
      var rest := Windows(text, size, overlap, next);
      assert ws == [ws[0]] + rest;
      if next == |text| {
        assert rest == [];
      }
    }
  }

  /** Every window lies inside the text. */
  predicate WithinText(text: string, ws: seq<(int, int)>) {
    forall i :: 0 <= i < |ws| ==> 0 <= ws[i].0 <= ws[i].1 <= |text|
  }

  /** The stripped text of each window, in order, keeping the non-blank ones. */
  function NonBlankPieces(text: string, ws: seq<(int, int)>): seq<string>
    requires WithinText(text, ws)
    decreases |ws|
  {
    if ws == [] then []
    else
      var p := Strip(text[ws[0].0..ws[0].1]);
      (if p != "" then [p] else []) + NonBlankPieces(text, ws[1..])
  }

  /** The chunks are exactly the non-blank stripped windows, in window order:
      the loop drops blank pieces and nothing else. */
  lemma {:induction false} ChunksAreWindowPieces(text: string, size: int, overlap: int, start: int)
    requires Advancing(size, overlap) && 0 <= start <= |text|
    ensures WithinText(text, Windows(text, size, overlap, start))
    ensures ChunksFrom(text, size, overlap, start) == NonBlankPieces(text, Windows(text, size, overlap, start))
    decreases |text| - start
  {
    if start < |text| {
      var next := NextStart(text, size, overlap, start);
      ChunksAreWindowPieces(text, size, overlap, next);
      var ws := Windows(text, size, overlap, start);
      var rest := Windows(text, size, overlap, next);
      assert ws[1..] == rest;
      forall i | 0 <= i < |ws|
        ensures 0 <= ws[i].0 <= ws[i].1 <= |text|
      {
        if i > 0 {
          assert ws[i] == rest[i - 1];
        }
      }
    }
  }

  /** With the default parameters the loop always advances. */
  lemma DefaultsAdvance()
    ensures Advancing(DefaultSize, DefaultOverlap)
  {
  }
}

=== FILE: classifier.dfy ===
/** The lexical task classifier of the adaptive router: keyword hits in the
    lower-cased text plus context, length and technical-indicator bonuses,
    and the first-declared member with the highest score. */
module Classifier {
  import opened Common
  import opened Text
  import opened Catalog
  import Selection

  /** How many list entries occur in `text`; an entry listed twice counts twice. */
  function CountHits(keywords: seq<string>, text: string): (n: nat)
    ensures n <= |keywords|
    ensures n == 0 <==> NoneOccur(keywords, text)
    decreases |keywords|
  {
    if keywords == [] then 0
    else (if Contains(text, keywords[0]) then 1 else 0) + CountHits(keywords[1..], text)
  }

  /** Counting over two lists is counting over each: nothing is merged. */
  lemma {:induction false} CountHitsAppend(a: seq<string>, b: seq<string>, text: string)
    ensures CountHits(a + b, text) == CountHits(a, text) + CountHits(b, text)
    decreases |a|
  {
    if a != [] {
      assert (a + b)[0] == a[0];
      assert (a + b)[1..] == a[1..] + b;
      CountHitsAppend(a[1..], b, text);
    } else {
      assert a + b == b;
    }
  }

  /** A keyword listed at two positions counts at least twice. */
  lemma ListedTwice(ks: seq<string>, i: nat, j: nat, text: string)
    requires i < j < |ks| && ks[i] == ks[j] && Contains(text, ks[i])
    ensures CountHits(ks, text) >= 2
  {
    var front, back := ks[..j], ks[j..];
    assert ks == front + back;
    CountHitsAppend(front, back, text);
    assert front[i] == ks[i] && back[0] == ks[j];
    assert !NoneOccur(front, text) && !NoneOccur(back, text);
  }

  /** The repeated entries of the source's tables: "normal" counts twice for
      MEDIUM, "expert" and "enterprise" twice for EXPERT, and "bug" twice
      for DEBUGGING. */
  lemma RepeatedKeywordsCountTwice(text: string)
    ensures Contains(text, "normal") ==> CountHits(ComplexityKeywords(Complexity.Medium), text) >= 2
    ensures Contains(text, "expert") || Contains(text, "enterprise") ==> CountHits(ComplexityKeywords(Expert), text) >= 2
    ensures Contains(text, "bug") ==> CountHits(TaskTypeKeywords(Debugging), text) >= 2
  {
    var medium, expert, debugging := ComplexityKeywords(Complexity.Medium), ComplexityKeywords(Expert), TaskTypeKeywords(Debugging);
    assert medium[3] == "normal" == medium[8];
    assert expert[0] == "expert" == expert[5] && expert[2] == "enterprise" == expert[7];
    assert debugging[2] == "bug" == debugging[8];
    if Contains(text, "normal") {
      ListedTwice(medium, 3, 8, text);
    }
    if Contains(text, "expert") {
      ListedTwice(expert, 0, 5, text);
    } else if Contains(text, "enterprise") {
      ListedTwice(expert, 2, 7, text);
    }
    if Contains(text, "bug") {
      ListedTwice(debugging, 2, 8, text);
    }
  }

  /** No entry of `keywords` occurs in the text. */
  predicate NoneOccur(keywords: seq<string>, text: string) {
    forall i :: 0 <= i < |keywords| ==> !Contains(text, keywords[i])
  }

  /** `if context:` — the context is present and not empty. */
  predicate HasContext(ctx: Option<Context>) {
    ctx.Some? && ctx.value != map[]
  }

  /** Project-size bonus; a missing `project_size` reads as "medium". */
  function ProjectSizeBonus(ctx: Option<Context>, c: Complexity): nat {
    if !HasContext(ctx) then 0
    else
      var size := Get(ctx.value, "project_size", Str("medium"));
      if size == Str("enterprise") || size == Str("large") then (if c == Expert then 2 else 0)
      else if size == Str("startup") || size == Str("medium") then (if c == Complex then 1 else 0)
      else 0
  }

  /** Length bonus. The source follows `length > 500` with an `elif
      length > 1000` branch for EXPERT; that branch can only be reached when
      the length is at most 500, so it never fires and is not written here:
      long texts only ever add to COMPLEX. */
  function LengthBonus(length: nat, c: Complexity): (n: nat)
    ensures c == Expert ==> n == 0
    ensures c == Complex ==> (n == 1 <==> length > 500)
  {
    if length > 500 && c == Complex then 1 else 0
  }

  function ComplexityScore(message: string, ctx: Option<Context>, c: Complexity): nat {
    var lower := Lower(message);
    CountHits(ComplexityKeywords(c), lower)
      + ProjectSizeBonus(ctx, c)
      + LengthBonus(|message|, c)
      + (if c == Expert then CountHits(TechnicalIndicators, lower) else 0)
  }

  /** The complexity scores in declaration order. */
  function ComplexityScores(message: string, ctx: Option<Context>): (s: seq<nat>)
    ensures |s| == |Complexities|
  {
    seq(|Complexities|, i requires 0 <= i < |Complexities| => ComplexityScore(message, ctx, Complexities[i]))
  }

  function NatKey(n: nat): real {
    n as real
  }

  /** Index `i` holds the highest score, and every earlier index a strictly lower one. */
  predicate IsFirstMax(scores: seq<nat>, i: nat) {
    && i < |scores|
    && (forall j :: 0 <= j < |scores| ==> scores[j] <= scores[i])
    && (forall j :: 0 <= j < i ==> scores[j] < scores[i])
  }

  /** `max(scores, key=scores.get)` over members in declaration order. */
  function FirstMaxIndex(scores: seq<nat>): (i: nat)
    requires |scores| > 0
    ensures IsFirstMax(scores, i)
  {
    Selection.ArgMax(scores, NatKey)
  }

  /** At most one index is the first maximum. */
  lemma FirstMaxUnique(scores: seq<nat>, i: nat, k: nat)
    requires IsFirstMax(scores, i) && IsFirstMax(scores, k)
    ensures i == k
  {
    assert scores[k] <= scores[i] && scores[i] <= scores[k];
  }

  /** An index scoring 0 never wins when an earlier index exists. */
  lemma FirstMaxAvoidsZero(scores: seq<nat>, i: nat, k: nat)
    requires IsFirstMax(scores, i) && 0 < k < |scores| && scores[k] == 0
    ensures i != k
  {
    assert scores[0] <= scores[i];
  }

  /** `analyze_task_complexity`: total, and the first-declared member with the
      highest score (the trailing `or MEDIUM` never applies: members are truthy). */
  function AnalyzeComplexity(message: string, ctx: Option<Context>): (r: Complexity)
    ensures IsFirstMax(ComplexityScores(message, ctx), ComplexityIndex(r))
  {
    var i := FirstMaxIndex(ComplexityScores(message, ctx));
    IndexOfPosition(i);
    Complexities[i]
  }

  /** Agent-name bonus: only these five exact names are recognised. */
  function AgentBonus(ctx: Option<Context>, t: TaskType): nat {
    if !HasContext(ctx) then 0
    else
      var agent := Get(ctx.value, "agent", Str(""));
      if agent == Str("ideator") then (if t == Ideation then 3 else 0)
      else if agent == Str("architect") then (if t == Architecture then 3 else 0)
      else if agent == Str("builder") then (if t == TaskType.Coding then 3 else 0)
      else if agent == Str("dev_fullstack") then (if t == TaskType.Coding then 2 else 0)
      else if agent == Str("reflexivo") then (if t == Analysis then 3 else 0)
      else 0
  }

  function TypeScore(message: string, ctx: Option<Context>, t: TaskType): nat {
    CountHits(TaskTypeKeywords(t), Lower(message)) + AgentBonus(ctx, t)
  }

  /** The task-type scores in declaration order. */
  function TypeScores(message: string, ctx: Option<Context>): (s: seq<nat>)
    ensures |s| == |TaskTypes|
  {
    seq(|TaskTypes|, i requires 0 <= i < |TaskTypes| => TypeScore(message, ctx, TaskTypes[i]))
  }

  /** `analyze_task_type`: total, and the first-declared member with the
      highest score (the trailing `or CODING` never applies). */
  function AnalyzeType(message: string, ctx: Option<Context>): (r: TaskType)
    ensures IsFirstMax(TypeScores(message, ctx), TaskTypeIndex(r))
  {
    var i := FirstMaxIndex(TypeScores(message, ctx));
    IndexOfPosition(i);
    TaskTypes[i]
  }

  /** A tier with no keyword hit and no context scores only its length bonus. */
  lemma QuietTierScore(message: string, ctx: Option<Context>, c: Complexity)
    requires !HasContext(ctx)
    requires NoneOccur(ComplexityKeywords(c), Lower(message))
    requires c == Expert ==> NoneOccur(TechnicalIndicators, Lower(message))
    ensures ComplexityScore(message, ctx, c) == LengthBonus(|message|, c)
  {
  }

  /** A text whose only triggers are SIMPLE ones (or none at all), at most 500
      characters long and without context, is classified SIMPLE: the other
      tiers score 0 and ties go to the first-declared member. */
  lemma OnlySimpleTriggersGiveSimple(message: string, ctx: Option<Context>)
    requires !HasContext(ctx) && |message| <= 500
    requires NoneOccur(ComplexityKeywords(Complexity.Medium), Lower(message))
    requires NoneOccur(ComplexityKeywords(Complex), Lower(message))
    requires NoneOccur(ComplexityKeywords(Expert), Lower(message))
    requires NoneOccur(TechnicalIndicators, Lower(message))
    ensures AnalyzeComplexity(message, ctx) == Simple
  {
    var scores := ComplexityScores(message, ctx);
    QuietTierEntry(message, ctx, Complexity.Medium);
    QuietTierEntry(message, ctx, Complex);
    QuietTierEntry(message, ctx, Expert);
    ZeroTailPattern(scores);
    FirstMaxUnique(scores, 0, ComplexityIndex(AnalyzeComplexity(message, ctx)));
  }

  /** Scores that are 0 after the first entry have their first maximum at
      index 0. */
  lemma ZeroTailPattern(scores: seq<nat>)
    requires |scores| == 4 && scores[1] == 0 && scores[2] == 0 && scores[3] == 0
    ensures IsFirstMax(scores, 0)
  {
  }

  /** A long text without any trigger is COMPLEX, never EXPERT: the only
      length bonus that can fire is the one for more than 500 characters. */
  lemma LongTextWithoutTriggersIsComplex(message: string, ctx: Option<Context>)
    requires !HasContext(ctx) && |message| > 500
    requires NoneOccur(ComplexityKeywords(Simple), Lower(message))
    requires NoneOccur(ComplexityKeywords(Complexity.Medium), Lower(message))
    requires NoneOccur(ComplexityKeywords(Complex), Lower(message))
    requires NoneOccur(ComplexityKeywords(Expert), Lower(message))
    requires NoneOccur(TechnicalIndicators, Lower(message))
    ensures AnalyzeComplexity(message, ctx) == Complex
  {
    var scores := ComplexityScores(message, ctx);
    QuietTierEntry(message, ctx, Simple);
    QuietTierEntry(message, ctx, Complexity.Medium);
    QuietTierEntry(message, ctx, Complex);
    QuietTierEntry(message, ctx, Expert);
    LongQuietPattern(scores);
    FirstMaxUnique(scores, 2, ComplexityIndex(AnalyzeComplexity(message, ctx)));
  }

  /** The entry of the score vector for a quiet tier is its length bonus. */
  lemma QuietTierEntry(message: string, ctx: Option<Context>, c: Complexity)
    requires !HasContext(ctx)
    requires NoneOccur(ComplexityKeywords(c), Lower(message))
    requires c == Expert ==> NoneOccur(TechnicalIndicators, Lower(message))
    ensures ComplexityScores(message, ctx)[ComplexityIndex(c)] == LengthBonus(|message|, c)
  {
    QuietTierScore(message, ctx, c);
  }

  /** Scores `[0, 0, 1, 0]` have their first maximum at index 2. */
  lemma LongQuietPattern(scores: seq<nat>)
    requires |scores| == 4 && scores[0] == 0 && scores[1] == 0 && scores[2] == 1 && scores[3] == 0
    ensures IsFirstMax(scores, 2)
  {
  }

  /** The context bonuses: "enterprise"/"large" add 2 to EXPERT,
      "startup"/"medium" or a missing size add 1 to COMPLEX, anything else
      adds nothing, and an absent or empty context adds nothing. */
  lemma ProjectSizeEffect(message: string, ctx: Context, c: Complexity)
    requires ctx != map[]
    ensures var size := if "project_size" in ctx then ctx["project_size"] else Str("medium");
      var bonus :=
        if size in [Str("enterprise"), Str("large")] then (if c == Expert then 2 else 0)
        else if size in [Str("startup"), Str("medium")] then (if c == Complex then 1 else 0)
        else 0;
      ComplexityScore(message, Some(ctx), c) == ComplexityScore(message, None, c) + bonus
    ensures ComplexityScore(message, Some(map[]), c) == ComplexityScore(message, None, c)
  {
    SizeSplit(message, Some(ctx), c);
    SizeSplit(message, Some(map[]), c);
    SizeBonusCases(ctx, c);
  }

  /** The bonus itself, read off the size. */
  lemma SizeBonusCases(ctx: Context, c: Complexity)
    requires ctx != map[]
    ensures var size := if "project_size" in ctx then ctx["project_size"] else Str("medium");
      ProjectSizeBonus(Some(ctx), c) ==
        if size in [Str("enterprise"), Str("large")] then (if c == Expert then 2 else 0)
        else if size in [Str("startup"), Str("medium")] then (if c == Complex then 1 else 0)
        else 0
    ensures ProjectSizeBonus(Some(map[]), c) == 0
  {
    var size := if "project_size" in ctx then ctx["project_size"] else Str("medium");
    assert Get(ctx, "project_size", Str("medium")) == size;
    assert size in [Str("enterprise"), Str("large")] <==> size == Str("enterprise") || size == Str("large");
    assert size in [Str("startup"), Str("medium")] <==> size == Str("startup") || size == Str("medium");
  }

  /** The project-size bonus is the only part of a complexity score the
      context changes. */
  lemma SizeSplit(message: string, ctx: Option<Context>, c: Complexity)
    ensures ComplexityScore(message, ctx, c) == ComplexityScore(message, None, c) + ProjectSizeBonus(ctx, c)
  {
  }

  /** Only the exact names ideator, architect, builder, dev_fullstack and
      reflexivo move the task type; any other agent name (for example
      "builder_web", which the HTTP layer sends) classifies as if there were
      no context at all. */
  lemma UnrecognisedAgentIsIgnored(message: string, agent: string)
    requires agent !in ["ideator", "architect", "builder", "dev_fullstack", "reflexivo"]
    ensures AnalyzeType(message, Some(map["agent" := Str(agent)])) == AnalyzeType(message, None)
  {
    var ctx := Some(map["agent" := Str(agent)]);
    var a, b := TypeScores(message, ctx), TypeScores(message, None);
    forall k | 0 <= k < |a| ensures a[k] == b[k] {
      UnrecognisedAgentBonus(agent, TaskTypes[k]);
    }
    assert a == b;
  }

  /** The agent bonus of an unrecognised name is 0 for every type. */
  lemma UnrecognisedAgentBonus(agent: string, t: TaskType)
    requires agent !in ["ideator", "architect", "builder", "dev_fullstack", "reflexivo"]
    ensures AgentBonus(Some(map["agent" := Str(agent)]), t) == 0
  {
  }

  /** TESTING and DEPLOYMENT have no keywords and no bonus, so they score 0
      and IDEATION, declared first, always beats them. */
  lemma TypeIsNeverTestingOrDeployment(message: string, ctx: Option<Context>)
    ensures AnalyzeType(message, ctx) != Testing
    ensures AnalyzeType(message, ctx) != Deployment
  {
    var scores := TypeScores(message, ctx);
    var i := TaskTypeIndex(AnalyzeType(message, ctx));
    SilentTypeEntry(message, ctx, Testing);
    SilentTypeEntry(message, ctx, Deployment);
    FirstMaxAvoidsZero(scores, i, 6);
    FirstMaxAvoidsZero(scores, i, 7);
  }

  /** A type without keywords and without an agent bonus scores 0. */
  lemma SilentTypeEntry(message: string, ctx: Option<Context>, t: TaskType)
    requires t == Testing || t == Deployment
    ensures TypeScores(message, ctx)[TaskTypeIndex(t)] == 0
  {
  }

  /** Without any type keyword and without a recognised agent every type
      scores 0 and the answer is IDEATION, the first-declared member. */
  lemma NoSignalGivesIdeation(message: string, ctx: Option<Context>)
    requires forall t :: NoneOccur(TaskTypeKeywords(t), Lower(message))
    requires forall t :: AgentBonus(ctx, t) == 0
    ensures AnalyzeType(message, ctx) == Ideation
  {
    var scores := TypeScores(message, ctx);
    forall k | 0 <= k < |scores| ensures scores[k] == 0 {
      var t := TaskTypes[k];
      assert NoneOccur(TaskTypeKeywords(t), Lower(message));
      assert AgentBonus(ctx, t) == 0;
    }
    assert IsFirstMax(scores, 0);
    FirstMaxUnique(scores, 0, TaskTypeIndex(AnalyzeType(message, ctx)));
  }
}

=== FILE: common.dfy ===
/** Shared value types: an optional value, and the dynamically typed values
    that travel in the Python dictionaries (request contexts, parsed JSON). */
module Common {

  datatype Option<+T> = None | Some(value: T)

  /** What a call that may raise gives back: its value, or the exception
      that escaped it, named by its class. */
  datatype Result<+T> = Ok(value: T) | Raised(error: string)

  /** A value stored in a context dictionary, as JSON brings it in: a list
      with its elements, a dictionary with its entries in insertion order,
      and any other object as `Other` with its `repr`. The routing cache key
      compares values by their `str` spelling, which tells these apart. */
  datatype Value =
    | Str(s: string)
    | Bool(b: bool)
    | Int(i: int)
    | Float(x: real)
    | NoneValue
    | List(items: seq<Value>)
    | Dict(entries: seq<(string, Value)>)
    | Other(tag: string)

  /** Python truthiness of a context value: empty strings and collections,
      zero, `False` and `None` are false; other objects are true. */
  predicate Truthy(v: Value) {
    match v
    case Str(s) => s != ""
    case Bool(b) => b
    case Int(i) => i != 0
    case Float(x) => x != 0.0
    case NoneValue => false
    case List(items) => items != []
    case Dict(entries) => entries != []
    case Other(_) => true
  }

  /** A context dictionary; `None` and the empty dictionary are both falsy. */
  type Context = map<string, Value>

  /** `context or {}` */
  function OrEmpty(ctx: Option<Context>): Context {
    if ctx.Some? then ctx.value else map[]
  }

  /** `dict.get(key, default)` */
  function Get(ctx: Context, key: string, default: Value): Value {
    if key in ctx then ctx[key] else default
  }

  /** `os.getenv(key, default)` over an explicit environment. */
  function GetEnv(env: map<string, string>, key: string, default: string): string {
    if key in env then env[key] else default
  }
}

=== FILE: dict.dfy ===
/** A Python dictionary with string keys as its items in insertion order:
    assigning to a present key keeps its position, a new key goes last. */
module Dict {
  import opened Common

  type Items<V> = seq<(string, V)>

  function Keys<V>(t: Items<V>): (ks: seq<string>)
    ensures |ks| == |t|
    ensures forall i :: 0 <= i < |t| ==> ks[i] == t[i].0
  {
    if t == [] then [] else [t[0].0] + Keys(t[1..])
  }

  /** No key occurs twice. */
  predicate Distinct(ks: seq<string>) {
    forall i, j :: 0 <= i < j < |ks| ==> ks[i] != ks[j]
  }

  predicate WellFormed<V>(t: Items<V>) {
    Distinct(Keys(t))
  }

  /** `d.get(key)` */
  function Find<V>(t: Items<V>, key: string): (r: Option<V>)
    ensures r.None? <==> key !in Keys(t)
    ensures r.Some? ==> (key, r.value) in t
  {
    if t == [] then None
    else if t[0].0 == key then Some(t[0].1)
    else Find(t[1..], key)
  }

  /** `d[key] = value` */
  function Put<V>(t: Items<V>, key: string, value: V): (r: Items<V>)
    ensures key in Keys(t) ==> Keys(r) == Keys(t)
    ensures key !in Keys(t) ==> Keys(r) == Keys(t) + [key]
    ensures Find(r, key) == Some(value)
    ensures forall other :: other != key ==> Find(r, other) == Find(t, other)
  {
    if t == [] then [(key, value)]
    else if t[0].0 == key then [(key, value)] + t[1..]
    else
      var rest := Put(t[1..], key, value);
      ConsSnoc(t[0].0, Keys(t[1..]), key);
      [t[0]] + rest
  }

  lemma ConsSnoc<T>(a: T, b: seq<T>, k: T)
    ensures [a] + (b + [k]) == ([a] + b) + [k]
  {
  }

  /** Assignment keeps the keys unique. */
  lemma PutKeepsWellFormed<V>(t: Items<V>, key: string, value: V)
    requires WellFormed(t)
    ensures WellFormed(Put(t, key, value))
  {
    var ks := Keys(t);
    if key !in ks {
      var rs := ks + [key];
      forall i, j | 0 <= i < j < |rs| ensures rs[i] != rs[j] {
        if j == |ks| {
          assert rs[i] == ks[i];
        }
      }
    }
  }
}

=== FILE: dispatch.dfy ===
/** The keyword dispatch of the specialist agents: each `process_message`
    checks keyword groups in a fixed order against the lower-cased message
    and hands over to the handler of the first group with a substring hit. */
module Dispatch {
  import opened Common
  import opened Text
  import opened Classifier
  import opened Agents
  import Plans

  /** `any(k in text for k in keywords)` */
  function AnyOf(keywords: seq<string>, text: string): (b: bool)
    ensures b <==> !NoneOccur(keywords, text)
    decreases |keywords|
  {
    if keywords == [] then false
    else Contains(text, keywords[0]) || AnyOf(keywords[1..], text)
  }

  /** The handler of the first group with a hit, if any. */
  function Route<T(==)>(groups: seq<(seq<string>, T)>, text: string): (r: Option<T>)
    ensures r.None? <==> forall i :: 0 <= i < |groups| ==> NoneOccur(groups[i].0, text)
    ensures r.Some? ==> exists i :: 0 <= i < |groups| && FirstHit(groups, text, i) && r.value == groups[i].1
    decreases |groups|
  {
    if groups == [] then None
    else if AnyOf(groups[0].0, text) then
      assert FirstHit(groups, text, 0);
      Some(groups[0].1)
    else
      var rest := Route(groups[1..], text);
      if rest.Some? then
        var i :| 0 <= i < |groups[1..]| && FirstHit(groups[1..], text, i) && rest.value == groups[1..][i].1;
        assert FirstHit(groups, text, i + 1);
        rest
      else rest
  }

  /** Group `i` has a hit and no earlier group has one. */
  predicate FirstHit<T>(groups: seq<(seq<string>, T)>, text: string, i: int) {
    && 0 <= i < |groups|
    && !NoneOccur(groups[i].0, text)
    && forall j :: 0 <= j < i ==> NoneOccur(groups[j].0, text)
  }

  /** When a group has a hit and no earlier group has one, that group's
      handler runs. */
  lemma {:induction false} FirstHitWins<T>(groups: seq<(seq<string>, T)>, text: string, i: int)
    requires FirstHit(groups, text, i)
    ensures Route(groups, text) == Some(groups[i].1)
    decreases |groups|
  {
    if i > 0 {
      assert NoneOccur(groups[0].0, text);
      assert FirstHit(groups[1..], text, i - 1) by {
        forall j | 0 <= j < i - 1 ensures NoneOccur(groups[1..][j].0, text) {
          assert groups[1..][j] == groups[j + 1];
        }
      }
      FirstHitWins(groups[1..], text, i - 1);
    }
  }

  /** `context.get("model", self.default_model)`: the model the handlers call. */
  function HandlerModel(ctx: Context, defaultModel: string): (v: Value)
    ensures "model" in ctx ==> v == ctx["model"]
    ensures "model" !in ctx ==> v == Str(defaultModel)
  {
    Get(ctx, "model", Str(defaultModel))
  }

  /** Reached through `process`, the handlers call exactly the model that
      `process` resolved. */
  lemma HandlersUseResolvedModel(agent: AgentClass, message: string, messages: seq<Message>,
                                 model: Option<string>, ctx: Option<Context>,
                                 handler: (string, Context) -> Result<Option<string>>,
                                 llm: (string, seq<Message>) -> Result<string>)
    ensures var p := Process(agent, message, messages, model, ctx, handler, llm);
      HandlerModel(p.handlerContext, agent.defaultModel) == Str(p.model)
  {
  }

  /** The planner is the exception: it calls the agent's default model. Once
      `process` is given a routed model other than the default, the context
      names the routed model, yet the plan is the one the default model's
      answer gives, exactly as with no context at all. */
  lemma PlannerIgnoresRoutedModel(agent: AgentClass, message: string, messages: seq<Message>,
                                  routed: string, ctx: Option<Context>,
                                  handler: (string, Context) -> Result<Option<string>>,
                                  llm: (string, seq<Message>) -> Result<string>,
                                  planLlm: (string, string) -> Result<string>, loads: string -> Plans.Parsed)
    requires routed != "" && routed != agent.defaultModel
    ensures var p := Process(agent, message, messages, Some(routed), ctx, handler, llm);
      && HandlerModel(p.handlerContext, agent.defaultModel) == Str(routed)
      && Str(routed) != Str(agent.defaultModel)
      && Plans.PlanRequest(agent.defaultModel, message, p.handlerContext, planLlm, loads)
           == Plans.PlanRequest(agent.defaultModel, message, map[], planLlm, loads)
  {
  }

  // ----- dev_fullstack -----

  datatype DevTask = Debugging | CodeGeneration | ArchitectureDesign | CodeReview

  const DevRoutes: seq<(seq<string>, DevTask)> := [
    (["debug", "erro", "bug", "falha", "não funciona"], Debugging),
    (["criar", "implementar", "gerar", "desenvolver", "código"], CodeGeneration),
    (["arquitetura", "estrutura", "design", "modelar"], ArchitectureDesign),
    (["revisar", "analisar", "melhorar", "otimizar"], CodeReview)
  ]

  /** The handler `DevFullstackAgent.process_message` picks; `None` hands
      the message back to `process` for a direct model call. */
  function DevFullstackTask(message: string): (r: Option<DevTask>)
    ensures r.None? <==> forall i :: 0 <= i < |DevRoutes| ==> NoneOccur(DevRoutes[i].0, Lower(message))
  {
    Route(DevRoutes, Lower(message))
  }

  /** Any debugging word wins, even next to "criar" or "implementar". */
  lemma DebuggingFirst(message: string, k: nat)
    requires k < |DevRoutes[0].0| && Contains(Lower(message), DevRoutes[0].0[k])
    ensures DevFullstackTask(message) == Some(Debugging)
  {
    FirstHitWins(DevRoutes, Lower(message), 0);
  }

  // ----- reflexivo -----

  datatype ReflexiveTask = ProblemAnalysis | StrategicPlanning | DecisionSupport | SelfReflection

  const ReflexiveRoutes: seq<(seq<string>, ReflexiveTask)> := [
    (["problema", "dificuldade", "desafio", "bloqueio", "stuck"], ProblemAnalysis),
    (["plano", "estratégia", "como", "passos", "roadmap"], StrategicPlanning),
    (["decisão", "escolha", "opção", "dilema", "vs", "ou"], DecisionSupport),
    (["reflexão", "pensar", "analisar", "entender", "porque"], SelfReflection)
  ]

  function ReflexivoTask(message: string): (r: Option<ReflexiveTask>)
    ensures r.None? <==> forall i :: 0 <= i < |ReflexiveRoutes| ==> NoneOccur(ReflexiveRoutes[i].0, Lower(message))
  {
    Route(ReflexiveRoutes, Lower(message))
  }

  /** "ou" and "vs" are matched as substrings, so any word containing them
      ("você", "outro") selects decision support once the problem and
      planning groups have no hit. */
  lemma OuSelectsDecision(message: string)
    requires Contains(Lower(message), "ou") || Contains(Lower(message), "vs")
    requires NoneOccur(ReflexiveRoutes[0].0, Lower(message))
    requires NoneOccur(ReflexiveRoutes[1].0, Lower(message))
    ensures ReflexivoTask(message) == Some(DecisionSupport)
  {
    assert ReflexiveRoutes[2].0[4] == "vs" && ReflexiveRoutes[2].0[5] == "ou";
    FirstHitWins(ReflexiveRoutes, Lower(message), 2);
  }

  // ----- ideator -----

  datatype IdeationTask = SaasIdea | AppIdea | MarketAnalysis | MvpDefinition | Personas | GeneralIdeation

  const IdeationRoutes: seq<(seq<string>, IdeationTask)> := [
    (["saas", "software", "plataforma", "sistema"], SaasIdea),
    (["app", "mobile", "android", "ios", "flutter"], AppIdea),
    (["mercado", "competição", "análise", "oportunidade"], MarketAnalysis),
    (["mvp", "produto", "features", "funcionalidades"], MvpDefinition),
    (["persona", "usuário", "cliente", "user story"], Personas)
  ]

  /** The ideator always answers itself: unmatched messages get general
      ideation. */
  function IdeatorTask(message: string): (r: IdeationTask)
    ensures r == GeneralIdeation <==> forall i :: 0 <= i < |IdeationRoutes| ==> NoneOccur(IdeationRoutes[i].0, Lower(message))
  {
    match Route(IdeationRoutes, Lower(message))
    case Some(t) => t
    case None => GeneralIdeation
  }

  /** "sistema" or "plataforma" beats "app" when both appear. */
  lemma PlatformBeatsApp(message: string)
    requires Contains(Lower(message), "sistema") || Contains(Lower(message), "plataforma")
    ensures IdeatorTask(message) == SaasIdea
  {
    assert IdeationRoutes[0].0[2] == "plataforma" && IdeationRoutes[0].0[3] == "sistema";
    FirstHitWins(IdeationRoutes, Lower(message), 0);
  }

  // ----- architect -----

  datatype ArchitectTask = TechStack | ArchitectureDesignTask | DatabaseDesign | ApiDesign | GeneralArchitecture

  const ArchitectRoutes: seq<(seq<string>, ArchitectTask)> := [
    (["stack", "tecnologia", "framework"], TechStack),
    (["arquitetura", "design", "estrutura"], ArchitectureDesignTask),
    (["banco", "database", "modelo"], DatabaseDesign),
    (["api", "endpoint", "rest"], ApiDesign)
  ]

  function ArchitectTaskOf(message: string): (r: ArchitectTask)
    ensures r == GeneralArchitecture <==> forall i :: 0 <= i < |ArchitectRoutes| ==> NoneOccur(ArchitectRoutes[i].0, Lower(message))
  {
    match Route(ArchitectRoutes, Lower(message))
    case Some(t) => t
    case None => GeneralArchitecture
  }

  /** "design" outranks "api": without a stack word the request is an
      architecture design. */
  lemma DesignOutranksApi(message: string)
    requires Contains(Lower(message), "design")
    requires NoneOccur(ArchitectRoutes[0].0, Lower(message))
    ensures ArchitectTaskOf(message) == ArchitectureDesignTask
  {
    assert ArchitectRoutes[1].0[1] == "design";
    FirstHitWins(ArchitectRoutes, Lower(message), 1);
  }
}

=== FILE: editor.dfy ===
/** `EditorAgent.process_message`: read the project name and the file path
    out of single quotes in the request, read the file, ask the model for
    the new content and write it back. The file system and the model are
    parameters. */
module Editor {
  import opened Common
  import opened Text

  const Quote: char := '\''

  /** A parsed edit request. */
  datatype Request = Request(project: string, path: string, instruction: string)

  /** `message.split(sep)[1]` for a non-empty separator: the text after the
      first occurrence up to the next one, or `None` (IndexError) when the
      separator does not occur. */
  function SecondPiece(message: string, sep: string): (r: Option<string>)
    requires sep != ""
    ensures r.None? <==> !Contains(message, sep)
  {
    ContainsIff(message, sep);
    match IndexOf(message, sep)
    case None => None
    case Some(i) =>
      var rest := message[i + |sep|..];
      match IndexOf(rest, sep)
      case None => Some(rest)
      case Some(j) => Some(rest[..j])
  }

  /** The parsing step, `None` where the source catches IndexError. */
  function Parse(message: string): Option<Request> {
    var parts := Split(message, Quote);
    if |parts| < 4 then None
    else
      var path := parts[3];
      match SecondPiece(message, [Quote] + path + [Quote])
      case None => None
      case Some(after) => Some(Request(parts[1], path, Strip(after)))
  }

  /** Joining at least four parts spells out the first three separators. */
  lemma QuoteLayout(message: string)
    requires |Split(message, Quote)| >= 4
    ensures var ps := Split(message, Quote);
      message == ps[0] + [Quote] + ps[1] + [Quote] + ps[2] + [Quote] + ps[3]
        + (if |ps| == 4 then "" else [Quote] + Join(ps[4..], Quote))
  {
    var ps := Split(message, Quote);
    var tail := if |ps| == 4 then "" else [Quote] + Join(ps[4..], Quote);
    JoinSplit(message, Quote);
    assert Join(ps, Quote) == ps[0] + [Quote] + Join(ps[1..], Quote);
    assert Join(ps[1..], Quote) == ps[1] + [Quote] + Join(ps[2..], Quote);
    assert Join(ps[2..], Quote) == ps[2] + [Quote] + Join(ps[3..], Quote);
    assert Join(ps[3..], Quote) == ps[3] + tail by {
      if |ps| > 4 {
        assert ps[3..][1..] == ps[4..];
      } else {
        assert ps[3..] == [ps[3]];
      }
    }
    Reassociate(message, ps[0], ps[1], ps[2], ps[3], tail,
                Join(ps[1..], Quote), Join(ps[2..], Quote), Join(ps[3..], Quote));
  }

  /** Unfolding three separators of a join. */
  lemma Reassociate(m: string, p0: string, p1: string, p2: string, p3: string, t: string,
                    j1: string, j2: string, j3: string)
    requires m == p0 + [Quote] + j1 && j1 == p1 + [Quote] + j2
    requires j2 == p2 + [Quote] + j3 && j3 == p3 + t
    ensures m == p0 + [Quote] + p1 + [Quote] + p2 + [Quote] + p3 + t
  {
  }

  /** Fewer than three quotes: the request is rejected before any read. */
  lemma FewQuotesRejected(message: string)
    requires Count(message, Quote) < 3
    ensures Parse(message).None?
  {
    SplitLength(message, Quote);
  }

  /** `message` is `a'project'b'path` followed by `rest`, with no quote
      inside the four named pieces. */
  predicate QuotedLayout(message: string, a: string, project: string, b: string, path: string, rest: string) {
    && Quote !in a && Quote !in project && Quote !in b && Quote !in path
    && message == a + [Quote] + project + [Quote] + b + [Quote] + path + rest
  }

  /** The layout read off the split: the parsed project is the text
      between the first two quotes and the path the text after the third
      quote, up to the fourth or to the end. */
  lemma SplitLayout(message: string)
    requires |Split(message, Quote)| >= 4
    ensures var ps := Split(message, Quote);
      var rest := if |ps| == 4 then "" else [Quote] + Join(ps[4..], Quote);
      QuotedLayout(message, ps[0], ps[1], ps[2], ps[3], rest)
  {
    QuoteLayout(message);
  }

  /** Four or more quotes always parse: the third and fourth quote enclose
      the path, so the quoted path occurs. */
  lemma FourQuotesParse(message: string)
    requires Count(message, Quote) >= 4
    ensures Parse(message).Some?
    ensures exists a, b, rest :: (QuotedLayout(message, a, Parse(message).value.project, b, Parse(message).value.path, rest)
      && |rest| > 0 && rest[0] == Quote)
  {
    SplitLength(message, Quote);
    QuotedPathOccurs(message);
    ParsesWhenQuotedPathOccurs(message);
    var ps := Split(message, Quote);
    var r := Parse(message).value;
    var rest := LayoutRest(message);
    assert QuotedLayout(message, ps[0], r.project, ps[2], r.path, rest);
  }

  /** What follows the path in a request with at least five parts. */
  function LayoutRest(message: string): (rest: string)
    requires |Split(message, Quote)| >= 5
    ensures |rest| > 0 && rest[0] == Quote
    ensures var ps := Split(message, Quote);
      QuotedLayout(message, ps[0], ps[1], ps[2], ps[3], rest)
  {
    SplitLayout(message);
    [Quote] + Join(Split(message, Quote)[4..], Quote)
  }

  lemma QuotedPathOccurs(message: string)
    requires |Split(message, Quote)| >= 5
    ensures Contains(message, [Quote] + Split(message, Quote)[3] + [Quote])
  {
    var ps := Split(message, Quote);
    SplitLayout(message);
    var tail := Join(ps[4..], Quote);
    var front := ps[0] + [Quote] + ps[1] + [Quote] + ps[2];
    var sep := [Quote] + ps[3] + [Quote];
    assert message == front + sep + tail;
    OccursInMiddle(front, sep, tail);
    ContainsIff(message, sep);
  }

  lemma ParsesWhenQuotedPathOccurs(message: string)
    requires |Split(message, Quote)| >= 4
    requires Contains(message, [Quote] + Split(message, Quote)[3] + [Quote])
    ensures Parse(message).Some?
    ensures Parse(message).value.project == Split(message, Quote)[1]
    ensures Parse(message).value.path == Split(message, Quote)[3]
  {
  }

  lemma OccursInMiddle(front: string, k: string, back: string)
    ensures OccursAt(front + k + back, k, |front|)
  {
    assert (front + k + back)[|front|..|front| + |k|] == k;
  }

  /** Any request that parses was laid out as `a'project'b'path` followed
      by nothing or by a quote. */
  lemma ParsedPieces(message: string)
    requires Parse(message).Some?
    ensures exists a, b, rest :: (QuotedLayout(message, a, Parse(message).value.project, b, Parse(message).value.path, rest)
      && (rest == "" || rest[0] == Quote))
  {
    var ps := Split(message, Quote);
    var r := Parse(message).value;
    assert r.project == ps[1] && r.path == ps[3];
    var rest := if |ps| == 4 then "" else [Quote] + Join(ps[4..], Quote);
    assert QuotedLayout(message, ps[0], r.project, ps[2], r.path, rest) by {
      SplitLayout(message);
    }
  }

  /** What reading a project file gives. */
  datatype ReadResult = Content(text: string) | NotFound | ReadFailed(error: string)

  /** A file written back: project, path and content. */
  datatype Write = Write(project: string, path: string, content: string)

  /** How an edit ends: the reply, whether a read was attempted, and the
      write attempted, if any; or the exception of the model call, which
      `process_message` does not catch, after a successful read. */
  datatype Edited =
    | Edited(reply: string, readAttempted: bool, written: Option<Write>)
    | ModelRaised(error: string)

  const FormatReply := "Formato da solicitação inválido. Por favor, use: \"No projeto '[nome_do_projeto]', modifique '[caminho_do_arquivo]' para [sua_modificação]\"."

  function NotFoundReply(r: Request): string {
    "Erro: O arquivo '" + r.path + "' não foi encontrado no projeto '" + r.project + "'."
  }

  function SuccessReply(r: Request): string {
    "O arquivo '" + r.path + "' no projeto '" + r.project + "' foi modificado com sucesso."
  }

  /** The whole request: `read` stands for `read_project_file`, `llm` for the
      model's rewrite of the original content (or the exception it raises),
      and `write` for `create_project_file`, giving the error text when it
      raises. */
  function Edit(message: string,
                read: (string, string) -> ReadResult,
                llm: (Request, string) -> Result<string>,
                write: Write -> Option<string>): (e: Edited)
    ensures Parse(message).None? <==> e == Edited(FormatReply, false, None)
    ensures e.Edited? && e.written.Some? ==>
      && Parse(message).Some?
      && var r := Parse(message).value;
      && read(r.project, r.path).Content?
      && llm(r, read(r.project, r.path).text).Ok?
      && e.written == Some(Write(r.project, r.path, llm(r, read(r.project, r.path).text).value))
    ensures Parse(message).Some? ==>
      var r := Parse(message).value;
      && (e.Edited? ==> e.readAttempted)
      && (read(r.project, r.path) == NotFound ==> e == Edited(NotFoundReply(r), true, None))
      && (read(r.project, r.path).ReadFailed? ==>
            e == Edited("Erro ao ler o arquivo: " + read(r.project, r.path).error, true, None))
      && (read(r.project, r.path).Content? ==>
            var answer := llm(r, read(r.project, r.path).text);
            && (answer.Raised? ==> e == ModelRaised(answer.error))
            && (answer.Ok? ==>
                  && e.Edited? && e.written.Some?
                  && (e.reply == SuccessReply(r) <==> write(e.written.value).None?)))
  {
    match Parse(message)
    case None => Edited(FormatReply, false, None)
    case Some(r) =>
      match read(r.project, r.path)
      case NotFound => Edited(NotFoundReply(r), true, None)
      case ReadFailed(err) => Edited("Erro ao ler o arquivo: " + err, true, None)
      case Content(original) =>
        match llm(r, original)
        case Raised(err) => ModelRaised(err)
        case Ok(modified) =>
          var w := Write(r.project, r.path, modified);
          match write(w)
          case None => Edited(SuccessReply(r), true, Some(w))
          case Some(err) =>
            WriteErrorIsNotSuccess(r, err);
            Edited("Erro ao salvar o arquivo modificado: " + err, true, Some(w))
  }

  /** The write-error reply can never read as the success reply: they
      differ in their first character. */
  lemma WriteErrorIsNotSuccess(r: Request, err: string)
    ensures "Erro ao salvar o arquivo modificado: " + err != SuccessReply(r)
  {
    assert ("Erro ao salvar o arquivo modificado: " + err)[0] == 'E';
    assert SuccessReply(r)[0] == 'O';
  }

  /** With fewer than three quotes nothing is read or written. */
  lemma MalformedTouchesNothing(message: string,
                                read: (string, string) -> ReadResult,
                                llm: (Request, string) -> Result<string>,
                                write: Write -> Option<string>)
    requires Count(message, Quote) < 3
    ensures Edit(message, read, llm, write) == Edited(FormatReply, false, None)
  {
    FewQuotesRejected(message);
  }
}

=== FILE: metrics.dfy ===
/** The router's per-model performance record (`model_metrics`): an
    exponential moving average of the success rate, the running mean of the
    response time and a request count, kept in dictionary insertion order. */
module Metrics {
  import opened Common
  import opened Catalog
  import opened Dict

  datatype Stats = Stats(successRate: real, avgTime: real, total: nat)

  /** The entry given to a model seen for the first time. */
  const Seed: Stats := Stats(1.0, 0.0, 0)

  /** The metrics dictionary. */
  type Table = Items<Stats>

  /** The table built at construction: every configured model with the seed
      entry, in catalogue order. */
  function SeedTable(names: seq<string>): (t: Table)
    ensures Keys(t) == names
    ensures forall i :: 0 <= i < |t| ==> t[i].1 == Seed
  {
    if names == [] then [] else [(names[0], Seed)] + SeedTable(names[1..])
  }

  const Initial: Table := SeedTable(ModelNames)

  /** One update of an entry: the success rate moves a tenth of the way
      towards 1 or 0, the mean time absorbs one more sample. */
  function Step(s: Stats, success: bool, time: real): (r: Stats)
    ensures r.total == s.total + 1
    ensures 0.0 <= s.successRate <= 1.0 ==> 0.0 <= r.successRate <= 1.0
    ensures 0.0 <= s.successRate <= 1.0 && success ==> r.successRate >= s.successRate
    ensures 0.0 <= s.successRate <= 1.0 && !success ==> r.successRate <= s.successRate
    ensures r.avgTime * (r.total as real) == s.avgTime * (s.total as real) + time
  {
    var outcome := if success then 1.0 else 0.0;
    var n := s.total as real;
    Stats(0.9 * s.successRate + 0.1 * outcome, (s.avgTime * n + time) / (n + 1.0), s.total + 1)
  }

  /** `update_model_metrics(model, success, response_time)` */
  function Record(t: Table, model: string, success: bool, time: real): (r: Table)
    ensures Find(r, model).Some?
    ensures Find(r, model).value.total == (if model in Keys(t) then Find(t, model).value.total else 0) + 1
    ensures model !in Keys(t) ==> Find(r, model) == Some(Step(Seed, success, time))
    ensures model in Keys(t) ==> Find(r, model) == Some(Step(Find(t, model).value, success, time))
    ensures forall other :: other != model ==> Find(r, other) == Find(t, other)
    ensures Keys(r) == if model in Keys(t) then Keys(t) else Keys(t) + [model]
  {
    var current := match Find(t, model) case Some(s) => s case None => Seed;
    Put(t, model, Step(current, success, time))
  }

  /** `total_routes`: the sum of all request counts. */
  function TotalRoutes(t: Table): nat {
    if t == [] then 0 else t[0].1.total + TotalRoutes(t[1..])
  }

  /** Recording a dispatch adds exactly one route to the total, whether the
      model was known or not. */
  lemma {:induction false} RecordAddsOneRoute(t: Table, model: string, success: bool, time: real)
    requires WellFormed(t)
    ensures TotalRoutes(Record(t, model, success, time)) == TotalRoutes(t) + 1
  {
    var current := match Find(t, model) case Some(s) => s case None => Seed;
    PutTotal(t, model, Step(current, success, time));
  }

  lemma {:induction false} PutTotal(t: Table, model: string, s: Stats)
    requires WellFormed(t)
    ensures TotalRoutes(Put(t, model, s)) ==
      TotalRoutes(t) + s.total - (match Find(t, model) case Some(prev) => prev.total case None => 0)
  {
    if t == [] {
    } else if t[0].0 == model {
      assert Keys(t) == [model] + Keys(t[1..]);
      assert model !in Keys(t[1..]);
      NotInTotalZero(t[1..], model);
    } else {
      assert Keys(t[1..]) == Keys(t)[1..];
      PutTotal(t[1..], model, s);
    }
  }

  /** Helper: `Find` of an absent key is `None`. */
  lemma NotInTotalZero(t: Table, model: string)
    requires model !in Keys(t)
    ensures Find(t, model) == None
  {
  }

  /** Recording preserves key uniqueness. */
  lemma RecordKeepsKeysDistinct(t: Table, model: string, success: bool, time: real)
    requires WellFormed(t)
    ensures WellFormed(Record(t, model, success, time))
  {
    var current := match Find(t, model) case Some(s) => s case None => Seed;
    PutKeepsWellFormed(t, model, Step(current, success, time));
  }

  /** One `update_model_metrics` call: model, success, seconds. */
  datatype Dispatch = Dispatch(model: string, success: bool, time: real)

  /** The table after a sequence of dispatches, oldest first. */
  function Replay(t: Table, ds: seq<Dispatch>): Table
    decreases |ds|
  {
    if ds == [] then t
    else Replay(Record(t, ds[0].model, ds[0].success, ds[0].time), ds[1..])
  }

  /** Every configured model starts with no requests. */
  lemma InitialHasNoRoutes(names: seq<string>)
    ensures TotalRoutes(SeedTable(names)) == 0
  {
  }

  /** Each recorded dispatch adds one, so the reported total counts the
      recorded dispatches. */
  lemma {:induction false} TotalRoutesCountsDispatches(t: Table, ds: seq<Dispatch>)
    requires WellFormed(t)
    ensures TotalRoutes(Replay(t, ds)) == TotalRoutes(t) + |ds|
    decreases |ds|
  {
    if ds != [] {
      RecordAddsOneRoute(t, ds[0].model, ds[0].success, ds[0].time);
      RecordKeepsKeysDistinct(t, ds[0].model, ds[0].success, ds[0].time);
      TotalRoutesCountsDispatches(Record(t, ds[0].model, ds[0].success, ds[0].time), ds[1..]);
    }
  }

  /** The initial table is well formed: the catalogue has no duplicate names. */
  lemma InitialWellFormed()
    ensures WellFormed(Initial)
  {
    assert Keys(Initial) == ModelNames;
    assert ModelNames == ["phi3:3.8b", "qwen2.5:7b", "llama3.1:8b-instruct", "codegemma:7b"];
  }

  /** From start-up the total routes equals the number of recorded
      dispatches. */
  lemma TotalRoutesFromStart(ds: seq<Dispatch>)
    ensures TotalRoutes(Replay(Initial, ds)) == |ds|
  {
    InitialWellFormed();
    InitialHasNoRoutes(ModelNames);
    TotalRoutesCountsDispatches(Initial, ds);
  }

  // ----- one model's entry over many updates -----

  function Pow(x: real, k: nat): real {
    if k == 0 then 1.0 else x * Pow(x, k - 1)
  }

  function Sum(xs: seq<real>): real {
    if xs == [] then 0.0 else Sum(xs[..|xs| - 1]) + xs[|xs| - 1]
  }

  /** An entry after the given outcomes, oldest first. */
  function Steps(s: Stats, outcomes: seq<(bool, real)>): Stats
    decreases |outcomes|
  {
    if outcomes == [] then s
    else Step(Steps(s, outcomes[..|outcomes| - 1]), outcomes[|outcomes| - 1].0, outcomes[|outcomes| - 1].1)
  }

  function Times(outcomes: seq<(bool, real)>): (ts: seq<real>)
    ensures |ts| == |outcomes|
    ensures forall i :: 0 <= i < |outcomes| ==> ts[i] == outcomes[i].1
  {
    seq(|outcomes|, i requires 0 <= i < |outcomes| => outcomes[i].1)
  }

  /** The stored mean time is the arithmetic mean of every sample so far. */
  lemma {:induction false} MeanTimeIsMean(outcomes: seq<(bool, real)>)
    ensures Steps(Seed, outcomes).total == |outcomes|
    ensures Steps(Seed, outcomes).avgTime * (|outcomes| as real) == Sum(Times(outcomes))
    decreases |outcomes|
  {
    if outcomes != [] {
      var init := outcomes[..|outcomes| - 1];
      MeanTimeIsMean(init);
      assert Times(outcomes)[..|outcomes| - 1] == Times(init);
    }
  }

  /** After k consecutive failures the rate is 0.9^k times what it was. */
  lemma {:induction false} FailuresDecayRate(s: Stats, outcomes: seq<(bool, real)>)
    requires forall i :: 0 <= i < |outcomes| ==> !outcomes[i].0
    ensures Steps(s, outcomes).successRate == Pow(0.9, |outcomes|) * s.successRate
    decreases |outcomes|
  {
    if outcomes != [] {
      FailuresDecayRate(s, outcomes[..|outcomes| - 1]);
    }
  }

  /** After k consecutive successes the distance to 1 shrinks by 0.9^k. */
  lemma {:induction false} SuccessesRestoreRate(s: Stats, outcomes: seq<(bool, real)>)
    requires forall i :: 0 <= i < |outcomes| ==> outcomes[i].0
    ensures 1.0 - Steps(s, outcomes).successRate == Pow(0.9, |outcomes|) * (1.0 - s.successRate)
    decreases |outcomes|
  {
    if outcomes != [] {
      SuccessesRestoreRate(s, outcomes[..|outcomes| - 1]);
    }
  }

  /** The rate of a fresh model stays within [0, 1] whatever happens. */
  lemma {:induction false} RateStaysInUnitInterval(s: Stats, outcomes: seq<(bool, real)>)
    requires 0.0 <= s.successRate <= 1.0
    ensures 0.0 <= Steps(s, outcomes).successRate <= 1.0
    decreases |outcomes|
  {
    if outcomes != [] {
      RateStaysInUnitInterval(s, outcomes[..|outcomes| - 1]);
    }
  }

  /** A fresh model that fails once drops from 1.0 to 0.9. */
  lemma FirstFailure(time: real)
    ensures Step(Seed, false, time) == Stats(0.9, time, 1)
  {
  }
}

=== FILE: plans.dfy ===
/** The JSON plans the builder and the orchestrator ask the model for: the
    `{…}` block cut out of the reply, the code-fence stripping of generated
    files, the builder's plan handling and the orchestrator's plan check.
    `json.loads` is a parameter; parsed values are the `Json` datatype. */
module Plans {
  import opened Common
  import opened Text
  import opened Dict

  /** A parsed JSON value; an object's members are the dictionary's items
      in document order. */
  datatype Json =
    | JNull
    | JBool(b: bool)
    | JNum(n: real)
    | JStr(s: string)
    | JArr(elems: seq<Json>)
    | JObj(members: Items<Json>)

  predicate JsonTruthy(j: Json) {
    match j
    case JNull => false
    case JBool(b) => b
    case JNum(n) => n != 0.0
    case JStr(s) => s != ""
    case JArr(xs) => xs != []
    case JObj(ms) => ms != []
  }

  /** What `json.loads` does with a document. */
  datatype Parsed = Parsed(value: Json) | DecodeError(msg: string)

  /** `json.loads("")` fails: an empty document holds no value. */
  predicate RejectsEmpty(loads: string -> Parsed) {
    loads("").DecodeError?
  }

  // ----- the block slice -----

  /** A Python slice bound: negative counts from the end, and both ends are
      clamped to the string. */
  function Clamp(i: int, n: nat): (k: nat)
    ensures k <= n
    ensures 0 <= i <= n ==> k == i
    ensures i > n ==> k == n
    ensures i < 0 && 0 <= i + n ==> k == i + n
    ensures i + n < 0 ==> k == 0
  {
    if i < 0 then (if i + n < 0 then 0 else i + n)
    else if i > n then n
    else i
  }

  /** `s[i:j]` */
  function PySlice(s: string, i: int, j: int): string {
    var a, b := Clamp(i, |s|), Clamp(j, |s|);
    if a < b then s[a..b] else ""
  }

  /** `s.find(k)` with -1 for "absent". */
  function FindIndex(s: string, k: string): int {
    match IndexOf(s, k)
    case Some(i) => i
    case None => -1
  }

  /** `response[response.find('{'):response.rfind('}')+1]` */
  function ExtractBlock(response: string): string {
    PySlice(response, FindIndex(response, "{"), RFind(response, '}', 0, |response|) + 1)
  }

  /** The four shapes of the slice of `s` cut by a `find` result `open`
      and an `rfind` result `close` of '}': empty without a '}'; from the
      first '{' through the last '}' when the '{' comes first; empty when it
      comes after; and without any '{' the start is the last character, so
      only a reply ending in '}' yields anything, namely "}". */
  predicate BlockShape(s: string, open: int, close: int, block: string) {
    && (close == -1 ==> block == "")
    && (0 <= open < close < |s| ==> block == s[open..close + 1])
    && (0 <= open && close != -1 && close < open ==> block == "")
    && (open == -1 && close != -1 ==> block == if close == |s| - 1 then "}" else "")
  }

  lemma ExtractBlockCases(response: string)
    ensures BlockShape(response, FindIndex(response, "{"), RFind(response, '}', 0, |response|), ExtractBlock(response))
  {
    var close := RFind(response, '}', 0, |response|);
    var open := FindIndex(response, "{");
    FindIndexRange(response, "{");
    SliceCases(response, open, close);
    assert ExtractBlock(response) == PySlice(response, open, close + 1);
  }

  lemma SliceCases(s: string, open: int, close: int)
    requires -1 <= open < |s| && -1 <= close < |s|
    requires close != -1 ==> s[close] == '}'
    ensures BlockShape(s, open, close, PySlice(s, open, close + 1))
  {
    SliceBounds(s, open, close + 1);
    if open == -1 && close != -1 && close == |s| - 1 {
      assert s[|s| - 1..|s|] == [s[close]];
    }
  }

  /** The slice bounds in terms of `find` and `rfind` results. */
  lemma SliceBounds(s: string, open: int, stop: int)
    requires -1 <= open < |s| && 0 <= stop <= |s|
    ensures open >= 0 ==> PySlice(s, open, stop) == if open < stop then s[open..stop] else ""
    ensures open == -1 && |s| > 0 ==> PySlice(s, open, stop) == if |s| - 1 < stop then s[|s| - 1..stop] else ""
    ensures |s| == 0 ==> PySlice(s, open, stop) == ""
  {
  }

  /** `find` returns -1 or a position inside the string. */
  lemma FindIndexRange(s: string, k: string)
    requires k != ""
    ensures -1 <= FindIndex(s, k) < |s|
  {
    if IndexOf(s, k).Some? {
      assert OccursAt(s, k, IndexOf(s, k).value);
    }
  }

  /** A successful cut starts at a '{' and ends at the reply's last '}'. */
  lemma BlockIsBraced(response: string)
    requires FindIndex(response, "{") != -1
    requires ExtractBlock(response) != ""
    ensures var b := ExtractBlock(response);
      b[0] == '{' && b[|b| - 1] == '}'
      && forall k :: FindIndex(response, "{") + |b| <= k < |response| ==> response[k] != '}'
  {
    ExtractBlockCases(response);
    var open := FindIndex(response, "{");
    assert OccursAt(response, "{", open);
    assert response[open..open + 1][0] == response[open];
  }

  // ----- code fences -----

  predicate IsSuffix(k: string, s: string) {
    |k| <= |s| && s[|s| - |k|..] == k
  }

  /** Generated content that both starts and ends with three backticks
      loses its first and last lines. */
  function StripFences(content: string): (r: string)
    ensures !(IsPrefix("```", content) && IsSuffix("```", content)) ==> r == content
  {
    if IsPrefix("```", content) && IsSuffix("```", content) then
      var lines := Split(content, '\n');
      Join(if |lines| >= 2 then lines[1..|lines| - 1] else [], '\n')
    else content
  }

  /** A fenced reply "```lang\n<body>\n```" becomes its body exactly. */
  lemma FencedBodyRecovered(lang: string, body: string)
    requires '\n' !in lang
    ensures StripFences("```" + lang + "\n" + body + "\n```") == body
  {
    var head := "```" + lang;
    var content := "```" + lang + "\n" + body + "\n```";
    assert '\n' !in head;
    assert content == head + ['\n'] + (body + ['\n'] + "```");
    SplitHead(head, '\n', body + ['\n'] + "```");
    SplitThenTail(body, '\n', "```");
    var lines := Split(content, '\n');
    assert lines == [head] + Split(body, '\n') + ["```"];
    assert lines[1..|lines| - 1] == Split(body, '\n');
    assert content[..3] == "```";
    assert content[|content| - 3..] == "```";
    JoinSplit(body, '\n');
  }

  // ----- builder_web -----

  const Apology := "Desculpe, não consegui criar um plano de projeto válido. A resposta do modelo não era um JSON formatado corretamente."
  const NoFilesReply := "Não consegui determinar quais arquivos criar para este projeto. Tente ser mais específico."
  const DefaultProjectName := "novo-projeto-gerado"

  /** One file written to the project: its path and its content. */
  datatype FileWrite = FileWrite(path: string, content: string)

  /** How the builder's `process_message` ends: a reply, or an exception
      that escapes it; either way with the writes that succeeded. */
  datatype BuildOutcome =
    | Replied(reply: string, writes: seq<FileWrite>)
    | Crashed(error: string, writes: seq<FileWrite>)

  /** The exception `create_project_file` re-raises when a write fails. */
  const WriteError := "OSError"

  /** `w` is the write planned for a file: the model answered for it, and
      `w` holds that answer unfenced under the file's path. */
  predicate PlannedWrite(entry: (string, Json), gen: (string, Json) -> Result<string>, w: FileWrite) {
    gen(entry.0, entry.1).Ok? && w == FileWrite(entry.0, StripFences(gen(entry.0, entry.1).value))
  }

  /** `writes` are the planned writes of the first `|writes|` files, in order. */
  predicate PlannedPrefix(writes: seq<FileWrite>, files: Items<Json>, gen: (string, Json) -> Result<string>) {
    && |writes| <= |files|
    && forall i :: 0 <= i < |writes| ==> PlannedWrite(files[i], gen, writes[i])
  }

  /** `_generate_and_write_files`: one generation and one write per planned
      file, in plan order. The first model call that raises, or the first
      write that fails, ends the loop with its exception. The result holds
      the successful writes and that exception, if any. */
  function WriteAll(name: string, files: Items<Json>, gen: (string, Json) -> Result<string>,
                    write: (string, FileWrite) -> bool): (r: (seq<FileWrite>, Option<string>))
    ensures PlannedPrefix(r.0, files, gen)
    ensures forall i :: 0 <= i < |r.0| ==> write(name, r.0[i])
    ensures r.1.None? <==> |r.0| == |files|
    ensures r.1.Some? ==>
      var next := files[|r.0|];
      var answer := gen(next.0, next.1);
      || (answer.Raised? && r.1.value == answer.error)
      || (answer.Ok? && !write(name, FileWrite(next.0, StripFences(answer.value))) && r.1.value == WriteError)
    decreases |files|
  {
    if files == [] then ([], None)
    else
      match gen(files[0].0, files[0].1)
      case Raised(err) => ([], Some(err))
      case Ok(content) =>
        var w := FileWrite(files[0].0, StripFences(content));
        if !write(name, w) then ([], Some(WriteError))
        else
          var rest := WriteAll(name, files[1..], gen, write);
          assert forall i :: 1 <= i < |rest.0| + 1 ==> files[i] == files[1..][i - 1];
          ([w] + rest.0, rest.1)
  }

  /** The exceptions the builder's `except` clause catches around the
      planning call and the decoding of its plan. A reply the model sends
      that is not JSON makes `response.json()` raise the HTTP library's
      `JSONDecodeError`, which is one of them. */
  const PlanningCaught: set<string> := {"JSONDecodeError", "TypeError"}

  /** `BuilderAgent.process_message` after the planning call: `reply` is
      the model's plan reply or the exception of that call, `gen` the
      model's content for a file (or its exception), `write` whether
      `create_project_file` succeeds, and `abspath` the absolute form of a
      project's directory. */
  function BuildProject(reply: Result<string>, loads: string -> Parsed,
                        gen: (string, Json) -> Result<string>,
                        write: (string, FileWrite) -> bool,
                        abspath: string -> string): (r: BuildOutcome)
    ensures reply.Raised? && reply.error in PlanningCaught ==> r == Replied(Apology, [])
    ensures reply.Raised? && reply.error !in PlanningCaught ==> r == Crashed(reply.error, [])
    ensures reply.Ok? && loads(ExtractBlock(reply.value)).DecodeError? ==> r == Replied(Apology, [])
    ensures r.Replied? && r.reply != Apology && r.reply != NoFilesReply ==>
      exists name, files :: PlanOf(loads(ExtractBlock(reply.value))) == Some((name, files))
        && PlannedPrefix(r.writes, files, gen) && |r.writes| == |files|
        && r.reply == "BUILD_SUCCESS|" + name + "|" + abspath(name)
    ensures r.Crashed? && r.writes != [] ==>
      exists name, files :: PlanOf(loads(ExtractBlock(reply.value))) == Some((name, files))
        && PlannedPrefix(r.writes, files, gen) && |r.writes| < |files|
  {
    match reply
    case Raised(err) => if err in PlanningCaught then Replied(Apology, []) else Crashed(err, [])
    case Ok(response) =>
      var parsed := loads(ExtractBlock(response));
      ExecuteSuccess(parsed, gen, write, abspath);
      ExecuteCrash(parsed, gen, write, abspath);
      Execute(parsed, gen, write, abspath)
  }

  /** What the builder does with the decoded plan. */
  function Execute(parsed: Parsed, gen: (string, Json) -> Result<string>,
                   write: (string, FileWrite) -> bool,
                   abspath: string -> string): BuildOutcome
  {
    match parsed
    case DecodeError(_) => Replied(Apology, [])
    case Parsed(plan) =>
      if !plan.JObj? then Crashed("AttributeError", [])
      else
        var name := OrDefault(Find(plan.members, "project_name"), JStr(DefaultProjectName));
        var files := OrDefault(Find(plan.members, "files"), JObj([]));
        if !JsonTruthy(files) then Replied(NoFilesReply, [])
        else if files.JNum? || files.JBool? then Crashed("TypeError", [])
        else if !files.JObj? then Crashed("AttributeError", [])
        else if !name.JStr? then
          match gen(files.members[0].0, files.members[0].1)
          case Raised(err) => Crashed(err, [])
          case Ok(_) => Crashed("TypeError", [])
        else
          var (writes, stop) := WriteAll(name.s, files.members, gen, write);
          if stop.Some? then Crashed(stop.value, writes)
          else Replied("BUILD_SUCCESS|" + name.s + "|" + abspath(name.s), writes)
  }

  /** A success reply comes from a plan with a name and files, all of them
      written in order. */
  lemma ExecuteSuccess(parsed: Parsed, gen: (string, Json) -> Result<string>,
                       write: (string, FileWrite) -> bool, abspath: string -> string)
    ensures var r := Execute(parsed, gen, write, abspath);
      r.Replied? && r.reply != Apology && r.reply != NoFilesReply ==>
      exists name, files :: PlanOf(parsed) == Some((name, files))
        && PlannedPrefix(r.writes, files, gen) && |r.writes| == |files|
        && r.reply == "BUILD_SUCCESS|" + name + "|" + abspath(name)
  {
    var r := Execute(parsed, gen, write, abspath);
    if r.Replied? && r.reply != Apology && r.reply != NoFilesReply {
      var plan := parsed.value;
      var name := OrDefault(Find(plan.members, "project_name"), JStr(DefaultProjectName));
      var files := OrDefault(Find(plan.members, "files"), JObj([]));
      assert PlanOf(parsed) == Some((name.s, files.members));
    }
  }

  /** A crash after some writes happened part-way through a plan: the
      writes made are the planned writes of a proper prefix of its files. */
  lemma ExecuteCrash(parsed: Parsed, gen: (string, Json) -> Result<string>,
                     write: (string, FileWrite) -> bool, abspath: string -> string)
    ensures var r := Execute(parsed, gen, write, abspath);
      r.Crashed? && r.writes != [] ==>
      exists name, files :: PlanOf(parsed) == Some((name, files))
        && PlannedPrefix(r.writes, files, gen) && |r.writes| < |files|
  {
    var r := Execute(parsed, gen, write, abspath);
    if r.Crashed? && r.writes != [] {
      var plan := parsed.value;
      var name := OrDefault(Find(plan.members, "project_name"), JStr(DefaultProjectName));
      var files := OrDefault(Find(plan.members, "files"), JObj([]));
      assert PlanOf(parsed) == Some((name.s, files.members));
    }
  }

  /** A truthy "files" that is not an object fails before any model call:
      a number or `true` at `len(files)` with `TypeError`, a string or list
      at `files.items()` with `AttributeError`. */
  lemma NonObjectFilesCrash(plan: Json, gen: (string, Json) -> Result<string>,
                            write: (string, FileWrite) -> bool, abspath: string -> string)
    requires plan.JObj? && Find(plan.members, "files").Some?
    requires var files := Find(plan.members, "files").value;
      JsonTruthy(files) && !files.JObj?
    ensures var files := Find(plan.members, "files").value;
      Execute(Parsed(plan), gen, write, abspath)
        == Crashed(if files.JNum? || files.JBool? then "TypeError" else "AttributeError", [])
  {
    assert OrDefault(Find(plan.members, "files"), JObj([])) == Find(plan.members, "files").value;
  }

  function OrDefault(v: Option<Json>, default: Json): Json {
    if v.Some? then v.value else default
  }

  /** The project name and the files of a plan the builder carries out. */
  function PlanOf(p: Parsed): Option<(string, Items<Json>)> {
    if p.Parsed? && p.value.JObj? then
      var name := OrDefault(Find(p.value.members, "project_name"), JStr(DefaultProjectName));
      var files := OrDefault(Find(p.value.members, "files"), JObj([]));
      if name.JStr? && files.JObj? && files.members != [] then Some((name.s, files.members)) else None
    else None
  }

  /** A plan without "files", or with an empty or otherwise falsy one, gets
      the "Não consegui…" reply and writes nothing. */
  lemma NoFilesWritesNothing(response: string, loads: string -> Parsed,
                             gen: (string, Json) -> Result<string>, write: (string, FileWrite) -> bool,
                             abspath: string -> string)
    requires loads(ExtractBlock(response)).Parsed?
    requires var plan := loads(ExtractBlock(response)).value;
      plan.JObj? && (Find(plan.members, "files").None? || !JsonTruthy(Find(plan.members, "files").value))
    ensures BuildProject(Ok(response), loads, gen, write, abspath) == Replied(NoFilesReply, [])
  {
  }

  /** Without "project_name" the project is "novo-projeto-gerado"; when
      every model call answers and every write succeeds, each planned file
      is written once, in order. */
  lemma DefaultNameBuild(response: string, loads: string -> Parsed,
                         gen: (string, Json) -> Result<string>, write: (string, FileWrite) -> bool,
                         abspath: string -> string)
    requires loads(ExtractBlock(response)).Parsed?
    requires var plan := loads(ExtractBlock(response)).value;
      && plan.JObj? && Find(plan.members, "project_name").None?
      && Find(plan.members, "files").Some? && Find(plan.members, "files").value.JObj?
      && Find(plan.members, "files").value.members != []
    requires forall path, spec :: gen(path, spec).Ok?
    requires forall w :: write(DefaultProjectName, w)
    ensures var files := Find(loads(ExtractBlock(response)).value.members, "files").value.members;
      var r := BuildProject(Ok(response), loads, gen, write, abspath);
      && r.Replied?
      && r.reply == "BUILD_SUCCESS|" + DefaultProjectName + "|" + abspath(DefaultProjectName)
      && PlannedPrefix(r.writes, files, gen) && |r.writes| == |files|
  {
    ExecuteDefaultName(loads(ExtractBlock(response)).value, gen, write, abspath);
  }

  lemma ExecuteDefaultName(plan: Json, gen: (string, Json) -> Result<string>,
                           write: (string, FileWrite) -> bool, abspath: string -> string)
    requires && plan.JObj? && Find(plan.members, "project_name").None?
      && Find(plan.members, "files").Some? && Find(plan.members, "files").value.JObj?
      && Find(plan.members, "files").value.members != []
    requires forall path, spec :: gen(path, spec).Ok?
    requires forall w :: write(DefaultProjectName, w)
    ensures var files := Find(plan.members, "files").value.members;
      var r := Execute(Parsed(plan), gen, write, abspath);
      && r.Replied?
      && r.reply == "BUILD_SUCCESS|" + DefaultProjectName + "|" + abspath(DefaultProjectName)
      && PlannedPrefix(r.writes, files, gen) && |r.writes| == |files|
  {
    var filesValue := Find(plan.members, "files").value;
    assert OrDefault(Find(plan.members, "project_name"), JStr(DefaultProjectName)) == JStr(DefaultProjectName);
    assert OrDefault(Find(plan.members, "files"), JObj([])) == filesValue;
    WriteAllSucceeds(DefaultProjectName, filesValue.members, gen, write);
  }

  /** When every model call answers and every write succeeds, each planned
      file is written once, in order, and nothing stops the loop. */
  lemma WriteAllSucceeds(name: string, files: Items<Json>, gen: (string, Json) -> Result<string>,
                         write: (string, FileWrite) -> bool)
    requires forall path, spec :: gen(path, spec).Ok?
    requires forall w :: write(name, w)
    ensures var r := WriteAll(name, files, gen, write);
      r.1.None? && PlannedPrefix(r.0, files, gen) && |r.0| == |files|
  {
  }

  /** A model call that raises on a file after all earlier files were
      written stops the loop there with its exception; the earlier writes
      stay. */
  lemma ModelFailureStopsLoop(name: string, files: Items<Json>, gen: (string, Json) -> Result<string>,
                              write: (string, FileWrite) -> bool, k: nat)
    requires k < |files| && gen(files[k].0, files[k].1).Raised?
    requires forall i :: 0 <= i < k ==> gen(files[i].0, files[i].1).Ok?
    requires forall w :: write(name, w)
    ensures var r := WriteAll(name, files, gen, write);
      |r.0| == k && r.1 == Some(gen(files[k].0, files[k].1).error)
  {
  }

  /** A reply without '}' cuts out the empty document, so the builder
      apologises and writes nothing. */
  lemma NoBraceApologises(response: string, loads: string -> Parsed,
                          gen: (string, Json) -> Result<string>, write: (string, FileWrite) -> bool,
                          abspath: string -> string)
    requires RejectsEmpty(loads)
    requires '}' !in response
    ensures BuildProject(Ok(response), loads, gen, write, abspath) == Replied(Apology, [])
  {
    ExtractBlockCases(response);
    assert RFind(response, '}', 0, |response|) == -1;
  }

  // ----- orchestrator -----

  const NoPlanList := "O JSON não contém a chave 'plan' ou não é uma lista."
  const NoValidPlan := "Não foi possível criar um plano de ação válido."

  /** How `OrchestratorAgent.process_message` ends. */
  datatype PlanOutcome =
    | Accepted(plan: Json)
    | Rejected(details: string)
    | PlanCrashed(error: string)

  /** The object a rejected plan is answered with. */
  function ErrorObject(details: string): (j: Json)
    ensures j.JObj? && Keys(j.members) == ["error", "details"]
    ensures Find(j.members, "details") == Some(JStr(details))
  {
    JObj([("error", JStr(NoValidPlan)), ("details", JStr(details))])
  }

  /** Whether `"plan" in plan` holds, or `None` when the test raises
      TypeError (numbers, booleans, null). */
  function HasPlanMember(plan: Json): Option<bool> {
    match plan
    case JObj(ms) => Some("plan" in Keys(ms))
    case JArr(xs) => Some(JStr("plan") in xs)
    case JStr(s) => Some(Contains(s, "plan"))
    case _ => None
  }

  /** The planner's check of the model's reply `response`. */
  function Orchestrate(response: string, loads: string -> Parsed): (r: PlanOutcome)
    ensures r.Accepted? <==>
      && loads(ExtractBlock(response)).Parsed?
      && loads(ExtractBlock(response)).value.JObj?
      && Find(loads(ExtractBlock(response)).value.members, "plan").Some?
      && Find(loads(ExtractBlock(response)).value.members, "plan").value.JArr?
    ensures r.Accepted? ==> r.plan == loads(ExtractBlock(response)).value
    ensures loads(ExtractBlock(response)).DecodeError? ==> r == Rejected(loads(ExtractBlock(response)).msg)
    ensures loads(ExtractBlock(response)).Parsed? && loads(ExtractBlock(response)).value.JObj? && !r.Accepted? ==>
      r == Rejected(NoPlanList)
  {
    match loads(ExtractBlock(response))
    case DecodeError(msg) => Rejected(msg)
    case Parsed(plan) =>
      match HasPlanMember(plan)
      case None => PlanCrashed("TypeError")
      case Some(has) =>
        if !has then Rejected(NoPlanList)
        else if !plan.JObj? then PlanCrashed("TypeError")
        else
          var member := Find(plan.members, "plan");
          if member.Some? && member.value.JArr? then Accepted(plan) else Rejected(NoPlanList)
  }

  /** What the planner returns as JSON: the plan itself, or the error object. */
  function OrchestratorReply(o: PlanOutcome): Option<Json>
    requires !o.PlanCrashed?
  {
    match o
    case Accepted(plan) => Some(plan)
    case Rejected(details) => Some(ErrorObject(details))
  }

  /** A reply without '}' always ends in the error object. */
  lemma NoBraceNoPlan(response: string, loads: string -> Parsed)
    requires RejectsEmpty(loads)
    requires '}' !in response
    ensures Orchestrate(response, loads) == Rejected(loads("").msg)
    ensures OrchestratorReply(Orchestrate(response, loads)) == Some(ErrorObject(loads("").msg))
  {
    ExtractBlockCases(response);
    assert RFind(response, '}', 0, |response|) == -1;
  }

  /** `OrchestratorAgent.process_message`: one planning call to the agent's
      default model about the request, then the plan check. `llm` answers a
      model name and the request, or raises outside the `try`; the context
      is received but not read. */
  function PlanRequest(defaultModel: string, message: string, ctx: Context,
                       llm: (string, string) -> Result<string>, loads: string -> Parsed): PlanOutcome
  {
    match llm(defaultModel, message)
    case Raised(err) => PlanCrashed(err)
    case Ok(response) => Orchestrate(response, loads)
  }
}

=== FILE: project_writer.dfy ===
/** The project store under `data/generated_projects`: the containment
    check on project and file paths, the nested file tree of a project, and
    project deletion. Paths are resolved lexically (no symbolic links); a
    path is its list of components from the root. */
module ProjectWriter {
  import opened Common
  import opened Text
  import opened Dict

  type Path = seq<string>

  /** A resolved path: no empty, "." or ".." component. */
  predicate Normal(p: Path) {
    forall i :: 0 <= i < |p| ==> p[i] != "" && p[i] != "." && p[i] != ".."
  }

  /** `a` is one of the `parents` of `b`. */
  predicate StrictPrefix(a: Path, b: Path) {
    |a| < |b| && b[..|a|] == a
  }

  /** Walking the components of a relative path from `dir`: empty and "."
      components stay, ".." goes up (the root is its own parent). */
  function Walk(dir: Path, comps: seq<string>): (r: Path)
    requires Normal(dir)
    ensures Normal(r)
    decreases |comps|
  {
    if comps == [] then dir
    else
      var c := comps[0];
      var next := if c == "" || c == "." then dir
        else if c == ".." then (if dir == [] then [] else dir[..|dir| - 1])
        else dir + [c];
      Walk(next, comps[1..])
  }

  /** `dir.joinpath(p).resolve()`: an absolute `p` starts again from the root. */
  function Resolve(dir: Path, p: string): (r: Path)
    requires Normal(dir)
    ensures Normal(r)
  {
    if |p| > 0 && p[0] == '/' then Walk([], Split(p, '/')) else Walk(dir, Split(p, '/'))
  }

  const OutsideBase := "Tentativa de acesso fora do diretório de projetos permitido."
  const OutsideProject := "Tentativa de acesso fora do diretório do projeto permitido."

  datatype PathResult = Allowed(path: Path) | Denied(error: string)

  /** `_get_safe_path(project_name, file_path)` with `base` the resolved
      projects directory; `None` and "" both mean "no file". */
  function SafePath(base: Path, project: string, file: Option<string>): (r: PathResult)
    requires Normal(base)
    ensures r.Allowed? ==> StrictPrefix(base, r.path) && Normal(r.path)
    ensures r.Allowed? && file.Some? && file.value != "" ==> StrictPrefix(Resolve(base, project), r.path)
    ensures r.Allowed? && (file.None? || file.value == "") ==> r.path == Resolve(base, project)
    ensures r.Denied? <==>
      || !StrictPrefix(base, Resolve(base, project))
      || (file.Some? && file.value != "" && !StrictPrefix(Resolve(base, project), Resolve(Resolve(base, project), file.value)))
    ensures r.Denied? ==> r.error == if StrictPrefix(base, Resolve(base, project)) then OutsideProject else OutsideBase
  {
    var projectPath := Resolve(base, project);
    if !StrictPrefix(base, projectPath) then Denied(OutsideBase)
    else if file.Some? && file.value != "" then
      var full := Resolve(projectPath, file.value);
      if !StrictPrefix(projectPath, full) then Denied(OutsideProject)
      else
        assert full[..|base|] == full[..|projectPath|][..|base|];
        Allowed(full)
    else Allowed(projectPath)
  }

  /** A single component that is neither empty, "." nor ".." names the
      project directory directly below the base. */
  lemma PlainNameAccepted(base: Path, project: string)
    requires Normal(base)
    requires '/' !in project && project != "" && project != "." && project != ".."
    ensures SafePath(base, project, None) == Allowed(base + [project])
  {
    SplitNoSeparator(project, '/');
    assert project[0] != '/';
    assert Resolve(base, project) == Walk(base, [project]);
    assert Walk(base, [project]) == Walk(base + [project], []);
    assert (base + [project])[..|base|] == base;
  }

  /** "", "." and ".." name the base itself or its parent and are refused. */
  lemma BaseAndAboveRefused(base: Path, project: string)
    requires Normal(base)
    requires project == "" || project == "." || project == ".."
    ensures SafePath(base, project, None) == Denied(OutsideBase)
  {
    if project == "" {
      assert Split(project, '/') == [""];
    } else {
      SplitNoSeparator(project, '/');
      assert project[0] == '.';
    }
    var comps := Split(project, '/');
    assert comps == [project];
    assert Resolve(base, project) == Walk(base, comps);
    assert |Walk(base, comps)| <= |base|;
  }

  /** A file path of "." names the project itself: refused. */
  lemma DotFileRefused(base: Path, project: string)
    requires Normal(base) && SafePath(base, project, None).Allowed?
    ensures SafePath(base, project, Some(".")) == Denied(OutsideProject)
  {
    var pp := Resolve(base, project);
    SplitNoSeparator(".", '/');
    assert Resolve(pp, ".") == Walk(pp, ["."]);
    assert Walk(pp, ["."]) == Walk(pp, []);
  }

  /** A file path "../x" names a sibling of the project: refused. */
  lemma ParentFileRefused(base: Path, project: string, x: string)
    requires Normal(base) && SafePath(base, project, None).Allowed?
    requires '/' !in x && x != "" && x != "." && x != ".."
    ensures SafePath(base, project, Some("../" + x)) == Denied(OutsideProject)
  {
    var pp := Resolve(base, project);
    assert |pp| > 0;
    var up := "../" + x;
    ParentSplit(x);
    assert up[0] == '.';
    assert Resolve(pp, up) == Walk(pp, ["..", x]);
    var parent := pp[..|pp| - 1];
    assert Walk(pp, ["..", x]) == Walk(parent, [x]);
    assert Walk(parent, [x]) == Walk(parent + [x], []);
    assert |parent + [x]| == |pp|;
  }

  lemma ParentSplit(x: string)
    requires '/' !in x
    ensures Split("../" + x, '/') == ["..", x]
  {
    assert "../" + x == ".." + ['/'] + x;
    SplitHead("..", '/', x);
    SplitNoSeparator(x, '/');
  }

  // ----- the file tree -----

  /** A tree entry: `None` in the source for a file, a nested dictionary
      for a directory. */
  datatype Node = File | Dir(children: Items<Node>)

  type Tree = Items<Node>

  /** The node reached by following `q` from the top of the tree. */
  function Lookup(t: Tree, q: Path): Option<Node>
    decreases |q|
  {
    if q == [] then None
    else
      match Find(t, q[0])
      case None => None
      case Some(n) =>
        if |q| == 1 then Some(n)
        else if n.File? then None
        else Lookup(n.children, q[1..])
  }

  /** Whether `q` is in the tree and, if so, whether it is a directory. */
  function KindAt(t: Tree, q: Path): Option<bool> {
    match Lookup(t, q)
    case None => None
    case Some(n) => Some(n.Dir?)
  }

  /** One round of the loop over `path.relative_to(project_path).parts`:
      missing components are created as a directory or a file according to
      the path's own kind, and `None` is the TypeError of descending into
      a file. */
  function Insert(t: Tree, parts: Path, isDir: bool): Option<Tree>
    requires parts != []
    decreases |parts|
  {
    var p := parts[0];
    var found := Find(t, p);
    var child := if found.Some? then found.value else if isDir then Dir([]) else File;
    var t1 := if found.Some? then t else Put(t, p, child);
    if |parts| == 1 then Some(t1)
    else
      match child
      case File => None
      case Dir(sub) =>
        match Insert(sub, parts[1..], isDir)
        case None => None
        case Some(sub2) => Some(Put(t1, p, Dir(sub2)))
  }

  /** Every proper prefix of `parts` is a directory of the tree. */
  predicate ParentsPresent(t: Tree, parts: Path) {
    forall k :: 1 <= k < |parts| ==> KindAt(t, parts[..k]) == Some(true)
  }

  /** `t2` agrees with `t` on every path but `parts`, where it keeps the
      kind `t` had or else has kind `isDir`. */
  ghost predicate UpdatesOnePath(t: Tree, t2: Tree, parts: Path, isDir: bool) {
    && KindAt(t2, parts) == (if KindAt(t, parts).Some? then KindAt(t, parts) else Some(isDir))
    && forall q :: q != parts ==> KindAt(t2, q) == KindAt(t, q)
  }

  /** With its parents present, inserting a path changes the tree's kind
      map at that path alone, and there only when it was absent. */
  lemma {:induction false} InsertUpdatesOnePath(t: Tree, parts: Path, isDir: bool)
    requires parts != [] && ParentsPresent(t, parts)
    ensures Insert(t, parts, isDir).Some?
    ensures UpdatesOnePath(t, Insert(t, parts, isDir).value, parts, isDir)
    decreases |parts|, 1
  {
    if |parts| == 1 {
      InsertAtTop(t, parts[0], isDir);
      assert parts == [parts[0]];
    } else {
      InsertBelow(t, parts, isDir);
    }
  }

  lemma InsertAtTop(t: Tree, p: string, isDir: bool)
    ensures Insert(t, [p], isDir).Some?
    ensures UpdatesOnePath(t, Insert(t, [p], isDir).value, [p], isDir)
  {
    var t2 := Insert(t, [p], isDir).value;
    if Find(t, p).None? {
      var child := if isDir then Dir([]) else File;
      assert t2 == Put(t, p, child);
      forall q | q != [p] ensures KindAt(t2, q) == KindAt(t, q) {
        if q != [] {
          if q[0] == p {
            assert |q| > 1;
            LookupPut(t, p, child, q);
            assert Lookup(t2, q).None?;
          } else {
            LookupSameHead(t, t2, q);
          }
        }
      }
      LookupPut(t, p, child, [p]);
    }
  }

  lemma {:induction false} InsertBelow(t: Tree, parts: Path, isDir: bool)
    requires |parts| > 1 && ParentsPresent(t, parts)
    ensures Insert(t, parts, isDir).Some?
    ensures UpdatesOnePath(t, Insert(t, parts, isDir).value, parts, isDir)
    decreases |parts|, 0
  {
    var p := parts[0];
    assert parts[..1] == [p];
    assert KindAt(t, [p]) == Some(true);
    var sub := Find(t, p).value.children;
    assert Find(t, p) == Some(Dir(sub));
    var rest := parts[1..];
    ParentsBelow(t, sub, parts);
    InsertUpdatesOnePath(sub, rest, isDir);
    var sub2 := Insert(sub, rest, isDir).value;
    var t2 := Put(t, p, Dir(sub2));
    assert Insert(t, parts, isDir) == Some(t2);
    assert Find(t2, p) == Some(Dir(sub2));
    KindBelow(t, p, sub, parts);
    KindBelow(t2, p, sub2, parts);
    OnlyPathBelowChanges(t, p, sub, sub2, rest);
  }

  /** The parents of a path below a directory entry are present in its
      children. */
  lemma ParentsBelow(t: Tree, sub: Tree, parts: Path)
    requires |parts| > 1 && ParentsPresent(t, parts)
    requires Find(t, parts[0]) == Some(Dir(sub))
    ensures ParentsPresent(sub, parts[1..])
  {
    var rest := parts[1..];
    forall k | 1 <= k < |rest| ensures KindAt(sub, rest[..k]) == Some(true) {
      assert parts[..k + 1][0] == parts[0] && parts[..k + 1][1..] == rest[..k];
      assert KindAt(t, parts[..k + 1]) == Some(true);
      KindBelow(t, parts[0], sub, parts[..k + 1]);
    }
  }

  /** Replacing the directory entry `p` changes kinds only below `p`, and
      there as the children changed. */
  lemma OnlyPathBelowChanges(t: Tree, p: string, sub: Tree, sub2: Tree, rest: Path)
    requires Find(t, p) == Some(Dir(sub))
    requires forall q :: q != rest ==> KindAt(sub2, q) == KindAt(sub, q)
    ensures forall q :: q != [p] + rest ==> KindAt(Put(t, p, Dir(sub2)), q) == KindAt(t, q)
  {
    var t2 := Put(t, p, Dir(sub2));
    forall q | q != [p] + rest ensures KindAt(t2, q) == KindAt(t, q) {
      if q != [] {
        if q[0] != p {
          LookupSameHead(t, t2, q);
        } else if |q| > 1 {
          assert q == [p] + q[1..];
          KindBelow(t, p, sub, q);
          KindBelow(t2, p, sub2, q);
        } else {
          assert q == [p];
        }
      }
    }
  }

  /** Following a path through a tree after `d[p] = n`. */
  lemma LookupPut(t: Tree, p: string, n: Node, q: Path)
    requires q != []
    ensures q[0] != p ==> Lookup(Put(t, p, n), q) == Lookup(t, q)
    ensures q[0] == p ==> (Lookup(Put(t, p, n), q) ==
      if |q| == 1 then Some(n) else if n.File? then None else Lookup(n.children, q[1..]))
  {
  }

  /** Below a directory entry, a path is looked up in its children. */
  lemma KindBelow(t: Tree, p: string, sub: Tree, q: Path)
    requires Find(t, p) == Some(Dir(sub))
    requires |q| > 1 && q[0] == p
    ensures KindAt(t, q) == KindAt(sub, q[1..])
  {
  }

  /** A lookup depends on the tree only through the entry of its first
      component. */
  lemma LookupSameHead(t: Tree, t2: Tree, q: Path)
    requires q != [] && Find(t, q[0]) == Find(t2, q[0])
    ensures Lookup(t, q) == Lookup(t2, q)
  {
  }

  /** A listing as `sorted(project_path.rglob('*'))` yields it: relative
      parts and whether the path is a directory. */
  type Listing = seq<(Path, bool)>

  /** What a real directory walk guarantees: no empty parts, one kind per
      path, and every proper prefix of a path listed earlier as a directory
      (sorted order puts a parent before its children). */
  predicate WellOrdered(es: Listing) {
    NonEmptyParts(es) && OneKindPerPath(es) && ParentsListedFirst(es)
  }

  predicate NonEmptyParts(es: Listing) {
    forall i :: 0 <= i < |es| ==> es[i].0 != []
  }

  predicate OneKindPerPath(es: Listing) {
    forall i, j :: 0 <= i < |es| && 0 <= j < |es| && es[i].0 == es[j].0 ==> es[i].1 == es[j].1
  }

  predicate ParentsListedFirst(es: Listing) {
    forall i, k :: 0 <= i < |es| && 1 <= k < |es[i].0| ==> Listed(es[..i], es[i].0[..k], true)
  }

  /** `q` is listed with kind `isDir`. */
  predicate Listed(es: Listing, q: Path, isDir: bool) {
    exists j :: 0 <= j < |es| && es[j] == (q, isDir)
  }

  /** The loop over the listing; `None` when it raises. */
  function BuildTree(es: Listing): Option<Tree>
    requires forall i :: 0 <= i < |es| ==> es[i].0 != []
    decreases |es|
  {
    if es == [] then Some([])
    else
      var last := es[|es| - 1];
      match BuildTree(es[..|es| - 1])
      case None => None
      case Some(t) => Insert(t, last.0, last.1)
  }

  /** The tree holds exactly the listed paths, each with its kind. */
  ghost predicate HoldsExactly(es: Listing, t: Tree) {
    && (forall i :: 0 <= i < |es| ==> KindAt(t, es[i].0) == Some(es[i].1))
    && (forall q :: KindAt(t, q).Some? ==> Listed(es, q, KindAt(t, q).value))
  }

  /** For a listing a directory walk can produce, the tree is built, every
      listed path is in it with its kind (`None` exactly for files), and
      nothing else is. */
  lemma {:induction false} TreeHoldsListing(es: Listing)
    requires WellOrdered(es)
    ensures BuildTree(es).Some? && HoldsExactly(es, BuildTree(es).value)
    decreases |es|
  {
    if es != [] {
      var n := |es| - 1;
      var front := es[..n];
      var last := es[n];
      WellOrderedPrefix(es);
      TreeHoldsListing(front);
      var t := BuildTree(front).value;
      LastParentsPresent(es, t);
      InsertUpdatesOnePath(t, last.0, last.1);
      var t2 := Insert(t, last.0, last.1).value;
      assert BuildTree(es) == Some(t2);
      LastKindKept(es, t, t2);
      assert forall i :: 0 <= i < |es| - 1 ==> KindAt(t, es[i].0) == Some(es[i].1) by {
        forall i | 0 <= i < |es| - 1 ensures KindAt(t, es[i].0) == Some(es[i].1) {
          assert es[..|es| - 1][i] == es[i];
        }
      }
      ListedKindsKept(es, t, t2);
      NothingUnlisted(es, t, t2);
      assert HoldsExactly(es, t2);
    }
  }

  lemma WellOrderedPrefix(es: Listing)
    requires WellOrdered(es) && es != []
    ensures WellOrdered(es[..|es| - 1])
  {
    var front := es[..|es| - 1];
    forall i, k | 0 <= i < |front| && 1 <= k < |front[i].0|
      ensures Listed(front[..i], front[i].0[..k], true)
    {
      assert front[..i] == es[..i];
      assert front[i] == es[i];
    }
  }

  lemma LastParentsPresent(es: Listing, t: Tree)
    requires WellOrdered(es) && es != []
    requires HoldsExactly(es[..|es| - 1], t)
    ensures ParentsPresent(t, es[|es| - 1].0)
  {
    assert forall i :: 0 <= i < |es| - 1 ==> KindAt(t, es[i].0) == Some(es[i].1) by {
      forall i | 0 <= i < |es| - 1 ensures KindAt(t, es[i].0) == Some(es[i].1) {
        assert es[..|es| - 1][i] == es[i];
      }
    }
    var n := |es| - 1;
    var last := es[n];
    forall k | 1 <= k < |last.0| ensures KindAt(t, last.0[..k]) == Some(true) {
      assert Listed(es[..n], last.0[..k], true);
      var j :| 0 <= j < n && es[..n][j] == (last.0[..k], true);
      assert es[j] == es[..n][j];
    }
  }

  lemma ListedKindsKept(es: Listing, t: Tree, t2: Tree)
    requires OneKindPerPath(es) && es != []
    requires forall i :: 0 <= i < |es| - 1 ==> KindAt(t, es[i].0) == Some(es[i].1)
    requires var last := es[|es| - 1];
      && KindAt(t2, last.0) == Some(last.1)
      && forall q :: q != last.0 ==> KindAt(t2, q) == KindAt(t, q)
    ensures forall i :: 0 <= i < |es| ==> KindAt(t2, es[i].0) == Some(es[i].1)
  {
    forall i | 0 <= i < |es| - 1 ensures KindAt(t2, es[i].0) == Some(es[i].1) {
      EarlierKindKept(es, t, t2, i);
    }
  }

  /** An earlier entry keeps its kind: either its path is untouched, or it
      is the last entry's path, which has the same kind. */
  lemma EarlierKindKept(es: Listing, t: Tree, t2: Tree, i: nat)
    requires OneKindPerPath(es) && i < |es| - 1
    requires KindAt(t, es[i].0) == Some(es[i].1)
    requires KindAt(t2, es[|es| - 1].0) == Some(es[|es| - 1].1)
    requires es[i].0 != es[|es| - 1].0 ==> KindAt(t2, es[i].0) == KindAt(t, es[i].0)
    ensures KindAt(t2, es[i].0) == Some(es[i].1)
  {
    if es[i].0 == es[|es| - 1].0 {
      assert es[i].1 == es[|es| - 1].1;
    }
  }

  lemma LastKindKept(es: Listing, t: Tree, t2: Tree)
    requires OneKindPerPath(es) && es != []
    requires HoldsExactly(es[..|es| - 1], t)
    requires var last := es[|es| - 1];
      KindAt(t2, last.0) == (if KindAt(t, last.0).Some? then KindAt(t, last.0) else Some(last.1))
    ensures KindAt(t2, es[|es| - 1].0) == Some(es[|es| - 1].1)
  {
    var n := |es| - 1;
    var last := es[n];
    if KindAt(t, last.0).Some? {
      assert Listed(es[..n], last.0, KindAt(t, last.0).value);
      var j :| 0 <= j < n && es[..n][j] == (last.0, KindAt(t, last.0).value);
      assert es[j] == es[..n][j];
    }
  }

  lemma NothingUnlisted(es: Listing, t: Tree, t2: Tree)
    requires es != []
    requires HoldsExactly(es[..|es| - 1], t)
    requires var last := es[|es| - 1];
      && KindAt(t2, last.0) == (if KindAt(t, last.0).Some? then KindAt(t, last.0) else Some(last.1))
      && forall q :: q != last.0 ==> KindAt(t2, q) == KindAt(t, q)
    ensures forall q :: KindAt(t2, q).Some? ==> Listed(es, q, KindAt(t2, q).value)
  {
    var n := |es| - 1;
    forall q | KindAt(t2, q).Some? ensures Listed(es, q, KindAt(t2, q).value) {
      if KindAt(t, q).Some? {
        assert KindAt(t2, q) == KindAt(t, q);
        var j :| 0 <= j < n && es[..n][j] == (q, KindAt(t, q).value);
        assert es[j] == es[..n][j];
      } else {
        assert q == es[n].0;
        assert es[n] == (q, KindAt(t2, q).value);
      }
    }
  }

  /** How `_ensure_base_dir()`, the first step of every path check, ends:
      `mkdir(parents=True, exist_ok=True)` leaves the base directory in
      place, or it raises. `mkdir` creates the missing directories from the
      top down, so when it raises, the first `reached` levels below the root
      exist; `permission` tells a `PermissionError` from another `OSError`. */
  datatype BaseMkdir = BaseReady | MkdirRaised(permission: bool, message: string, reached: nat)

  /** The first `n` directories on the way from the root down to `base`. */
  function Chain(base: Path, n: nat): set<Path> {
    set k | 1 <= k <= n && k <= |base| :: base[..k]
  }

  /** The directories after `_ensure_base_dir()`. */
  function WithBase(dirs: set<Path>, base: Path, mkdir: BaseMkdir): (r: set<Path>)
    ensures dirs <= r
    ensures mkdir.BaseReady? && base != [] ==> base in r
    ensures forall q :: q in r && q !in dirs ==> StrictPrefix(q, base) || q == base
  {
    assert base[..|base|] == base;
    dirs + Chain(base, if mkdir.BaseReady? then |base| else mkdir.reached)
  }

  /** What `get_project_files` returns. */
  datatype FilesResult = FileTree(tree: Tree) | ErrorDict(error: string)

  const NoProject := "Projeto não encontrado."
  const InternalError := "Erro interno ao processar a estrutura de arquivos."

  /** `get_project_files(project_name)`: `mkdir` is how the base directory
      check ended, `isDir` tells whether the project directory exists and
      `listing` is its sorted walk. */
  function ProjectFiles(base: Path, project: string, mkdir: BaseMkdir, isDir: Path -> bool, listing: Listing): (r: FilesResult)
    requires Normal(base)
    requires forall i :: 0 <= i < |listing| ==> listing[i].0 != []
    ensures mkdir.MkdirRaised? ==> r == ErrorDict(if mkdir.permission then mkdir.message else InternalError)
    ensures mkdir.BaseReady? && SafePath(base, project, None).Denied? ==> r == ErrorDict(SafePath(base, project, None).error)
    ensures mkdir.BaseReady? && SafePath(base, project, None).Allowed? && !isDir(SafePath(base, project, None).path) ==>
      r == ErrorDict(NoProject)
    ensures r.FileTree? ==> mkdir.BaseReady? && BuildTree(listing) == Some(r.tree)
  {
    match mkdir
    case MkdirRaised(permission, message, _) => ErrorDict(if permission then message else InternalError)
    case BaseReady =>
      match SafePath(base, project, None)
      case Denied(msg) => ErrorDict(msg)
      case Allowed(path) =>
        if !isDir(path) then ErrorDict(NoProject)
        else
          match BuildTree(listing)
          case None => ErrorDict(InternalError)
          case Some(t) => FileTree(t)
  }

  /** A listing from a directory walk never hits the internal error. */
  lemma ExistingProjectListed(base: Path, project: string, isDir: Path -> bool, listing: Listing)
    requires Normal(base) && WellOrdered(listing)
    requires SafePath(base, project, None).Allowed? && isDir(SafePath(base, project, None).path)
    ensures BuildTree(listing).Some? && ProjectFiles(base, project, BaseReady, isDir, listing) == FileTree(BuildTree(listing).value)
  {
    TreeHoldsListing(listing);
  }

  // ----- deletion -----

  /** `q` is `p` or lies below it. */
  predicate InTree(p: Path, q: Path) {
    q == p || StrictPrefix(p, q)
  }

  /** The directories left when `shutil.rmtree(p)` raises part-way: those
      outside `p`'s tree, `p` itself, the ones it had not yet removed
      (`kept`), and every directory holding one of those, because `rmtree`
      removes a directory only after everything below it. */
  function AfterFailedRmtree(dirs: set<Path>, p: Path, kept: set<Path>): set<Path> {
    set q | q in dirs && (!StrictPrefix(p, q) || q in kept || exists d :: d in kept && d in dirs && StrictPrefix(q, d))
  }

  /** `delete_generated_project(project_name)` over the set of existing
      directories: `mkdir` is how the base directory check ended,
      `rmtreeOk` says whether `shutil.rmtree` succeeds, which removes the
      project and everything below it, and `kept` which directories it had
      not removed when it failed. Every exception gives `False`. */
  function Delete(dirs: set<Path>, base: Path, project: string, mkdir: BaseMkdir, rmtreeOk: bool, kept: set<Path>): (r: (bool, set<Path>))
    requires Normal(base)
    ensures mkdir.MkdirRaised? ==> r == (false, WithBase(dirs, base, mkdir))
    ensures mkdir.BaseReady? && SafePath(base, project, None).Denied? ==> r == (false, WithBase(dirs, base, mkdir))
    ensures mkdir.BaseReady? && SafePath(base, project, None).Allowed? ==>
      var made := WithBase(dirs, base, mkdir);
      var p := SafePath(base, project, None).path;
      && (base != [] ==> base in r.1)
      && (p !in made ==> r == (true, made))
      && (p in made ==> r.0 == rmtreeOk)
      && (r.0 ==> p !in r.1 && forall q :: q in r.1 <==> q in made && !(p in made && InTree(p, q)))
      && (!r.0 ==>
            && r.1 <= made && p in r.1
            && (forall q :: q in made && !StrictPrefix(p, q) ==> q in r.1)
            && (forall q :: q in made && q in kept ==> q in r.1))
  {
    var made := WithBase(dirs, base, mkdir);
    if mkdir.MkdirRaised? then (false, made)
    else
      match SafePath(base, project, None)
      case Denied(_) => (false, made)
      case Allowed(p) =>
        assert StrictPrefix(base, p) && !InTree(p, base);
        if p !in made then (true, made)
        else if rmtreeOk then (true, set q | q in made && !InTree(p, q))
        else (false, AfterFailedRmtree(made, p, kept))
  }

  /** After a failed `rmtree` no directory is missing while something below
      it is still there: whatever holds a surviving directory survives. */
  lemma FailedRmtreeKeepsAncestors(dirs: set<Path>, p: Path, kept: set<Path>, q: Path, d: Path)
    requires q in dirs && d in AfterFailedRmtree(dirs, p, kept) && StrictPrefix(q, d)
    ensures q in AfterFailedRmtree(dirs, p, kept)
  {
    if StrictPrefix(p, q) {
      assert d[..|p|] == d[..|q|][..|p|];
      assert StrictPrefix(p, d);
      if d in kept {
        assert d in dirs;
      } else {
        var e :| e in kept && e in dirs && StrictPrefix(d, e);
        assert e[..|q|] == e[..|d|][..|q|];
        assert StrictPrefix(q, e);
      }
    }
  }

  /** Deleting twice answers `True` the second time and changes nothing
      more: the desired state, no project, was already reached, and the
      base directory already exists. */
  lemma DeleteIdempotent(dirs: set<Path>, base: Path, project: string, ok1: bool, kept1: set<Path>, ok2: bool, kept2: set<Path>)
    requires Normal(base)
    requires Delete(dirs, base, project, BaseReady, ok1, kept1).0
    ensures var once := Delete(dirs, base, project, BaseReady, ok1, kept1).1;
      Delete(once, base, project, BaseReady, ok2, kept2) == (true, once)
  {
    var once := Delete(dirs, base, project, BaseReady, ok1, kept1).1;
    var p := SafePath(base, project, None).path;
    forall q | q in Chain(base, |base|) ensures q in once {
      assert |q| <= |base| < |p|;
    }
    assert WithBase(once, base, BaseReady) == once;
  }
}

=== FILE: routing.dfy ===
/** The adaptive router's decisions: which models are available, the best
    of them, the capability-overlap fallback, and `route_request` with its
    decision cache, probe fallback chain and emergency fallback. The network
    answers it depends on are explicit inputs. */
module Routing {
  import opened Common
  import opened Catalog
  import opened Metrics
  import opened Dict
  import opened Scoring
  import Classifier
  import Selection

  /** `get_available_models` given the server's model listing: `None` stands
      for any failed or non-200 request, after which the whole catalogue is
      assumed available; otherwise the configured models the server lists,
      in catalogue order. */
  function AvailableModels(listing: Option<seq<string>>): (r: seq<string>)
    ensures listing.None? ==> r == ModelNames
    ensures listing.Some? ==> forall m :: m in r <==> m in ModelNames && m in listing.value
  {
    match listing
    case None => ModelNames
    case Some(names) => Listed(ModelNames, names)
  }

  /** The available models keep the catalogue's order, which is the order in
      which `max` meets them and so decides its ties. */
  lemma AvailableInCatalogueOrder(listing: Option<seq<string>>)
    ensures OrderedAs(ModelNames, AvailableModels(listing))
  {
    if listing.None? {
      forall i, j | 0 <= i < j < |ModelNames| ensures Before(ModelNames, ModelNames[i], ModelNames[j]) {
        assert ModelNames[i] == ModelNames[i];
      }
    }
  }

  /** The members of `names` that also occur in `listed`, in order. */
  function Listed(names: seq<string>, listed: seq<string>): (r: seq<string>)
    ensures forall m :: m in r <==> m in names && m in listed
    ensures |r| <= |names|
    ensures OrderedAs(names, r)
    decreases |names|
  {
    if names == [] then []
    else
      var rest := Listed(names[1..], listed);
      ShiftBefore(names, rest);
      (if names[0] in listed then [names[0]] else []) + rest
  }

  /** Every two elements of `r` appear in `xs` in the same order. */
  predicate OrderedAs(xs: seq<string>, r: seq<string>) {
    forall i, j :: 0 <= i < j < |r| ==> Before(xs, r[i], r[j])
  }

  /** `a` occurs in `xs` at a position before one holding `b`. */
  predicate Before(xs: seq<string>, a: string, b: string) {
    exists p, q :: 0 <= p < q < |xs| && xs[p] == a && xs[q] == b
  }

  /** Order in the tail is order in the whole, and the head comes before
      every element of the tail. */
  lemma ShiftBefore(names: seq<string>, rest: seq<string>)
    requires names != []
    requires forall m :: m in rest ==> m in names[1..]
    requires forall i, j :: 0 <= i < j < |rest| ==> Before(names[1..], rest[i], rest[j])
    ensures forall i, j :: 0 <= i < j < |rest| ==> Before(names, rest[i], rest[j])
    ensures forall j :: 0 <= j < |rest| ==> Before(names, names[0], rest[j])
  {
    forall i, j | 0 <= i < j < |rest| ensures Before(names, rest[i], rest[j]) {
      assert Before(names[1..], rest[i], rest[j]);
      var p, q :| 0 <= p < q < |names[1..]| && names[1..][p] == rest[i] && names[1..][q] == rest[j];
      assert names[p + 1] == rest[i] && names[q + 1] == rest[j];
    }
    forall j | 0 <= j < |rest| ensures Before(names, names[0], rest[j]) {
      assert rest[j] in names[1..];
      var q :| 0 <= q < |names[1..]| && names[1..][q] == rest[j];
      assert names[q + 1] == rest[j];
    }
  }

  /** Why a model was chosen, as the `reason` field reports it. */
  datatype Reason = OptimalSelection | FallbackDefault | FallbackUsed | ErrorFallback

  /** The `routing_info` dictionary in its three shapes. */
  datatype Info =
    | Decision(
        selected: string,
        taskType: TaskType,
        complexity: Complexity,
        score: real,
        allScores: seq<(string, real)>,
        available: seq<string>,
        timestamp: string,
        reason: Reason)
    | ReasonOnly(reason: Reason)
    | Failure(reason: Reason, error: string)

  /** `routing_info["reason"] = r` */
  function WithReason(info: Info, r: Reason): (out: Info)
    ensures out.reason == r
  {
    info.(reason := r)
  }

  /** `GENERAL_MODEL` from the environment, `qwen2.5:7b` when unset. */
  function GeneralModel(env: map<string, string>): string {
    GetEnv(env, "GENERAL_MODEL", DefaultGeneralModel)
  }

  /** The decision for known task features over a non-empty availability
      list: the first model, in availability order, with the highest score. */
  function Choose(avail: seq<string>, t: TaskType, c: Complexity, ctx: Option<Context>,
                  metrics: Table, now: string): (r: (string, Info))
    requires avail != []
    ensures r.0 in avail
    ensures r.1.Decision? && r.1.selected == r.0 && r.1.reason == OptimalSelection
    ensures r.1.available == avail && r.1.timestamp == now
    ensures r.1.taskType == t && r.1.complexity == c
    ensures r.1.score == ModelScore(r.0, t, c, ctx, metrics)
    ensures forall m :: m in avail ==> ModelScore(m, t, c, ctx, metrics) <= r.1.score
    ensures forall j :: 0 <= j < |avail| && ModelScore(avail[j], t, c, ctx, metrics) == r.1.score ==>
              r.0 in avail[..j + 1]
    ensures |r.1.allScores| == |avail|
    ensures forall j :: 0 <= j < |avail| ==> r.1.allScores[j] == (avail[j], ModelScore(avail[j], t, c, ctx, metrics))
  {
    var key := (m: string) => ModelScore(m, t, c, ctx, metrics);
    var i := Selection.ArgMax(avail, key);
    FirstMaxComesFirst(avail, key, i);
    (avail[i], Decision(avail[i], t, c, key(avail[i]), Scored(avail, key), avail, now, OptimalSelection))
  }

  /** `{model: score for model in avail}` as its items. */
  function Scored(avail: seq<string>, key: string -> real): (r: seq<(string, real)>)
    ensures |r| == |avail|
    ensures forall j :: 0 <= j < |avail| ==> r[j] == (avail[j], key(avail[j]))
  {
    seq(|avail|, j requires 0 <= j < |avail| => (avail[j], key(avail[j])))
  }

  /** The first maximal element occurs at or before every element with the
      same key. */
  lemma FirstMaxComesFirst<T>(xs: seq<T>, key: T -> real, i: nat)
    requires i < |xs|
    requires forall j :: 0 <= j < i ==> key(xs[j]) < key(xs[i])
    ensures forall j :: 0 <= j < |xs| && key(xs[j]) == key(xs[i]) ==> xs[i] in xs[..j + 1]
  {
    forall j | 0 <= j < |xs| && key(xs[j]) == key(xs[i]) ensures xs[i] in xs[..j + 1] {
      assert xs[..j + 1][i] == xs[i];
    }
  }

  /** `select_optimal_model(message, context)` given the listing and the
      clock reading. */
  function SelectOptimal(message: string, ctx: Option<Context>, metrics: Table,
                         listing: Option<seq<string>>, env: map<string, string>, now: string): (r: (string, Info))
    ensures AvailableModels(listing) == [] ==> r == (GeneralModel(env), ReasonOnly(FallbackDefault))
    ensures AvailableModels(listing) != [] ==>
      r == Choose(AvailableModels(listing), Classifier.AnalyzeType(message, ctx),
                  Classifier.AnalyzeComplexity(message, ctx), ctx, metrics, now)
  {
    var avail := AvailableModels(listing);
    if avail == [] then (GeneralModel(env), ReasonOnly(FallbackDefault))
    else Choose(avail, Classifier.AnalyzeType(message, ctx), Classifier.AnalyzeComplexity(message, ctx), ctx, metrics, now)
  }

  /** Shared capabilities of two catalogue models. Only catalogue models
      ever reach this: an unknown name would raise `KeyError` in the
      source, and counts as sharing nothing here. */
  function Overlap(a: string, b: string): nat {
    if Configured(a) && Configured(b) then
      |AsSet(ConfigOf(a).capabilities) * AsSet(ConfigOf(b).capabilities)|
    else 0
  }

  /** `get_fallback_model(unavailable)` given the second model listing. */
  function Fallback(u: string, listing: Option<seq<string>>): (r: Option<string>)
    ensures !Configured(u) ==> r == None
    ensures r.Some? ==> r.value != u && r.value in AvailableModels(listing)
  {
    if !Configured(u) then None
    else Selection.ScanPositive(AvailableModels(listing), u, m => Overlap(u, m)).0
  }

  /** The fallback is `None` exactly when the model is unknown or no other
      available model shares a capability with it. */
  lemma FallbackNone(u: string, listing: Option<seq<string>>)
    ensures Fallback(u, listing).None? <==>
      !Configured(u) || forall m :: m in AvailableModels(listing) && m != u ==> Overlap(u, m) == 0
  {
    if Configured(u) {
      Selection.ScanPositiveBest(AvailableModels(listing), u, m => Overlap(u, m));
    }
  }

  /** Otherwise it is the first available model with the largest positive
      overlap. */
  lemma FallbackBest(u: string, listing: Option<seq<string>>)
    requires Fallback(u, listing).Some?
    ensures Selection.FirstBest(AvailableModels(listing), u, m => Overlap(u, m), Fallback(u, listing).value)
  {
    Selection.ScanPositiveBest(AvailableModels(listing), u, m => Overlap(u, m));
  }

  /** The creative generalist and the code specialist share nothing, so an
      unreachable `llama3.1:8b-instruct` can never fall back to
      `codegemma:7b`. */
  lemma GeneralistAndCoderDisjoint()
    ensures Overlap("llama3.1:8b-instruct", "codegemma:7b") == 0
  {
    GeneralistAndCoderEntries();
    GeneralistAndCoderCapabilities();
  }

  // ----- route_request -----

  /** Two contexts with the same items give the same key, and any item
      whose value differs, inside a list or dictionary included, gives
      another; `None` reads as the empty dictionary. Collisions of Python's
      `hash` are not modelled. */
  type CacheKey = (string, Context)

  function KeyOf(message: string, ctx: Option<Context>): CacheKey {
    (message, OrEmpty(ctx))
  }

  datatype RouterState = RouterState(cache: map<CacheKey, (string, Info)>, metrics: Table)

  /** A freshly constructed router: empty cache, every catalogue model seeded. */
  const Start: RouterState := RouterState(map[], Initial)

  /** What the outside world answers during one routing call:
      the listing seen by the selection, the probe of the chosen model,
      the listing seen by the fallback search, an exception raised on the way
      (its message), the environment and the clock. */
  datatype World = World(
    listing: Option<seq<string>>,
    probeOk: bool,
    fallbackListing: Option<seq<string>>,
    raised: Option<string>,
    env: map<string, string>,
    now: string)

  datatype Routed = Routed(model: string, info: Info, state: RouterState)

  /** The probe step of `route_request` for a selection `sel`: keep it when
      the probe succeeds, else take the capability fallback ("fallback_used"),
      else GENERAL_MODEL ("fallback_default"). Only the reason of the
      routing record changes. */
  function Settle(sel: (string, Info), w: World): (r: (string, Info))
    ensures w.probeOk ==> r == sel
    ensures r.1 == sel.1.(reason := r.1.reason)
    ensures r.1.reason == FallbackUsed && sel.1.reason != FallbackUsed ==>
      && !w.probeOk
      && Fallback(sel.0, w.fallbackListing) == Some(r.0)
      && r.0 != sel.0 && r.0 in AvailableModels(w.fallbackListing)
      && Overlap(sel.0, r.0) > 0
    ensures !w.probeOk && r.1.reason != FallbackUsed ==>
      r.1.reason == FallbackDefault && r.0 == GeneralModel(w.env)
      && Fallback(sel.0, w.fallbackListing).None?
  {
    if w.probeOk then sel
    else match Fallback(sel.0, w.fallbackListing)
      case Some(f) =>
        FallbackBest(sel.0, w.fallbackListing);
        (f, WithReason(sel.1, FallbackUsed))
      case None => (GeneralModel(w.env), WithReason(sel.1, FallbackDefault))
  }

  /** `route_request(message, context)` */
  function RouteRequest(s: RouterState, message: string, ctx: Option<Context>, w: World): (r: Routed)
    ensures r.state.metrics == s.metrics
    ensures KeyOf(message, ctx) in s.cache ==>
      (r.model, r.info) == s.cache[KeyOf(message, ctx)] && r.state == s
    ensures KeyOf(message, ctx) !in s.cache && w.raised.Some? ==>
      r == Routed(GeneralModel(w.env), Failure(ErrorFallback, w.raised.value), s)
    ensures KeyOf(message, ctx) !in s.cache && w.raised.None? ==>
      && (r.model, r.info) == Settle(SelectOptimal(message, ctx, s.metrics, w.listing, w.env, w.now), w)
      && r.state.cache == s.cache[KeyOf(message, ctx) := (r.model, r.info)]
  {
    var key := KeyOf(message, ctx);
    if key in s.cache then
      var hit := s.cache[key];
      Routed(hit.0, hit.1, s)
    else if w.raised.Some? then
      Routed(GeneralModel(w.env), Failure(ErrorFallback, w.raised.value), s)
    else
      var decided := Settle(SelectOptimal(message, ctx, s.metrics, w.listing, w.env, w.now), w);
      Routed(decided.0, decided.1, RouterState(s.cache[key := decided], s.metrics))
  }

  /** The reported reason of a fresh decision tells where the model came
      from: "optimal_selection" is an available model that answered the
      probe, "fallback_used" a different model sharing a capability with the
      one selected, and "fallback_default" or "error_fallback" mean
      GENERAL_MODEL. */
  lemma ReasonExplainsModel(s: RouterState, message: string, ctx: Option<Context>, w: World)
    requires KeyOf(message, ctx) !in s.cache
    ensures var r := RouteRequest(s, message, ctx, w);
      var sel := SelectOptimal(message, ctx, s.metrics, w.listing, w.env, w.now);
      && (r.info.reason == OptimalSelection ==> w.probeOk && r.model in AvailableModels(w.listing))
      && (r.info.reason == FallbackUsed ==> !w.probeOk && r.model != sel.0 && Overlap(sel.0, r.model) > 0)
      && (r.info.reason == FallbackDefault || r.info.reason == ErrorFallback ==> r.model == GeneralModel(w.env))
  {
    if w.raised.None? {
      var sel := SelectOptimal(message, ctx, s.metrics, w.listing, w.env, w.now);
      SelectionReason(message, ctx, s.metrics, w.listing, w.env, w.now);
      SettleExplains(sel, w, AvailableModels(w.listing));
      var d := Settle(sel, w);
      assert RouteRequest(s, message, ctx, w).model == d.0;
      assert RouteRequest(s, message, ctx, w).info == d.1;
    }
  }

  /** The same for any selection that is optimal among `avail` or the
      GENERAL_MODEL default. */
  lemma SettleExplains(sel: (string, Info), w: World, avail: seq<string>)
    requires || (sel.1.reason == OptimalSelection && sel.0 in avail)
             || sel == (GeneralModel(w.env), ReasonOnly(FallbackDefault))
    ensures var d := Settle(sel, w);
      && (d.1.reason == OptimalSelection ==> w.probeOk && d.0 in avail)
      && (d.1.reason == FallbackUsed ==> !w.probeOk && d.0 != sel.0 && Overlap(sel.0, d.0) > 0)
      && (d.1.reason == FallbackDefault ==> d.0 == GeneralModel(w.env))
  {
  }

  /** A selection is either an optimal one among the available models or
      GENERAL_MODEL for lack of any. */
  lemma SelectionReason(message: string, ctx: Option<Context>, metrics: Table,
                        listing: Option<seq<string>>, env: map<string, string>, now: string)
    ensures var sel := SelectOptimal(message, ctx, metrics, listing, env, now);
      || (sel.1.reason == OptimalSelection && sel.0 in AvailableModels(listing))
      || sel == (GeneralModel(env), ReasonOnly(FallbackDefault))
  {
  }

  /** Asking again with the same message and the same context items (in any
      order, `None` and `{}` alike) returns the stored answer verbatim,
      timestamp included, whatever the world answers now, and changes
      nothing. */
  lemma RepeatIsCached(s: RouterState, message: string, ctx1: Option<Context>, ctx2: Option<Context>, w1: World, w2: World)
    requires OrEmpty(ctx1) == OrEmpty(ctx2)
    requires w1.raised.None?
    ensures var first := RouteRequest(s, message, ctx1, w1);
      var second := RouteRequest(first.state, message, ctx2, w2);
      second == Routed(first.model, first.info, first.state)
  {
  }

  /** Asking again with the same message but context items that differ
      anywhere, down to an element of a list, misses the cache: the second
      call routes afresh and stores its own answer next to the first. */
  lemma DifferentItemsMiss(s: RouterState, message: string, ctx1: Option<Context>, ctx2: Option<Context>, w1: World, w2: World)
    requires OrEmpty(ctx1) != OrEmpty(ctx2)
    requires KeyOf(message, ctx2) !in s.cache
    requires w1.raised.None? && w2.raised.None?
    ensures var first := RouteRequest(s, message, ctx1, w1);
      var second := RouteRequest(first.state, message, ctx2, w2);
      && KeyOf(message, ctx2) !in first.state.cache
      && second.state.cache == first.state.cache[KeyOf(message, ctx2) := (second.model, second.info)]
  {
    var k1, k2 := KeyOf(message, ctx1), KeyOf(message, ctx2);
    assert k1 != k2;
    var first := RouteRequest(s, message, ctx1, w1);
    assert first.state.cache.Keys <= s.cache.Keys + {k1};
  }

  /** `route_request("x", {"files": [1]})` does not answer a later
      `route_request("x", {"files": [2]})`. */
  lemma FilesListsMiss(s: RouterState, message: string, w1: World, w2: World)
    requires KeyOf(message, Some(map["files" := List([Int(2)])])) !in s.cache
    requires w1.raised.None? && w2.raised.None?
    ensures var first := RouteRequest(s, message, Some(map["files" := List([Int(1)])]), w1);
      var second := RouteRequest(first.state, message, Some(map["files" := List([Int(2)])]), w2);
      KeyOf(message, Some(map["files" := List([Int(2)])])) in second.state.cache
        && KeyOf(message, Some(map["files" := List([Int(2)])])) !in first.state.cache
  {
    var c1, c2 := map["files" := List([Int(1)])], map["files" := List([Int(2)])];
    assert c1["files"] != c2["files"];
    DifferentItemsMiss(s, message, Some(c1), Some(c2), w1, w2);
  }

  /** An error leaves the router exactly as it was, so the next call with
      the same request routes afresh. */
  lemma ErrorIsNotCached(s: RouterState, message: string, ctx: Option<Context>, w: World)
    requires KeyOf(message, ctx) !in s.cache && w.raised.Some?
    ensures RouteRequest(s, message, ctx, w).state == s
    ensures RouteRequest(s, message, ctx, w).info.reason == ErrorFallback
  {
  }

  /** The cache only grows, by at most one entry per call, and never
      forgets or rewrites a decision. */
  lemma CacheOnlyGrows(s: RouterState, message: string, ctx: Option<Context>, w: World)
    ensures var c := RouteRequest(s, message, ctx, w).state.cache;
      && (forall k :: k in s.cache ==> k in c && c[k] == s.cache[k])
      && |c| <= |s.cache| + 1
  {
    var r := RouteRequest(s, message, ctx, w);
    MapGrowth(s.cache, r.state.cache, KeyOf(message, ctx), (r.model, r.info));
  }

  /** A map that is unchanged or gained one new key keeps every old entry
      and grows by at most one. */
  lemma MapGrowth<K, V>(m: map<K, V>, c: map<K, V>, k: K, v: V)
    requires c == m || (k !in m && c == m[k := v])
    ensures forall x :: x in m ==> x in c && c[x] == m[x]
    ensures |c| <= |m| + 1
  {
    if c != m {
      InsertGrowsByOne(m, k, v);
    }
  }

  lemma InsertGrowsByOne<K, V>(m: map<K, V>, k: K, v: V)
    requires k !in m
    ensures |m[k := v]| == |m| + 1
  {
    assert m[k := v].Keys == m.Keys + {k};
  }

  /** `get_routing_stats()` */
  datatype RoutingStats = RoutingStats(
    metrics: Table, cacheSize: nat, available: seq<string>, totalRoutes: nat)

  function GetRoutingStats(s: RouterState): (r: RoutingStats)
    ensures r.metrics == s.metrics && r.cacheSize == |s.cache|
    ensures r.available == ModelNames
    ensures r.totalRoutes == TotalRoutes(s.metrics)
  {
    RoutingStats(s.metrics, |s.cache|, ModelNames, TotalRoutes(s.metrics))
  }

  // ----- execute_agent_task -----

  /** The agent names `execute_agent_task` knows how to build. */
  const AgentMap: set<string> := {
    "ideator_saas", "architect_fullstack", "builder_web", "editor",
    "researcher", "dev_fullstack", "orchestrator"}

  /** The routing context of a chat: just the agent's name. */
  function AgentContext(agent: string): Context {
    map["agent" := Str(agent)]
  }

  /** The `update_model_metrics` calls one chat makes: one per
      `ollama_chat` call, whose `finally` records its outcome, success or
      not. A known agent that answers calls the model through its own
      `call_ollama`, which records nothing. A known agent that raised falls
      back to one `ollama_chat`, whose own exception escapes. An unknown
      agent is answered by `ollama_chat` inside the same `try`, so when that
      call fails its exception is caught by the fallback, which calls
      `ollama_chat` a second time. `first` and `retry` are the success and
      the seconds the first and the second call observed. */
  function ChatDispatches(model: string, agent: string, agentRaised: bool,
                          first: (bool, real), retry: (bool, real)): (ds: seq<Dispatch>)
    ensures agent in AgentMap && !agentRaised ==> ds == []
    ensures agent in AgentMap && agentRaised ==> ds == [Dispatch(model, first.0, first.1)]
    ensures agent !in AgentMap ==>
      && |ds| == (if first.0 then 1 else 2)
      && ds[0] == Dispatch(model, first.0, first.1)
      && (!first.0 ==> ds[1] == Dispatch(model, retry.0, retry.1))
  {
    if agent in AgentMap then
      if agentRaised then [Dispatch(model, first.0, first.1)] else []
    else if first.0 then [Dispatch(model, first.0, first.1)]
    else [Dispatch(model, first.0, first.1), Dispatch(model, retry.0, retry.1)]
  }

  /** `execute_agent_task(agent, message, history, context)`: route with
      the agent's name as context, then answer through the agent or through
      `ollama_chat`. `agentRaised` tells whether the agent raised. */
  function Serve(s: RouterState, agent: string, message: string, w: World,
                 agentRaised: bool, first: (bool, real), retry: (bool, real)): (r: Routed)
    ensures var routed := RouteRequest(s, message, Some(AgentContext(agent)), w);
      r.model == routed.model && r.info == routed.info && r.state.cache == routed.state.cache
    ensures r.state.metrics == Replay(s.metrics, ChatDispatches(r.model, agent, agentRaised, first, retry))
    ensures agent in AgentMap && !agentRaised ==> r.state.metrics == s.metrics
  {
    var routed := RouteRequest(s, message, Some(AgentContext(agent)), w);
    var ds := ChatDispatches(routed.model, agent, agentRaised, first, retry);
    Routed(routed.model, routed.info, routed.state.(metrics := Replay(routed.state.metrics, ds)))
  }

  /** The reported total routes counts the `ollama_chat` calls of a chat:
      none when a known agent answers, one when it raised, and for an
      unknown agent one, or two when the first call failed. */
  lemma ServeCountsChatCalls(s: RouterState, agent: string, message: string, w: World,
                             agentRaised: bool, first: (bool, real), retry: (bool, real))
    requires WellFormed(s.metrics)
    ensures GetRoutingStats(Serve(s, agent, message, w, agentRaised, first, retry).state).totalRoutes
      == GetRoutingStats(s).totalRoutes
         + (if agent !in AgentMap then (if first.0 then 1 else 2)
            else if agentRaised then 1 else 0)
  {
    var model := RouteRequest(s, message, Some(AgentContext(agent)), w).model;
    TotalRoutesCountsDispatches(s.metrics, ChatDispatches(model, agent, agentRaised, first, retry));
  }
}

=== FILE: scoring.dfy ===
/** `calculate_model_score`: how well a catalogue model suits a task of a
    given type and tier, from its static profile, its recorded history and
    the caller's `prefer_fast` wish. */
module Scoring {
  import opened Common
  import opened Catalog
  import opened Metrics
  import opened Dict
  import Classifier

  function AsSet(cs: seq<Capability>): set<Capability> {
    set c | c in cs
  }

  /** How many of the task's required capabilities the model has. */
  function CapabilityMatches(cfg: ModelConfig, t: TaskType): nat {
    |AsSet(cfg.capabilities) * AsSet(RequiredCapabilities(t))|
  }

  /** A flat 3 when the model's ceiling reaches the task tier, otherwise a
      penalty of 2 per missing tier. */
  function TierTerm(ceiling: Complexity, task: Complexity): real {
    if Tier(ceiling) >= Tier(task) then 3.0 else -2.0 * ((Tier(task) - Tier(ceiling)) as real)
  }

  /** History counts only once the model has served a request. */
  function HistoryTerm(s: Option<Stats>): real {
    match s
    case None => 0.0
    case Some(st) =>
      if st.total > 0 then
        (st.successRate - 0.8) * 10.0
          + (if st.avgTime < 5.0 then 1.0 else if st.avgTime > 15.0 then -1.0 else 0.0)
      else 0.0
  }

  /** `prefer_fast` is read only from a non-empty context. */
  function PreferenceTerm(ctx: Option<Context>, usage: Usage): real {
    if Classifier.HasContext(ctx) && Truthy(Get(ctx.value, "prefer_fast", Bool(false))) then
      match usage
      case Low => 2.0
      case High => -1.0
      case Medium => 0.0
    else 0.0
  }

  /** The unclamped sum for a configured model. */
  function RawScore(model: string, t: TaskType, c: Complexity, ctx: Option<Context>, metrics: Table): real
    requires Configured(model)
  {
    var cfg := ConfigOf(model);
    cfg.performance
      + 2.5 * (CapabilityMatches(cfg, t) as real)
      + TierTerm(cfg.maxComplexity, c)
      + HistoryTerm(Find(metrics, model))
      + PreferenceTerm(ctx, cfg.usage)
  }

  /** `calculate_model_score(model, task_type, complexity, context)` */
  function ModelScore(model: string, t: TaskType, c: Complexity, ctx: Option<Context>, metrics: Table): (r: real)
    ensures r >= 0.0
    ensures !Configured(model) ==> r == 0.0
    ensures Configured(model) ==> r >= RawScore(model, t, c, ctx, metrics)
    ensures Configured(model) && RawScore(model, t, c, ctx, metrics) > 0.0 ==> r == RawScore(model, t, c, ctx, metrics)
    ensures Configured(model) && RawScore(model, t, c, ctx, metrics) <= 0.0 ==> r == 0.0
  {
    if !Configured(model) then 0.0
    else
      var raw := RawScore(model, t, c, ctx, metrics);
      if raw > 0.0 then raw else 0.0
  }

  /** Every required-capability list has two distinct entries, so the
      capability bonus is between 0 and 5. */
  lemma CapabilityBonusBounded(cfg: ModelConfig, t: TaskType)
    ensures CapabilityMatches(cfg, t) <= 2
  {
    var req := AsSet(RequiredCapabilities(t));
    assert req == {RequiredCapabilities(t)[0], RequiredCapabilities(t)[1]};
    assert AsSet(cfg.capabilities) * req <= req;
    SubsetCard(AsSet(cfg.capabilities) * req, req);
  }

  lemma SubsetCard<T>(a: set<T>, b: set<T>)
    requires a <= b
    ensures |a| <= |b|
  {
    assert b == a + (b - a);
  }

  /** Two task tiers within the model's ceiling score the same; a tier above
      the ceiling loses the flat 3 and pays 2 for every tier of the gap. */
  lemma TierGap(model: string, t: TaskType, within: Complexity, above: Complexity, ctx: Option<Context>, metrics: Table)
    requires Configured(model)
    requires Tier(within) <= Tier(ConfigOf(model).maxComplexity) < Tier(above)
    ensures RawScore(model, t, within, ctx, metrics) - RawScore(model, t, above, ctx, metrics)
      == 3.0 + 2.0 * ((Tier(above) - Tier(ConfigOf(model).maxComplexity)) as real)
  {
  }

  /** Below the ceiling the task tier does not matter. */
  lemma TierFlatWithinCeiling(model: string, t: TaskType, c1: Complexity, c2: Complexity, ctx: Option<Context>, metrics: Table)
    requires Configured(model)
    requires Tier(c1) <= Tier(ConfigOf(model).maxComplexity)
    requires Tier(c2) <= Tier(ConfigOf(model).maxComplexity)
    ensures ModelScore(model, t, c1, ctx, metrics) == ModelScore(model, t, c2, ctx, metrics)
  {
  }

  /** A model that has served no request scores exactly as with the fresh
      seed entry, whatever rate and mean its entry holds. */
  lemma HistoryIgnoredWithoutRequests(model: string, t: TaskType, c: Complexity, ctx: Option<Context>, metrics: Table)
    requires Find(metrics, model).Some? && Find(metrics, model).value.total == 0
    ensures HistoryTerm(Find(metrics, model)) == 0.0
    ensures ModelScore(model, t, c, ctx, metrics) == ModelScore(model, t, c, ctx, Put(metrics, model, Seed))
  {
  }

  /** With a rate in [0, 1] the history term lies in [-9, 3]: the rate part
      spans [-8, 2] and the latency part [-1, 1]. */
  lemma HistoryTermBounded(s: Stats)
    requires 0.0 <= s.successRate <= 1.0
    ensures -9.0 <= HistoryTerm(Some(s)) <= 3.0
  {
  }

  /** `prefer_fast` moves a low-usage model up by 2 and a high-usage one
      down by 1; an empty context never sets it. */
  lemma PreferFastEffect(model: string, t: TaskType, c: Complexity, ctx: Context, metrics: Table)
    requires Configured(model) && ctx != map[] && "prefer_fast" in ctx && Truthy(ctx["prefer_fast"])
    ensures var plain := RawScore(model, t, c, None, metrics);
      var fast := RawScore(model, t, c, Some(ctx), metrics);
      match ConfigOf(model).usage
      case Low => fast == plain + 2.0
      case High => fast == plain - 1.0
      case Medium => fast == plain
    ensures RawScore(model, t, c, Some(map[]), metrics) == RawScore(model, t, c, None, metrics)
  {
    var usage := ConfigOf(model).usage;
    PreferenceSplit(model, t, c, Some(ctx), metrics);
    PreferenceSplit(model, t, c, Some(map[]), metrics);
    assert Get(ctx, "prefer_fast", Bool(false)) == ctx["prefer_fast"];
    assert !Classifier.HasContext(Some(map[]));
  }

  /** A missing or falsy `prefer_fast` (`False`, `0`, `0.0`, "", an empty
      list or dictionary, `None`) leaves the score as without a context. */
  lemma FalsyPreferFastIgnored(model: string, t: TaskType, c: Complexity, ctx: Context, metrics: Table)
    requires Configured(model) && ("prefer_fast" !in ctx || !Truthy(ctx["prefer_fast"]))
    ensures RawScore(model, t, c, Some(ctx), metrics) == RawScore(model, t, c, None, metrics)
  {
    PreferenceSplit(model, t, c, Some(ctx), metrics);
  }

  /** The preference term is the only part of the score the context changes. */
  lemma PreferenceSplit(model: string, t: TaskType, c: Complexity, ctx: Option<Context>, metrics: Table)
    requires Configured(model)
    ensures RawScore(model, t, c, ctx, metrics)
      == RawScore(model, t, c, None, metrics) + PreferenceTerm(ctx, ConfigOf(model).usage)
  {
  }

  /** The generalist's capabilities and the code specialist's are disjoint. */
  lemma GeneralistAndCoderCapabilities()
    ensures AsSet([General, Creative, Analytical]) * AsSet([Capability.Coding, Technical]) == {}
  {
    var a, b := AsSet([General, Creative, Analytical]), AsSet([Capability.Coding, Technical]);
    assert a == {General, Creative, Analytical} && b == {Capability.Coding, Technical};
  }
}

=== FILE: selection.dfy ===
/** Python's `max(xs, key=f)`: a left-to-right scan that replaces the current
    best only on a strictly larger key, so the FIRST maximal element wins. */
module Selection {
  import opened Common

  function ArgMax<T>(xs: seq<T>, key: T -> real): (i: nat)
    requires |xs| > 0
    ensures i < |xs|
    ensures forall j :: 0 <= j < |xs| ==> key(xs[j]) <= key(xs[i])
    ensures forall j :: 0 <= j < i ==> key(xs[j]) < key(xs[i])
    decreases |xs|
  {
    if |xs| == 1 then 0
    else
      var b := ArgMax(xs[..|xs| - 1], key);
      if key(xs[|xs| - 1]) > key(xs[b]) then |xs| - 1 else b
  }

  /** A scan that starts from no element and key 0, skips `skip`, and takes
      an element only when its key is strictly larger than the best so far:
      the result is the first element with the largest positive key. */
  function ScanPositive<T(==)>(xs: seq<T>, skip: T, key: T -> nat): (r: (Option<T>, nat))
    ensures r.0.None? ==> r.1 == 0
    ensures r.0.Some? ==> r.0.value in xs && r.0.value != skip && r.1 == key(r.0.value) > 0
    ensures forall j :: 0 <= j < |xs| && xs[j] != skip ==> key(xs[j]) <= r.1
    ensures forall j :: 0 <= j < |xs| && xs[j] != skip && r.1 > 0 && key(xs[j]) == r.1 ==>
              r.0.Some? && r.0.value in xs[..j + 1]
    decreases |xs|
  {
    if xs == [] then (None, 0)
    else
      var prefix := xs[..|xs| - 1];
      var last := xs[|xs| - 1];
      var acc := ScanPositive(prefix, skip, key);
      DropLast(xs);
      assert forall j :: 0 <= j < |prefix| && prefix[j] != skip ==> key(prefix[j]) <= acc.1;
      if last != skip && key(last) > acc.1 then (Some(last), key(last))
      else acc
  }

  /** `v` has the largest positive key among the elements other than
      `skip`, and no other element with that key comes before it. */
  ghost predicate FirstBest<T>(xs: seq<T>, skip: T, key: T -> nat, v: T) {
    && key(v) > 0
    && (forall m :: m in xs && m != skip ==> key(m) <= key(v))
    && (forall j :: 0 <= j < |xs| && xs[j] != skip && key(xs[j]) == key(v) ==> v in xs[..j + 1])
  }

  /** What the scan finds, stated over elements: nothing exactly when no
      other element has a positive key, else the first best one. */
  lemma ScanPositiveBest<T>(xs: seq<T>, skip: T, key: T -> nat)
    ensures ScanPositive(xs, skip, key).0.None? <==> forall m :: m in xs && m != skip ==> key(m) == 0
    ensures ScanPositive(xs, skip, key).0.Some? ==> FirstBest(xs, skip, key, ScanPositive(xs, skip, key).0.value)
  {
    var r := ScanPositive(xs, skip, key);
    if r.0.None? {
      forall m | m in xs && m != skip ensures key(m) == 0 {
        var j :| 0 <= j < |xs| && xs[j] == m;
        assert key(xs[j]) <= r.1;
      }
    } else {
      forall m | m in xs && m != skip ensures key(m) <= r.1 {
        var j :| 0 <= j < |xs| && xs[j] == m;
        assert key(xs[j]) <= r.1;
      }
    }
  }

  /** Indexing and prefixes agree between a sequence and its front. */
  lemma DropLast<T>(xs: seq<T>)
    requires |xs| > 0
    ensures forall j :: 0 <= j < |xs| - 1 ==> xs[..|xs| - 1][j] == xs[j]
    ensures forall k :: 0 < k < |xs| ==> xs[..|xs| - 1][..k] == xs[..k]
  {
  }
}

=== FILE: simple_router.dfy ===
/** The static routing table `pick_model`: an environment override, then
    the complexity word alone picks the small, heavy or general model. */
module SimpleRouter {
  import opened Common
  import opened Text

  const SmallWords: seq<string> := ["tiny", "low", "leve"]
  const HeavyWords: seq<string> := ["hard", "heavy", "alta", "alta-complexidade"]

  function Small(env: map<string, string>): string {
    GetEnv(env, "SMALL_MODEL", "phi3:3.8b")
  }

  function General(env: map<string, string>): string {
    GetEnv(env, "GENERAL_MODEL", "qwen2.5:7b")
  }

  function Heavy(env: map<string, string>): string {
    GetEnv(env, "HEAVY_MODEL", "gpt-oss-20b")
  }

  /** `(x or default).lower()` with `None` and `""` both falsy. */
  function Normalise(x: Option<string>, default: string): string {
    if x.Some? && x.value != "" then Lower(x.value) else Lower(default)
  }

  /** `pick_model(task_type, complexity)` over an explicit environment. */
  function PickModel(env: map<string, string>, taskType: Option<string>, complexity: Option<string>): (r: string)
    ensures GetEnv(env, "MODEL_OVERRIDE", "") != "" ==> r == env["MODEL_OVERRIDE"]
    ensures GetEnv(env, "MODEL_OVERRIDE", "") == "" ==>
      var level := Normalise(complexity, "normal");
      && (level in SmallWords ==> r == Small(env))
      && (level in HeavyWords ==> r == Heavy(env))
      && (level !in SmallWords && level !in HeavyWords ==> r == General(env))
  {
    var override := GetEnv(env, "MODEL_OVERRIDE", "");
    if override != "" then override
    else
      var task := Normalise(taskType, "code");
      var level := Normalise(complexity, "normal");
      if level in SmallWords then Small(env)
      else if level in HeavyWords then Heavy(env)
      else if task in ["plan", "ideation", "pm"] then General(env)
      else if task in ["generate", "refactor", "test"] then General(env)
      else General(env)
  }

  /** The task type never changes the answer. */
  lemma TaskTypeIrrelevant(env: map<string, string>, t1: Option<string>, t2: Option<string>, complexity: Option<string>)
    ensures PickModel(env, t1, complexity) == PickModel(env, t2, complexity)
  {
  }

  /** A missing or empty complexity reads as "normal" and gives the general model. */
  lemma DefaultComplexityIsGeneral(env: map<string, string>, taskType: Option<string>, complexity: Option<string>)
    requires GetEnv(env, "MODEL_OVERRIDE", "") == ""
    requires complexity.None? || complexity == Some("")
    ensures PickModel(env, taskType, complexity) == General(env)
  {
    assert Normalise(complexity, "normal") == "normal";
  }

  /** The complexity word is compared after lower-casing: "LEVE" is small,
      "Alta" heavy. */
  lemma ComplexityIsCaseInsensitive(env: map<string, string>, taskType: Option<string>)
    requires GetEnv(env, "MODEL_OVERRIDE", "") == ""
    ensures PickModel(env, taskType, Some("LEVE")) == Small(env)
    ensures PickModel(env, taskType, Some("Alta")) == Heavy(env)
  {
    assert Lower("LEVE") == "leve";
    assert Lower("Alta") == "alta";
  }

  /** In general the complexity word matters only through its lower-cased
      form: any casing of a small word is small, of a heavy word heavy, and
      any other non-empty word general. */
  lemma ComplexityByLowerCase(env: map<string, string>, taskType: Option<string>, complexity: string)
    requires GetEnv(env, "MODEL_OVERRIDE", "") == ""
    ensures Lower(complexity) in SmallWords ==> PickModel(env, taskType, Some(complexity)) == Small(env)
    ensures Lower(complexity) in HeavyWords ==> PickModel(env, taskType, Some(complexity)) == Heavy(env)
    ensures complexity != "" && Lower(complexity) !in SmallWords && Lower(complexity) !in HeavyWords ==>
      PickModel(env, taskType, Some(complexity)) == General(env)
  {
    if complexity == "" {
      assert Lower(complexity) == "";
    }
  }

  /** Two complexity words with the same lower-cased form pick the same model. */
  lemma SameLowerSameModel(env: map<string, string>, taskType: Option<string>, c1: string, c2: string)
    requires Lower(c1) == Lower(c2)
    ensures PickModel(env, taskType, Some(c1)) == PickModel(env, taskType, Some(c2))
  {
    assert |c1| == |Lower(c1)| == |Lower(c2)| == |c2|;
  }

  /** The answer is always one of the three configured models or the override. */
  lemma AnswerIsConfigured(env: map<string, string>, taskType: Option<string>, complexity: Option<string>)
    ensures var r := PickModel(env, taskType, complexity);
      r == GetEnv(env, "MODEL_OVERRIDE", "") || r == Small(env) || r == General(env) || r == Heavy(env)
  {
  }
}

=== FILE: text.dfy ===
/** String primitives with Python's meaning: `str.lower`, `in` on strings,
    `str.find`, `str.strip` and `str.split` with a one-character separator. */
module Text {
  import opened Common

  /** The characters Python's `str.isspace` accepts (the complete table):
      tab to carriage return, the four separators 0x1C-0x1F, space, NEL,
      no-break space, the ogham space mark, the spaces 0x2000-0x200A, the
      line and paragraph separators, and the narrow, mathematical and
      ideographic spaces. */
  const Whitespace: set<char> := {
    '\U{0009}', '\U{000A}', '\U{000B}', '\U{000C}', '\U{000D}', '\U{001C}',
    '\U{001D}', '\U{001E}', '\U{001F}', '\U{0020}', '\U{0085}', '\U{00A0}',
    '\U{1680}', '\U{2000}', '\U{2001}', '\U{2002}', '\U{2003}', '\U{2004}',
    '\U{2005}', '\U{2006}', '\U{2007}', '\U{2008}', '\U{2009}', '\U{200A}',
    '\U{2028}', '\U{2029}', '\U{202F}', '\U{205F}', '\U{3000}'
  }

  predicate IsSpace(c: char) {
    c in Whitespace
  }

  /** `str.lower` on one character, for ASCII and Latin-1 letters. */
  function LowerChar(c: char): char {
    var n := c as int;
    if 65 <= n <= 90 || (0xC0 <= n <= 0xDE && n != 0xD7) then (n + 32) as char else c
  }

  function Lower(s: string): string {
    seq(|s|, i requires 0 <= i < |s| => LowerChar(s[i]))
  }

  lemma LowerAppend(a: string, b: string)
    ensures Lower(a + b) == Lower(a) + Lower(b)
  {
  }

  predicate IsPrefix(k: string, s: string) {
    |k| <= |s| && s[..|k|] == k
  }

  /** Python's `k in s` for strings. */
  predicate Contains(s: string, k: string)
    decreases |s|
  {
    IsPrefix(k, s) || (|s| > 0 && Contains(s[1..], k))
  }

  predicate OccursAt(s: string, k: string, i: int) {
    0 <= i && i + |k| <= |s| && s[i..i + |k|] == k
  }

  /** Substring containment is the existence of an occurrence. */
  lemma {:induction false} ContainsIff(s: string, k: string)
    ensures Contains(s, k) <==> exists i :: OccursAt(s, k, i)
    decreases |s|
  {
    if IsPrefix(k, s) {
      assert OccursAt(s, k, 0);
    } else if |s| == 0 {
      forall i | OccursAt(s, k, i) ensures false {
      }
    } else {
      ContainsIff(s[1..], k);
      ShiftOccurrence(s, k);
      if Contains(s[1..], k) {
        var i :| OccursAt(s[1..], k, i);
        assert OccursAt(s, k, i + 1);
      } else {
        assert !OccursAt(s, k, 0);
        forall i | 1 <= i ensures !OccursAt(s, k, i) {
          assert !OccursAt(s[1..], k, i - 1);
        }
      }
    }
  }

  /** An occurrence in a part is an occurrence in the whole. */
  lemma ContainsInSlice(s: string, lo: nat, hi: nat, k: string)
    requires lo <= hi <= |s|
    requires Contains(s[lo..hi], k)
    ensures Contains(s, k)
  {
    ContainsIff(s[lo..hi], k);
    var i :| OccursAt(s[lo..hi], k, i);
    var a, b := s[lo..hi][i..i + |k|], s[lo + i..lo + i + |k|];
    forall j | 0 <= j < |k| ensures a[j] == b[j] {
    }
    assert a == b;
    assert OccursAt(s, k, lo + i);
    ContainsIff(s, k);
  }

  /** `s.find(k)`: the first occurrence, if any. */
  function IndexOf(s: string, k: string): (r: Option<nat>)
    ensures r.Some? ==> OccursAt(s, k, r.value)
    ensures r.Some? ==> forall i :: 0 <= i < r.value ==> !OccursAt(s, k, i)
    ensures r.None? ==> forall i :: !OccursAt(s, k, i)
    decreases |s|
  {
    if IsPrefix(k, s) then Some(0)
    else if |s| == 0 then None
    else
      var rest := IndexOf(s[1..], k);
      ShiftOccurrence(s, k);
      if rest.None? then None else Some(rest.value + 1)
  }

  /** Occurrences in `s` after position 0 are the occurrences in `s[1..]`. */
  lemma ShiftOccurrence(s: string, k: string)
    requires |s| > 0
    ensures forall i :: 1 <= i ==> (OccursAt(s, k, i) <==> OccursAt(s[1..], k, i - 1))
  {
    forall i | 1 <= i
      ensures OccursAt(s, k, i) <==> OccursAt(s[1..], k, i - 1)
    {
      if i + |k| <= |s| {
        var a, b := s[i..i + |k|], s[1..][i - 1..i - 1 + |k|];
        forall j | 0 <= j < |k| ensures a[j] == b[j] {
        }
        assert a == b;
      }
    }
  }

  /** `s.rfind(c, lo, hi)` for `0 <= lo` and `hi <= |s|`: the last position
      in `[lo, hi)` holding `c`, or -1. */
  function RFind(s: string, c: char, lo: int, hi: int): (r: int)
    requires 0 <= lo && hi <= |s|
    ensures r == -1 || (lo <= r < hi && s[r] == c)
    ensures r == -1 ==> forall k :: lo <= k < hi ==> s[k] != c
    ensures r != -1 ==> forall k :: r < k < hi ==> s[k] != c
    decreases hi - lo
  {
    if hi <= lo then -1
    else if s[hi - 1] == c then hi - 1
    else RFind(s, c, lo, hi - 1)
  }

  /** Index of the first character that is not whitespace (|s| if none). */
  function LeadingSpaces(s: string): (n: nat)
    ensures n <= |s|
    ensures forall k :: 0 <= k < n ==> IsSpace(s[k])
    ensures n < |s| ==> !IsSpace(s[n])
    decreases |s|
  {
    if |s| > 0 && IsSpace(s[0]) then 1 + LeadingSpaces(s[1..]) else 0
  }

  /** Number of whitespace characters at the end of `s`. */
  function TrailingSpaces(s: string): (n: nat)
    ensures n <= |s|
    ensures forall k :: |s| - n <= k < |s| ==> IsSpace(s[k])
    ensures n < |s| ==> !IsSpace(s[|s| - n - 1])
    decreases |s|
  {
    if |s| > 0 && IsSpace(s[|s| - 1]) then 1 + TrailingSpaces(s[..|s| - 1]) else 0
  }

  /** `str.strip()`: the largest slice without leading or trailing whitespace. */
  function Strip(s: string): (r: string)
    ensures LeadingSpaces(s) + |r| <= |s|
    ensures r == s[LeadingSpaces(s)..LeadingSpaces(s) + |r|]
    ensures r == [] <==> forall k :: 0 <= k < |s| ==> IsSpace(s[k])
    ensures r != [] ==> !IsSpace(r[0]) && !IsSpace(r[|r| - 1])
    ensures forall k :: LeadingSpaces(s) + |r| <= k < |s| ==> IsSpace(s[k])
  {
    var lead := LeadingSpaces(s);
    if lead == |s| then ""
    else
      var trail := TrailingSpaces(s);
      assert !IsSpace(s[lead]);
      assert lead < |s| - trail;
      s[lead..|s| - trail]
  }

  /** `s.split(c)` for a one-character separator. */
  function Split(s: string, c: char): (parts: seq<string>)
    ensures |parts| >= 1
    ensures forall i :: 0 <= i < |parts| ==> c !in parts[i]
    decreases |s|
  {
    if |s| == 0 then [""]
    else if s[0] == c then [""] + Split(s[1..], c)
    else
      var rest := Split(s[1..], c);
      [[s[0]] + rest[0]] + rest[1..]
  }

  /** The split of a text followed by a separator and a separator-free tail
      is the split of the text, then the tail. */
  lemma {:induction false} SplitThenTail(x: string, c: char, tail: string)
    requires c !in tail
    ensures Split(x + [c] + tail, c) == Split(x, c) + [tail]
    decreases |x|
  {
    var s := x + [c] + tail;
    if |x| == 0 {
      assert s == [c] + tail;
      assert s[1..] == tail;
      SplitNoSeparator(tail, c);
    } else {
      assert s[1..] == x[1..] + [c] + tail;
      SplitThenTail(x[1..], c, tail);
      if x[0] != c {
        var rest := Split(x[1..], c);
        assert Split(x, c) == [[x[0]] + rest[0]] + rest[1..];
      }
    }
  }

  /** A text without the separator splits into itself. */
  lemma {:induction false} SplitNoSeparator(s: string, c: char)
    requires c !in s
    ensures Split(s, c) == [s]
    decreases |s|
  {
    if |s| > 0 {
      assert c !in s[1..];
      SplitNoSeparator(s[1..], c);
      assert s == [s[0]] + s[1..];
    }
  }

  /** A separator-free head followed by the separator and a text splits
      into the head, then the text's split. */
  lemma {:induction false} SplitHead(head: string, c: char, x: string)
    requires c !in head
    ensures Split(head + [c] + x, c) == [head] + Split(x, c)
    decreases |head|
  {
    var s := head + [c] + x;
    if |head| == 0 {
      assert s == [c] + x;
      assert s[1..] == x;
    } else {
      assert s[1..] == head[1..] + [c] + x;
      assert c !in head[1..];
      SplitHead(head[1..], c, x);
      assert [head[0]] + head[1..] == head;
    }
  }

  /** `s.count(c)` for one character. */
  function Count(s: string, c: char): nat
    decreases |s|
  {
    if |s| == 0 then 0 else (if s[0] == c then 1 else 0) + Count(s[1..], c)
  }

  /** `s.split(c)` has one more part than `s` has separators. */
  lemma {:induction false} SplitLength(s: string, c: char)
    ensures |Split(s, c)| == Count(s, c) + 1
    decreases |s|
  {
    if |s| > 0 {
      SplitLength(s[1..], c);
    }
  }

  /** `c.join(parts)` */
  function Join(parts: seq<string>, c: char): string
    decreases |parts|
  {
    if |parts| == 0 then ""
    else if |parts| == 1 then parts[0]
    else parts[0] + [c] + Join(parts[1..], c)
  }

  /** Splitting and joining on the same separator gives the string back. */
  lemma {:induction false} JoinSplit(s: string, c: char)
    ensures Join(Split(s, c), c) == s
    decreases |s|
  {
    if |s| == 0 {
    } else if s[0] == c {
      JoinSplit(s[1..], c);
      assert s == [c] + s[1..];
    } else {
      JoinSplit(s[1..], c);
      var rest := Split(s[1..], c);
      if |rest| == 1 {
        assert s == [s[0]] + s[1..];
      } else {
        assert Join(rest, c) == rest[0] + [c] + Join(rest[1..], c);
        assert s == [s[0]] + s[1..];
      }
    }
  }
}
